=== FILE: README.md ===
# Klotski core in Dafny

A model of the core of a Java sliding-block puzzle game (Klotski, 华容道):
levels read from text files, the board with its moves, undo, reset, focus and
victory test, the breadth-first hint solver, the per-user save files with
their integrity checks and history repair, the settings file, the user
accounts, and the pure rules inside the game's views (limits, clocks,
records, drag gestures, the pixel-to-cell mapping, the level list).

The repository holds two generations of some classes: a `src/` tree and a
later top-level tree (`model/GameMap.java`, `util/Saver.java`,
`util/UserController.java`, `util/AiSolver.java`). Where the two save
utilities differ, `SaveStore.Saver` selects the behaviour (`Lenient` for
`src/util/Saver.java`, `Strict` for `util/Saver.java`); where the user
controllers differ the model follows the later one, which adds password
and name changes.

Modules, one per component:

- `Wrappers` (wrappers.dfy): `Option`, the stand-in for a nullable reference.
- `JavaText` (java_text.dfy): the Java integer and string semantics the game
  relies on: 32/64-bit ranges and wrap-around, truncating `/` and `%`,
  `trim`, `split` with and without a limit, `indexOf`, `substring`,
  `Integer.parseInt`, `Long.parseLong`, `Boolean.parseBoolean`, `%02d`.
- `Tiles` (tiles.dfy): `Block.java`: the four tile kinds, footprints, steps.
- `Boards` (board.dfy): `Board.java`: move with bounds and collision checks,
  the history stack, undo, reset, copy, focus, victory.
- `GameMaps` (game_map.dfy): `model/GameMap.java`: the level parser, the layout
  validation and tile derivation, the goal cells.
- `Solver` (solver.dfy): `util/AiSolver.java`: the layered breadth-first search.
- `SaveRecords` (save_records.dfy): one save record, its body and line
  format, and both utilities' format checks.
- `SaveStore` (save_store.dfy): the save file as a whole: reading, merging a
  save, history validation and truncation, the load flow.
- `GameRules` (game_rules.dfy): the rules inside `Game.java`, `Victory.java`
  and `Select.java`.
- `Configs` (configs.dfy): `src/util/Config.java`.
- `Users` (users.dfy): both user controllers.

File contents are sequences of lines; a file that does not exist is the
empty sequence. The MD5 digest and the password hash are function-valued
parameters. The player's answers to confirmation dialogs are boolean inputs.
The clock is an input: elapsed milliseconds.

## Model

| member | source | states |
|---|---|---|
| Tiles.SizeOf | src/model/Block.java:24-38 | a small tile is 1×1, a horizontal one 1 row × 2 columns, a vertical one 2 rows × 1 column, a large one 2×2, and no two kinds share a size |
| Tiles.Footprint | src/model/Block.java:41-49 | the listed cells are exactly the cells of the tile's rectangle, pairwise distinct, height × width of them, the anchor first |
| Tiles.OccupiedCells | src/model/Block.java:41-49 | a cell is listed exactly when the tile covers it |
| Tiles.Step | src/model/Block.java:51-58 | up and down change only the row by ∓1/±1, left and right only the column |
| Tiles.MoveTo | src/model/Block.java:63 | the moved tile has the given anchor and keeps its id and kind |
| Tiles.Copy | src/model/Block.java:67-69 | the copy carries the same id, kind and anchor |
| Tiles.Opposite | src/model/Board.java:211-218 | the opposite direction differs from the original and lies on the same axis |
| Tiles.OppositeInvolution | src/model/Board.java:211-218 | the opposite of the opposite is the original direction |
| Tiles.StepOpposite | src/model/Board.java:128 | stepping one way and then the opposite way returns to the start cell |
| Tiles.StepCovers | src/model/Board.java:97-103 | the tile moved one step covers a cell's image under the step exactly when the unmoved tile covers the cell |
| Boards.NewBoard | src/model/Board.java:27-39 | a fresh board keeps the tiles and goal cells, has no history and no focus, and records each tile's anchor as its initial position |
| Boards.OverlapsIsRectsMeet | src/model/Board.java:99-110 | two footprints share a cell exactly when their rectangles meet on both axes |
| Boards.Shift | src/model/Board.java:85-117 | the step fails exactly when the moved footprint leaves the grid or one of its cells is covered by another tile; on success only the moved tile changes, its anchor stepped, id and kind kept |
| Boards.MoveBlock | src/model/Board.java:85-117 | success exactly when the step is possible; a refused move leaves the board unchanged (the provisional history push is popped); a successful one sets the tiles and pushes one (id, direction) entry on top of the history |
| Boards.ShiftPreservesLegal | src/model/Board.java:85-117 | a successful move of a board whose tiles are on the grid and pairwise disjoint yields such a board again |
| Boards.FindBlockById | src/model/Board.java:33-38 | the id map resolves to the last tile carrying the id, and to nothing exactly when no tile carries it |
| Boards.FirstWithId | src/util/Saver.java:243-245 | the position of the first tile carrying the id, and none exactly when no tile carries it |
| Boards.LookupsAgree | src/model/Board.java:77-79 | with distinct ids the id map and a first-match search over the tiles agree |
| Boards.Undo | src/model/Board.java:123-132 | with an empty history nothing changes; otherwise the newest entry is popped and, if its id resolves, exactly that tile steps back against the recorded direction, keeping its id and kind |
| Boards.UndoAfterMove | src/model/Board.java:123-132 | undo right after a successful move restores the board exactly and succeeds |
| Boards.Reset | src/model/Board.java:137-143 | every tile returns to its initial position with id and kind kept, the history is emptied and the focus cleared |
| Boards.ResetIdempotent | src/model/Board.java:137-143 | resetting twice is the same as resetting once |
| Boards.ResetAfterMove | src/model/Board.java:137-143 | a move followed by a reset is the same as a reset, whether or not the move succeeded |
| Boards.GetBlockAt | src/model/Board.java:61-70 | the first tile covering the cell, and nothing exactly when no tile covers it |
| Boards.FirstLarge | src/model/Board.java:179-180 | the first large tile, and nothing exactly when there is none |
| Boards.Victorious | src/model/Board.java:178-190 | victory exactly when there is a large tile and every cell of the first one is a goal cell |
| Boards.NoLargeNoVictory | src/model/Board.java:178-190 | a board without a large tile is never won |
| Boards.Copy | src/model/Board.java:195-199 | the copy has the same tiles, grid and goals, no history, no focus, and the copied anchors as its initial positions |
| Boards.ResetCopy | src/model/Board.java:44-54 | resetting a fresh copy changes nothing |
| Boards.GetHistory | src/model/Board.java:204-208 | the moves oldest first: the stack read from the bottom |
| Boards.HistoryAfterMove | src/model/Board.java:204-208 | after a successful move the oldest-first history gains exactly that move at its end |
| Boards.MoveFocus | src/model/Board.java:160-167 | only the focus changes; without focus, or when no tile covers the focused tile's anchor stepped once, nothing changes; otherwise the focus moves to the first tile in list order covering that cell |
| Boards.MoveFocusStuck | src/model/Board.java:160-167 | on a vertical tile above a small one, moving the focus down as written stays on the vertical tile, while probing beyond the facing edge reaches the small tile |
| Boards.EdgeProbe | src/model/Board.java:162 | the probe cell beyond the facing edge is never covered by the focused tile |
| Boards.MoveFocusEdge | src/model/Board.java:160-167 | as moveFocus, but probing the cell just beyond the focused tile's facing edge: only the focus changes, it stays exactly when no tile covers that cell, and otherwise moves to the first tile covering it |
| Boards.MoveFocusEdgeLeaves | src/model/Board.java:160-167 | the edge probe never finds the focused tile itself, so whenever a tile lies beyond the facing edge the focus leaves the focused tile for the first such tile |
| GameMaps.GridCells | model/GameMap.java:237-247 | the cells of the rows × cols grid, each once, in row-major order |
| GameMaps.ParseLimitsAsWritten | model/GameMap.java:60-67 | the constructor throws exactly when the trimmed first line is a single token holding a valid number, since the second token it indexes is missing |
| GameMaps.ParseLimits | model/GameMap.java:60-67 | the limits are valid exactly when the first two tokens both parse, and then they are those numbers; wherever the code as written does not throw it agrees with it |
| GameMaps.ParseCell | model/GameMap.java:97-114 | a token is a goal exactly when its trimmed text ends in `*`; it reads without error exactly when the text left after the marker is empty or a 32-bit number; blank text is tile 0, a plain number is that tile, and a failed parse yields 0 |
| GameMaps.CellOfBody | model/GameMap.java:104-114 | the text left after the marker: empty is 0, a number is itself, anything else is 0 with an error |
| GameMaps.MaxLen | model/GameMap.java:80-82 | the column count is the length of the longest row, and 0 for no rows |
| GameMaps.CellsOf | model/GameMap.java:137-142 | the cells of a tile id are exactly the listed grid cells carrying that id, in the scan's order |
| GameMaps.Insert | model/GameMap.java:135-140 | adding an id to an ascending list of distinct ids keeps it ascending and adds just that id |
| GameMaps.IdsIn | model/GameMap.java:177-185 | the non-zero ids present in the grid, each once, ascending |
| GameMaps.MinRow | model/GameMap.java:157 | the smallest row of a tile's cells, attained by one of them |
| GameMaps.MaxRow | model/GameMap.java:158 | the largest row of a tile's cells, attained by one of them |
| GameMaps.MinCol | model/GameMap.java:159 | the smallest column of a tile's cells, attained by one of them |
| GameMaps.MaxCol | model/GameMap.java:160 | the largest column of a tile's cells, attained by one of them |
| GameMaps.KindOf | model/GameMap.java:199-205 | one cell is small; two cells are horizontal exactly when the first two share a row and vertical otherwise; four cells are large |
| GameMaps.ShapeIsFootprint | model/GameMap.java:151-168 | the cells of a tile that passes the count and bounding-box checks are exactly the footprint of the derived kind at its first cell |
| GameMaps.Layout | model/GameMap.java:89-116 | a rows × cols table holding each token's id, 0 where a row is short |
| GameMaps.Zone | model/GameMap.java:89-116 | a rows × cols table marking each starred token, false where a row is short |
| GameMaps.VictoryCells | model/GameMap.java:237-247 | exactly the marked grid cells, in row-major order |
| GameMaps.TileCells | model/GameMap.java:179-185 | exactly the grid cells carrying an id, in row-major order |
| GameMaps.IdList | model/GameMap.java:187 | the distinct non-zero ids of the grid, ascending |
| GameMaps.MakeBlocks | model/GameMap.java:187-209 | one tile per id, anchored at its first cell in row-major order, of the kind its cells give |
| GameMaps.TilesOf | model/GameMap.java:176-209 | one tile per non-zero id, in ascending id order, anchored at the id's top-left cell, with the kind its cells give |
| GameMaps.Parts | model/GameMap.java:69-72 | each body line, trimmed and split at commas |
| GameMaps.Build | model/GameMap.java:78-126 | rows are the body lines and cols the longest row; the id and goal tables hold each token's reading, 0 and unmarked where a row is short; the tiles are those the id table determines; which inputs make the level invalid is stated by the rejection lemmas below |
| GameMaps.ParseMap | model/GameMap.java:48-126 | an empty file is invalid; a valid map has a non-empty grid, well-shaped tiles, a large tile and at least four goal cells; it agrees with the constructor wherever that does not throw |
| GameMaps.OneLimitCrashes | model/GameMap.java:62-63 | a level whose first line is just "60" makes the constructor throw, and the corrected parser reports it invalid |
| GameMaps.SixtyAlone | model/GameMap.java:60 | the line "60" is the single token "60", which parses as 60 |
| GameMaps.WellShapedTiles | model/GameMap.java:134-209 | on a well-shaped grid the derived tiles cover exactly the cells carrying their ids |
| GameMaps.ExactTilesLegal | model/GameMap.java:134-209 | tiles with distinct ids that cover exactly their ids' cells are on the grid and pairwise disjoint |
| GameMaps.TilesUnique | model/GameMap.java:187-209 | the derived tiles carry distinct ids |
| GameMaps.ValidTilesMatchLayout | model/GameMap.java:118-125 | the tiles of a valid map cover exactly the cells carrying their ids, lie on the grid, do not overlap and have distinct ids |
| GameMaps.ShapedTilesLegal | model/GameMap.java:134-209 | on a well-shaped grid the derived tiles are on the grid, disjoint and distinctly numbered |
| GameMaps.TileAnchorsFirst | model/GameMap.java:193-196 | each tile's anchor comes no later in row-major order than any cell carrying its id |
| GameMaps.ToBoard | src/model/Board.java:27-39 | the board built from a map has the map's rows and columns, its tiles, no history, no focus, and exactly its marked cells as goals |
| GameMaps.TwoTokens | model/GameMap.java:60 | a limits line of two blank-free numbers separated by one space splits into exactly those two tokens |
| GameMaps.RowCells | model/GameMap.java:237-247 | the cells of one row, each column once, in order |
| GameMaps.ZoneCells | model/GameMap.java:237-247 | exactly the scanned grid cells marked as goals, in the scan's order |
| GameMaps.LimitsRejected | model/GameMap.java:60-67 | a level whose first line does not start with two 32-bit numbers is invalid |
| GameMaps.BadTokenRejected | model/GameMap.java:104-113 | a level holding a token whose text, goal mark removed, is neither empty nor a 32-bit number is invalid |
| GameMaps.ValidIdIsTile | model/GameMap.java:134-209 | in a valid level every non-zero id on the grid belongs to a tile whose footprint is exactly that id's cells |
| GameMaps.MisshapedRejected | model/GameMap.java:151-168 | a level with a non-zero id whose cells are no tile's footprint is invalid |
| GameMaps.ValidHasLargeBlock | model/GameMap.java:211-222 | a valid level has a large tile whose 2×2 footprint is exactly its id's cells |
| GameMaps.NoLargeRejected | model/GameMap.java:211-222 | a level in which no id covers a 2×2 square is invalid |
| GameMaps.FewGoalsRejected | model/GameMap.java:118-125 | a level with fewer than four goal cells is invalid |
| GameMaps.ShapeSides | model/GameMap.java:151-168 | the cells passing the count and bounding-box checks span one or two rows and columns, one cell being 1×1, two cells 1×2 or 2×1, four cells 2×2 |
| Solver.Reverse | util/AiSolver.java:144-151 | the reversed direction differs from the original and undoes its step from every cell |
| Solver.ReverseInvolution | util/AiSolver.java:144-151 | reversing twice gives the original direction |
| Solver.Backwards | util/AiSolver.java:136-139 | the backward path read from its end, each direction reversed |
| Solver.MergePaths | util/AiSolver.java:133-141 | the forward path followed by the backward path reversed and with its directions reversed |
| Solver.MergeWithGoal | util/AiSolver.java:84-88 | merging with the empty path recorded for the first victorious state returns the forward path unchanged |
| Solver.PlacesAt | util/AiSolver.java:156-166 | the key lists one (kind, anchor) placement per tile, in tile order |
| Solver.KeyUpdate | util/AiSolver.java:156-166 | replacing one tile swaps exactly its placement in the state key |
| Solver.KeyIgnoresId | util/AiSolver.java:156-166 | the state key does not depend on tile ids |
| Solver.KeyIgnoresOrder | util/AiSolver.java:164 | swapping two tiles leaves the state key unchanged, as the sort before the join does |
| Solver.InKey | util/AiSolver.java:156-166 | every tile's placement occurs in the key |
| Solver.FromKey | util/AiSolver.java:156-166 | every placement in the key is some tile's placement |
| Solver.ShiftAgrees | util/AiSolver.java:64-72 | two tile lists with the same key and a tile in the same place allow the same step and lead to the same key, so deduplicating by key loses no move |
| Solver.VictoryByKey | src/model/Board.java:178-190 | with one large tile, victory holds exactly when the key holds a large placement on the goal cells |
| Solver.VictorySameKey | util/AiSolver.java:80 | with one large tile, lists with the same key are won together or not at all |
| Solver.ReplaySnoc | util/AiSolver.java:74-75 | replaying a path extended by one move applies that move to the replay of the path |
| Solver.ShiftFacts | util/AiSolver.java:70 | a step keeps the tiles' kinds and ids and keeps a board on the grid and disjoint |
| Solver.ReplayKeeps | util/AiSolver.java:74-77 | every replayed state of a legal board is legal |
| Solver.Reached | util/AiSolver.java:74-77 | each state reached from a legal board with one large tile is legal and has one large tile |
| Solver.AnchorLookup | util/AiSolver.java:65-69 | on a legal board the cell at a tile's anchor resolves to that tile |
| Solver.Reach | util/AiSolver.java:54-93 | once all layers up to n are expanded, every state reachable in at most n moves is recorded with a path no longer than its shortest route |
| Solver.NoWinWithin | util/AiSolver.java:54-93 | when the layers up to n are expanded without a win, no path of at most n moves wins |
| Solver.LayerShrinks | util/AiSolver.java:54-58 | a non-empty next layer strictly shrinks the set of unvisited keys, which bounds the search |
| Solver.TryMove | util/AiSolver.java:66-89 | a found path solves the puzzle in depth + 1 moves; otherwise the move's result is recorded and the search invariant kept |
| Solver.ExpandTile | util/AiSolver.java:64-91 | a found path solves the puzzle in depth + 1 moves; otherwise all four directions of the tile are recorded |
| Solver.ExpandBoard | util/AiSolver.java:59-91 | a found path solves the puzzle in depth + 1 moves; otherwise every successor of the board is recorded |
| Solver.ExpandLayer | util/AiSolver.java:56-93 | a found path solves the puzzle in depth + 1 moves; otherwise every board of the layer is closed |
| Solver.Solve | util/AiSolver.java:34-130 | an already won board gives the empty path; every returned path solves the puzzle; for a legal board with one large tile a returned path is shortest and no result means no path solves it |
| SaveRecords.NewEntry | src/util/Saver.java:334-337 | a fresh record carries the level's name and digest, an empty history and zero counters |
| SaveRecords.DirName | src/util/Saver.java:363 | a direction's name holds none of the separators `:`, `;`, `,` and no line break |
| SaveRecords.DirValueOf | src/util/Saver.java:395 | `Direction.valueOf` is the inverse of `name()`: it accepts exactly the four names, each giving its own direction |
| SaveRecords.MoveToken | src/util/Saver.java:362-363 | an `id:DIR` token is non-empty and holds no `;`, `,` or line break |
| SaveRecords.HistoryText | src/util/Saver.java:361-364 | the history text holds no comma and no line break, and is empty exactly for the empty history |
| SaveRecords.ParseTokens | src/util/Saver.java:391-397 | the parsed tokens never yield more moves than there are tokens |
| SaveRecords.BodyFields | src/util/Saver.java:351-366 | the nine body fields: the level digest first, the mode sixth, the history text last |
| SaveRecords.BodyFieldsPlain | src/util/Saver.java:354-360 | every field except the digest and the mode is free of commas and line breaks |
| SaveRecords.ToBody | src/util/Saver.java:351-366 | a body is never empty and always splits with limit 9 into exactly nine parts, even with an empty history |
| SaveRecords.FromBody | src/util/Saver.java:379-400 | a parsed record carries the given name and comma-free digest and mode, and came from a body with nine parts |
| SaveRecords.SplitHistoryText | src/util/Saver.java:361-364 | the history text splits at `;` into one token per move followed by one empty field |
| SaveRecords.SplitToken | src/util/Saver.java:393 | a move token splits at `:` into the id's decimal text and the direction's name |
| SaveRecords.ParseTokensRendered | src/util/Saver.java:391-397 | tokens rendered from moves parse back as those moves |
| SaveRecords.SplitHistory | src/util/Saver.java:391 | a non-empty history text splits, trailing empty field dropped, into exactly its move tokens |
| SaveRecords.ParseHistoryRendered | src/util/Saver.java:389-398 | the history text of any history parses back as that history |
| SaveRecords.ParseBooleanRendered | src/util/Saver.java:385 | the rendered in-game flag parses back as itself |
| SaveRecords.BodyRoundTrip | src/util/Saver.java:379-400 | a record whose digest and mode hold no comma is read back from its body exactly, history included |
| SaveRecords.RenderLine | src/util/Saver.java:188 | the line `[name,md5]{body}`: five characters longer than its parts, opening with `[` and closing with `}` |
| SaveRecords.EntryLine | src/util/Saver.java:280 | a written record line has no blank at either end |
| SaveRecords.RenderedShape | src/util/Saver.java:160 | a line rendered from a non-empty comma-free name, a 32-hex digest and a non-empty single-line body matches the record pattern |
| SaveRecords.ShapeIsRendered | src/util/Saver.java:160 | every line matching the record pattern is such a rendered line, so the pattern and the renderer describe the same set |
| SaveRecords.CheckFormatIgnoresHeader | src/util/Saver.java:153-166 | the check rejects an empty file and never looks at the first line |
| SaveRecords.StrictIsStricter | util/Saver.java:46-81 | every file the stricter check accepts is accepted by the plain pattern check |
| SaveRecords.BodySingleLine | src/util/Saver.java:351-366 | a body built from single-line digest and mode is a single line |
| SaveRecords.EntryLineShape | src/util/Saver.java:188 | the line written for a storable record matches the record pattern |
| SaveRecords.RenderedPositions | src/util/Saver.java:115-118 | in a rendered line the first `[`, first `]`, first `{` and last `}` sit where the reader expects them, so name, digest and body slice back out |
| SaveRecords.BodyFieldsOk | util/Saver.java:59-78 | the stricter check accepts a record's body exactly when none of its five counters is negative |
| SaveRecords.EntryLineStrict | util/Saver.java:53-78 | the stricter check accepts a storable record's line exactly when none of its counters is negative |
| SaveRecords.SplitLine | src/util/Saver.java:115-118 | the name sliced from a line holds no `,` and no `]` |
| SaveRecords.SplitRendered | src/util/Saver.java:115-118 | slicing a rendered line gives back its name, digest and body |
| SaveRecords.EntryLineReadsBack | src/util/Saver.java:113-125 | the line written for a storable record slices back to its name, the digest of its body and its body, and that body reads back as the record |
| SaveStore.Find | src/util/Saver.java:108 | the position of the first record for a name, and none exactly when no record carries it |
| SaveStore.Lookup | src/util/Saver.java:265 | the record stored under a name, carrying that name, and none exactly when absent |
| SaveStore.Put | src/util/Saver.java:267 | afterwards the name maps to the new record and every other name to what it mapped before; an existing name keeps its position, a new one is appended; names stay distinct |
| SaveStore.FindSnoc | src/util/Saver.java:267 | after appending a record for a new name, that name is found at the end and every other name where it was |
| SaveStore.FindUnchanged | src/util/Saver.java:267 | replacing a record under its own name moves no other name |
| SaveStore.ReadRecord | src/util/Saver.java:204-209 | a record read from a line carries the name and digest sliced out of it |
| SaveStore.ReadRecordWritten | src/util/Saver.java:188 | a written line reads back as its record and the digest of its body |
| SaveStore.ReadEntries | src/util/Saver.java:204-210 | reading keeps names distinct and succeeds exactly when every line reads |
| SaveStore.LoadEntries | util/Saver.java:354-378 | the records of a file, names distinct; on an unreadable line the strict utility returns nothing, and a fully readable file gives all its records |
| SaveStore.RenderFile | src/util/Saver.java:180-195 | the header line, then one rendered line per record in map order |
| SaveStore.ReadWritten | src/util/Saver.java:198-215 | reading written lines gives back every record, in order, after those already read |
| SaveStore.LoadWritten | src/util/Saver.java:198-215 | a written file reads back as exactly the map it was written from, with either utility |
| SaveStore.WrittenFileChecks | util/Saver.java:46-81 | a written file passes the plain pattern check, and the stricter check when no counter is negative |
| SaveStore.Update | src/util/Saver.java:339-349 | the new counters, flag, mode, elapsed time and history; the move count is the history's length; name and level digest stay |
| SaveStore.UpdateOverwrites | src/util/Saver.java:339-349 | updating twice is updating once with the second values |
| SaveStore.Truncate | src/util/Saver.java:402-406 | the first k moves are kept, the move count is k and the elapsed time k seconds; nothing else changes |
| SaveStore.TruncateTwice | src/util/Saver.java:402-406 | truncating further is truncating once to the shorter length |
| SaveStore.Header | src/util/Saver.java:271 | the level name when one is given, otherwise "null" |
| SaveStore.SavedEntry | util/Saver.java:326-336 | the saved record carries the new values and a move count equal to the history's length; the strict utility and a fresh record take the level's current digest, the lenient one keeps a stored record's digest |
| SaveStore.SaveInternal | src/util/Saver.java:256-287 | the written file starts with the header and holds at least one record |
| SaveStore.SaveResult | src/util/Saver.java:289-294 | a result save writes the header "null" |
| SaveStore.SaveManual | src/util/Saver.java:296-301 | a manual save writes the level's name as header |
| SaveStore.SaveThenRead | src/util/Saver.java:256-287 | reading the saved file gives the old map with the level's record put in, every other record unchanged and in place |
| SaveStore.PutStorable | src/util/Saver.java:267 | putting a storable record into a storable map keeps every record storable |
| SaveStore.StrictSaveDropsOnUnreadable | util/Saver.java:371-377 | a strict save over a file with an unreadable record line writes the header and the saved record only, dropping all others |
| SaveStore.CountAccepted | src/util/Saver.java:238-251 | the count never exceeds the history's length; the lenient utility always yields one, the strict one fails on an unknown tile id |
| SaveStore.ApplyEntry | src/util/Saver.java:242-248 | one checked entry applies only when its tile id is found and the move is accepted |
| SaveStore.FullCountIsReplay | src/util/Saver.java:238-251 | the count reaches the history's length exactly when every entry replays with checks |
| SaveStore.ValidPrefix | src/util/Saver.java:134-141 | the length of the longest replaying prefix never exceeds the history's length |
| SaveStore.ValidPrefixIsLongest | src/util/Saver.java:134-141 | the kept prefix replays, one more entry does not, and the whole history is kept exactly when it replays |
| SaveStore.RepairHistory | src/util/Saver.java:134-141 | the repaired record's history is a prefix of the old one that replays, with move count and elapsed time set from its length |
| SaveStore.CountKeepsRefusedMove | src/util/Saver.java:242-249 | on a one-cell-wide strip, a refused move followed by an accepted one counts 1, so truncation keeps the refused move, while the longest replaying prefix is empty |
| SaveStore.ReplayLoose | src/util/Saver.java:144-148 | the final replay keeps grid, goals and initial positions and the number of tiles |
| SaveStore.LooseReplayAgrees | src/util/Saver.java:144-148 | when every move replays with checks, the unchecked replay reaches the same board and succeeds |
| SaveStore.FileAfter | src/util/Saver.java:180-195 | the header is kept; an untouched file is unchanged; a rewrite holds one line per record of the written map |
| SaveStore.ReadForLoad | src/util/Saver.java:113-125 | a record digest is held exactly when the level has a record |
| SaveStore.LoadHistory | src/util/Saver.java:133-149 | a short count fails only when truncation is declined, leaving the reset board; a full count replays the history; an accepted truncation writes back the record truncated to the count and reports that many seconds |
| SaveStore.CheckDigests | src/util/Saver.java:218-235 | a declined record-digest mismatch fails exactly when the digest differs, writing nothing; a declined level-digest mismatch fails exactly when that digest differs; with both matching the history stage runs as is |
| SaveStore.Load | src/util/Saver.java:97-150 | a bad format or a file without records fails as such; failures before the history stage leave the board untouched; a refused truncation leaves the reset board |
| SaveStore.ReadForLoadAll | src/util/Saver.java:113-125 | reading records that each carry their own digest gives the whole map and the level's record digest |
| SaveStore.CopyOfReset | src/util/Saver.java:239-240 | copying the reset board gives the reset board itself |
| SaveStore.WrittenFileFormat | src/util/Saver.java:153-166 | a written file with at least one record passes either utility's format check (the strict one needing non-negative counters) |
| SaveStore.WrittenFileReads | src/util/Saver.java:113-125 | reading a written file finds every record and the level's record digest |
| SaveStore.FullHistoryLoads | src/util/Saver.java:133-149 | a history that replays in full is accepted, nothing is written, and the board is the reset board with the history replayed |
| SaveStore.LoadWrittenFile | src/util/Saver.java:97-150 | a file these utilities wrote loads without a confirmation: nothing is written back and the board is the reset board with the level's history replayed |
| SaveStore.ReadReadable | util/Saver.java:359-369 | the reader a save evidently needs: an unreadable line is skipped, names stay distinct, records already read are kept, each name maps to the record of the last readable line carrying it (or its earlier record when no line carries it), and on a file that reads fully it agrees with the plain reader |
| SaveStore.LoadReadable | util/Saver.java:354-378 | names distinct; each name maps to the record of the last readable line carrying it and no other name is present; on a file that reads fully it is what either utility loads |
| SaveStore.SaveKeepingReadable | util/Saver.java:305-349 | the header, then at least one record; on a file that reads fully it writes the same file as the strict save |
| SaveStore.SaveKeepsReadable | util/Saver.java:305-378 | reading the corrected save's file back finds the saved record under the level's name, and every other name maps to exactly the record it had among the readable lines before the save |
| SaveRecords.Tokens | src/util/Saver.java:361-364 | one move token per history entry, in order |
| SaveRecords.BodySplit | src/util/Saver.java:351-366 | a body whose digest and mode hold no comma splits with limit 9 into exactly its nine fields |
| SaveRecords.IntFieldOk | util/Saver.java:59-78 | a rendered 32-bit counter passes the strict check's non-negative parse exactly when it is not negative |
| SaveRecords.LongFieldOk | util/Saver.java:59-78 | the same for a rendered 64-bit counter |
| GameRules.ModeLabel | src/view/Game.java:24-31 | each mode's label is four characters with no comma and no line break, so it can be stored as a record field |
| GameRules.ModeLabelsDistinct | src/view/Game.java:24-31 | distinct modes have distinct labels, so the stored label identifies the mode |
| GameRules.InitialStats | src/view/Game.java:63-75 | without saved statistics the count is 0 and both bests are the type's maximum (no best yet); otherwise the saved statistics are used |
| GameRules.OnVictory | src/view/Game.java:371-389 | each best becomes the smaller of the old best and this run; a new-record flag is raised exactly when that best strictly dropped; the count goes up by one with 32-bit wrap-around; the result is saved exactly when the player is not the guest |
| GameRules.BestsAreMinima | src/view/Game.java:371-389 | after any series of wins each best is no larger than its start value and every run's value and equals one of them, and the count has grown by the number of wins, wrapped to 32 bits |
| GameRules.LimitsAreMonotone | src/view/Game.java:244-266 | a limit that has failed stays failed as time and moves grow, and reaching a limit exactly does not fail it |
| GameRules.ClockParts | src/view/Game.java:239-241 | whole minutes and seconds below 60 that add up to the whole seconds elapsed |
| GameRules.FormatTime | src/view/Victory.java:134-137 | the clock text is at least five characters long; its meaning is stated by ClockReadsBack |
| GameRules.ClockTextReadsBack | src/view/Game.java:242 | a text of zero-padded minutes, `:` and zero-padded seconds reads back as minutes × 60 + seconds |
| GameRules.ClockReadsBack | src/view/Victory.java:134-137 | for every elapsed time whose whole seconds fit an int, the clock text reads back as exactly those seconds |
| GameRules.UpdateTimeLabel | src/view/Game.java:238-273 | the time limit fails exactly when it is exceeded in time-limit mode; the move limit fails exactly when time has not failed and the moves exceed the limit in move-limit mode, reporting a fresh clock reading; otherwise the labels show the clock and the move count |
| GameRules.TimeText | src/view/Game.java:240-246 | the clock text alone outside time-limit mode; in time-limit mode followed by `/` and an mm:ss text that reads back as the limit in seconds |
| GameRules.MovesText | src/view/Game.java:258-262 | the moves label is `步数: ` and the move count, alone outside move-limit mode; in move-limit mode followed by `/` and a text that parses back as the limit |
| GameRules.DragDirection | src/view/Game.java:327-329 | vertical exactly when the vertical offset is longer; then down exactly when it is positive, otherwise right exactly when the horizontal offset is positive; no drag at all means left |
| GameRules.DragIsAntisymmetric | src/view/Game.java:327-329 | reversing a non-zero drag gives the opposite direction |
| GameRules.Release | src/view/Game.java:322-333 | a move starts exactly when a tile was pressed and held for at least 100 ms, and it moves that tile in the drag's direction |
| GameRules.BoardFitsPanel | src/view/Game.java:343-347 | the centred board fits inside the panel, with non-negative offsets |
| GameRules.PointToCell | src/view/Game.java:343-349 | no cell exactly when the cell size is zero, where the source would divide by zero |
| GameRules.MarginClickSelects | src/view/Game.java:348 | on a 4×4 board in a 110×100 panel a click two pixels right of the panel's edge, left of the board, lands on column 0 as written and on column −1 under floor division |
| GameRules.PointToCellFloor | src/view/Game.java:343-349 | the row is on the board exactly when the point lies within the board's vertical extent, and likewise for the column |
| GameRules.FloorAgreesOnBoard | src/view/Game.java:348 | at or right of and below the board's corner the corrected mapping gives the same cell as the truncating one |
| GameRules.RecordMessage | src/view/Victory.java:57-65 | no message exactly when no record was set; the `、` separator appears exactly when both were; the message opens with 您创造了新的 and ends with 记录！ |
| GameRules.RecordMessageInjective | src/view/Victory.java:57-65 | the message determines which records were set |
| GameRules.FileName | src/view/Select.java:256-257 | the last path component holds no `/` |
| GameRules.FileNameWithoutExtension | src/view/Select.java:250-271 | a missing or blank path gives the empty name; the result never holds `/` |
| GameRules.FileNameAfterSlash | src/view/Select.java:256-257 | the component after the last `/` is returned whole |
| GameRules.StripsLastExtension | src/view/Select.java:262-266 | a non-empty base followed by a dotted extension gives the base |
| GameRules.NoExtensionKept | src/view/Select.java:262-270 | a name with no dot after its first character is returned whole |
| GameRules.FormattersAgree | src/view/Select.java:338-342 | the statistics format `m分ss秒` and the clock format `mm:ss` show the same minutes and seconds |
| GameRules.UpdateStats | src/view/Select.java:323-337 | no statistics clear every label; a missing best leaves its label as it was |
| GameRules.StaleBestShown | src/view/Select.java:328 | after a level with 10 best moves, a level with no best moves still shows 最少步数：10 |
| GameRules.UpdateStatsCleared | src/view/Select.java:323-337 | no statistics clear every label, and a missing best shows its cleared `-` label |
| GameRules.ClearedLabelsForget | src/view/Select.java:323-337 | the corrected labels do not depend on the labels shown before, and agree with the original whenever both bests exist |
| GameRules.ListedName | src/view/Select.java:167-171 | a file is listed exactly when its lower-cased name ends in `.txt`; a lower-case extension is stripped, any other spelling is kept |
| GameRules.UpperCaseExtensionLost | src/view/Select.java:167-179 | the file `A.TXT` is listed as `A.TXT`, and the path opened for it is not that file |
| GameRules.ListedNameExact | src/view/Select.java:167-179 | a file is listed exactly when it ends in `.txt`, and the path opened for a listed level is that file |
| Configs.ConfigLine | src/util/Config.java:26-42 | a line is skipped exactly when, trimmed, it starts with `;` or has no `=`; otherwise key and value have no blank ends and the key holds no `=` |
| Configs.StripSemicolon | src/util/Config.java:33-35 | removing the trailing `;` keeps the `=` |
| Configs.SplitSetting | src/util/Config.java:37-40 | the trimmed text before the first `=` and the trimmed text after it |
| Configs.SplitSettingJoined | src/util/Config.java:37-40 | `key=value` splits back into that key and value |
| Configs.StripSettingLine | src/util/Config.java:33-35 | a written `key=value;` line loses just its `;` |
| Configs.SettingLineReadsBack | src/util/Config.java:26-42 | a written `key=value;` line reads back as that pair |
| Configs.ConfigLines | src/util/Config.java:25-43 | each line is read on its own, and every pair kept is trimmed with a key free of `=` |
| Configs.Collect | src/util/Config.java:41 | when every pair is well formed, so is every stored setting |
| Configs.ParseConfig | src/util/Config.java:21-45 | every stored key and value has no blank ends and no key holds `=` |
| Configs.CollectKeys | src/util/Config.java:41 | a key is stored exactly when some pair sets it |
| Configs.LastPairWins | src/util/Config.java:41 | the value stored is that of the last pair setting the key |
| Configs.ParseConfigKeys | src/util/Config.java:21-45 | a key is stored exactly when some line sets it |
| Configs.LastSettingWins | src/util/Config.java:21-45 | the value stored is that of the last line setting the key |
| Configs.GetString | src/util/Config.java:85-87 | the stored value, and none (Java's null) exactly when the key is absent |
| Configs.GetInt | src/util/Config.java:104-115 | 0 for an absent key or a value that is not a 32-bit decimal, otherwise that value |
| Configs.GetBoolean | src/util/Config.java:94-97 | true exactly when the key is present and its value is `true` in any letter case |
| Configs.WrittenSettingReadsBack | src/util/Config.java:21-45 | a setting appended as the last line for its key is read back by getString |
| Configs.WrittenIntReadsBack | src/util/Config.java:104-115 | an int appended as the last setting of its key is read back by getInt |
| Configs.WrittenBooleanReadsBack | src/util/Config.java:94-97 | a boolean appended as the last setting of its key is read back by getBoolean |
| Configs.BooleanTextParses | src/util/Config.java:96 | `true` and `false` parse back as themselves |
| Configs.GetBooleanCases | src/util/Config.java:94-97 | `TRUE` and `True` are true; `yes` and an absent key are false |
| Configs.GetIntFallsBack | src/util/Config.java:109-114 | `five`, the empty value and an absent key all give 0 |
| Users.UserOfLine | util/UserController.java:34-36 | a line holds a user exactly when splitting at `:` (trailing empty fields dropped) gives two fields, and then neither holds `:` |
| Users.UserLines | util/UserController.java:33-37 | each line is read on its own by the given reader |
| Users.Collect | util/UserController.java:36 | every loaded user is stored under its own name, logged out, with a name and hash some line gave |
| Users.LoadUsers | util/UserController.java:27-42 | loaded users are stored under their own names, logged out, and no name holds `:` |
| Users.Initial | util/UserController.java:20-22 | a fresh controller keeps its invariant and has no current user |
| Users.SavedLines | util/UserController.java:47-56 | one `name:hash` line per user, in the order given |
| Users.LoggedOut | util/UserController.java:27-42 | the same names, every flag cleared |
| Users.SavedUsersCollect | util/UserController.java:27-56 | with any reader that reads each user's saved line back, reloading gives the same users, logged out |
| Users.UserLineSplits | util/UserController.java:34-36 | a `name:hash` line whose parts hold no `:` and whose hash is non-empty reads back as that pair |
| Users.SavedUsersReload | util/UserController.java:27-56 | saving and reloading accounts whose names and hashes hold no `:` gives the same accounts, logged out |
| Users.ColonNameLost | util/UserController.java:34-35 | the saved line of a user whose name holds a `:` is not read back |
| Users.UserOfLineLastColon | util/UserController.java:34-36 | a line is read exactly when it holds a `:` and does not end in one, and it is the name, `:` and a `:`-free hash |
| Users.AnyNameReadsBack | util/UserController.java:50 | with the last-colon reader, any name followed by a non-empty `:`-free hash reads back |
| Users.LastColonAgrees | util/UserController.java:34-36 | on the lines the source's reader accepts, the last-colon reader agrees with it |
| Users.AnySavedUsersReload | util/UserController.java:27-56 | with the last-colon reader every saved table reloads as the same accounts, logged out, whatever the names |
| Users.Register | util/UserController.java:84-94 | succeeds exactly when the name is new; then just that user is added, logged out, with the password's hash; otherwise nothing changes; the invariant is kept |
| Users.Logout | util/UserController.java:166-174 | afterwards there is no current user; with none before nothing changes; the accounts are kept and no flag stays set |
| Users.Login | util/UserController.java:148-161 | succeeds exactly when the name exists and the password's hash matches; then that user is current; on failure nothing changes |
| Users.SwitchUser | util/UserController.java:179-183 | succeeds exactly as a login would; the previous user is logged out first, so a failed switch leaves no current user |
| Users.ChangePassword | util/UserController.java:102-116 | succeeds exactly when a user is logged in and the old password matches; then only that user's hash changes, to the new password's; otherwise nothing changes |
| Users.ChangeUsername | util/UserController.java:123-143 | succeeds exactly when a user is logged in and the new name is free; then that account moves to the new name with its hash and stays current, the number of accounts is kept and no other account changes |
| Users.RegisterThenLogin | util/UserController.java:84-94 | a newly registered user can log in with the same password |
| Users.NewPasswordLogsIn | util/UserController.java:102-116 | after a password change the new password switches in and a password with a different hash does not |
| Users.RenamedUserLogsIn | util/UserController.java:123-143 | after a rename the new name logs in exactly with the old password, and the old name is free to register |
| Users.LogoutIdempotent | util/UserController.java:166-174 | logging out twice is logging out once |
| Users.Step | util/UserController.java:84-183 | every controller operation keeps the invariant: each user under its own name, and the flag set exactly on the current user |
| Users.FlagIsCurrent | util/UserController.java:148-174 | after any sequence of operations from a loaded file at most one user is flagged as logged in |
| JavaText.ToInt32 | src/view/Game.java:373 | a value within the int range is kept; any other is congruent to it modulo 2^32 |
| JavaText.Quot | src/view/Game.java:347 | Java's truncating division: floor division for non-negative operands, and a remainder smaller than the divisor with the dividend's sign |
| JavaText.Rem | src/view/Game.java:241 | Java's remainder: smaller than the divisor, with the dividend's sign, completing the truncating quotient |
| JavaText.AbsInt | src/view/Game.java:327 | Math.abs on an int: the absolute value, except that the minimum int stays negative |
| JavaText.Min | src/view/Game.java:378-379 | a lower bound of both arguments that equals one of them |
| JavaText.Trim | src/util/Config.java:27 | no blank at either end; trimmed text is unchanged; empty exactly when every character is blank |
| JavaText.TrimKeeps | src/util/Config.java:27 | trimming adds no character and keeps every non-blank one |
| JavaText.IndexOf | src/util/Saver.java:115 | the first position of the character, −1 exactly when it is absent |
| JavaText.LastIndexOf | src/util/Saver.java:118 | the last position of the character, −1 exactly when it is absent |
| JavaText.Substring | src/util/Saver.java:116-118 | defined exactly when 0 ≤ begin ≤ end ≤ length (Java throws otherwise), and then the characters between |
| JavaText.SplitAll | src/util/Saver.java:393 | the fields between separators: none holds the separator, they join back to the text, and there is one field exactly when the separator is absent |
| JavaText.Split | src/util/Saver.java:391-393 | String.split without a limit: a separator-free text is one field; otherwise the fields are the leading fields between separators, and only empty fields are dropped from the end |
| JavaText.SplitJoin | src/util/Saver.java:391-393 | separator-free fields whose last one is not empty, joined and split again, come back unchanged |
| JavaText.SplitLimit | src/util/Saver.java:380 | String.split with limit n: between 1 and n parts joining back to the text, only the last holding separators, and only when there are n parts |
| JavaText.SplitAllJoin | src/util/Saver.java:393 | separator-free fields joined and split again come back unchanged |
| JavaText.SplitLimitJoin | src/util/Saver.java:380 | n fields whose first n−1 are separator-free, joined, split back with limit n |
| JavaText.SplitLimitFull | src/util/Saver.java:380 | a text with at least n−1 separators splits into exactly n parts |
| JavaText.SplitSpaces | model/GameMap.java:60 | splitting trimmed text at whitespace runs gives at least one part, none holding whitespace; a text without whitespace is one field, and a text with a non-space character gives only non-empty fields |
| JavaText.SpaceRunsAtSpace | model/GameMap.java:60 | a whitespace character splits the text: the fields of the whole are the fields before it followed by the fields after it |
| JavaText.SplitSpacesJoin | model/GameMap.java:60 | non-empty words without whitespace, joined by single spaces, split back into the same words |
| JavaText.NatToString | src/util/Saver.java:354-360 | decimal digits without a leading zero whose value is the number |
| JavaText.IntToString | src/util/Saver.java:354-360 | non-empty, without blanks, line breaks or any of the record separators |
| JavaText.ParseDecimal | src/util/Config.java:110 | succeeds exactly when the text is an optional sign and digits whose value lies in the range, and then gives that value |
| JavaText.ParseDecimalCases | src/util/Config.java:110 | `+7` and `007` give 7, `-0` gives 0, `-` and ` 7` are rejected |
| JavaText.LongNumberRejected | src/util/Config.java:110 | eleven or more digits without a leading zero never fit an int, with or without a minus sign |
| JavaText.ParseInt | src/util/Saver.java:382 | Integer.parseInt: succeeds exactly on a signed decimal within 32 bits, giving its value |
| JavaText.ParseLong | src/util/Saver.java:383 | Long.parseLong: succeeds exactly on a signed decimal within 64 bits, giving its value |
| JavaText.ParseRendered | src/util/Saver.java:382-388 | a number within the range, rendered in decimal, parses back as itself |
| JavaText.ParseIntRendered | src/util/Saver.java:382 | every int rendered in decimal parses back as itself |
| JavaText.ParseLongRendered | src/util/Saver.java:383 | every long rendered in decimal parses back as itself |
| JavaText.ToLower | src/view/Select.java:167 | the same length, each character lower-cased |
| JavaText.BoolToString | src/util/Saver.java:357 | the rendered flag is lower-case letters only |
| JavaText.ParseBoolean | src/util/Saver.java:385 | true exactly when the text is present and is `true` in any letter case |
| JavaText.Pad2 | src/view/Game.java:242 | `%02d`: a number below ten as a 0 and its digit, larger numbers in plain decimal, and a negative number as its sign and digits without padding |

## Left out

- GameMaps.TilesOf: `initBlocks` iterates a `HashMap` keyed by tile id, so the tile order is the hash map's; the model lists tiles in ascending id order. Tile order matters only to `Boards.Victorious`, which looks at the first large tile, so a level with several large tiles may pick a different one than the game does.
- JavaText.ParseDecimal: accepts ASCII digits only, while `Integer.parseInt` and `Long.parseLong` also accept other Unicode decimal digits.
- JavaText.ToLower: lower-cases ASCII letters only, while `String.toLowerCase` follows the full Unicode and locale rules; it is used only to test a `.txt` suffix.
- MD5 and the password hash are parameters (`md5`, `hash`) and not computed; file reading and writing are sequences of lines, and the UTF-8 charset and line terminators are not modelled.
- Java object identity is not modelled: a `Block` shared between a `GameMap` and a `Board` is a value copied into each, so mutating one never shows through the other.
- Solver.Solve: a shortest path and "no result means unsolvable" are proved only for boards that are legal and hold exactly one large tile (`Solver.Good`); for other boards only "every returned path wins" is proved. The backward search branch of `util/AiSolver.java` is not modelled: its start is seeded with the goal key and tested at once, so it never contributes a path.
- GameRules.FileName: splits on `/` only; `java.io.File.getName` also splits on the platform's separator (`\` on Windows).
- Users.SavedLines: `saveUsers` writes users in the `HashMap`'s order; the model takes any order that lists each user once (`Users.Enumerates`), so the reload lemmas hold for every order.
- Users.ChangePassword and Users.ChangeUsername: require the controller invariant (`Users.Valid`), which every reachable controller keeps (`Users.Step`, `Users.FlagIsCurrent`); the Java methods run on any state.
- Saver's `getStats` and the statistics read from a save record are not modelled separately: `GameRules.InitialStats` and `GameRules.UpdateStats` take them as an input.
- Solver: the state key is the multiset of (kind, anchor) placements; the source's sorted, joined string is a canonical form of that multiset and is not built.
- Swing panels, dialogs, animation timers, sound, layout of widgets other than the board, and logging (`util/Log.java`) are left out: they hold no game logic.
- A null `Mode` is not modelled: every mode is one of the three enum values.
- `model/Map.java`, `model/MapModel.java`, `controller/UserController.java` and the two `Main.java` files are earlier or entry-point code not used by the core and are not part of this model.
- `Config`'s singleton and its file opening are left out; `Configs.ParseConfig` takes the file's lines.
- Reading a save while another process writes it, and I/O failures other than a missing file, are not modelled.
- `util/Saver.java` (lines 234, 236, 414, 416, 474 and 476) calls `getBlockId()` and `getDir()` on a history entry, but the record `MoveEntry` in `src/model/Board.java:22` only has the accessors `blockId()` and `dir()`. The model reads these calls as the record's `blockId` and `dir` fields.
- `util/UserController.java:136` calls `setUsername` on the current user, a setter that `model/User.java` does not define. `Users.ChangeUsername` reads the call as replacing the user's name.

## Findings

| source | as written | input that shows it | evidently intended | confidence | as-written member | corrected member |
|---|---|---|---|---|---|---|
| src/model/Board.java:160-167 | `moveFocus` probes the cell one step from the focused tile's top-left anchor; for a move down or right on a tile taller or wider than one cell, that cell is inside the tile itself, so the focus never leaves it | a vertical tile at (0,0) above a small tile at (2,0), focus moved down | probe the cell just beyond the tile's facing edge | high, not executed | Boards.MoveFocus, Boards.MoveFocusStuck | Boards.MoveFocusEdge, Boards.MoveFocusEdgeLeaves |
| src/util/Saver.java:238-251 | `validateHistory` skips a refused move and keeps counting, and the load keeps the first `count` moves, so a kept prefix can contain the refused move | a one-column strip where Up is refused and the next move is accepted: the count is 1 and the kept prefix is [Up] | count the longest prefix that replays, stopping at the first refused move | high, not executed | SaveStore.CountAccepted, SaveStore.CountKeepsRefusedMove | SaveStore.ValidPrefix, SaveStore.ValidPrefixIsLongest, SaveStore.RepairHistory |
| model/GameMap.java:60-67 | a first line with a single number makes `limits[1]` throw `ArrayIndexOutOfBoundsException`, which the `NumberFormatException` handler does not catch, so the constructor throws | a level whose first line is `60` | the level is reported invalid | high, not executed | GameMaps.ParseLimitsAsWritten, GameMaps.OneLimitCrashes | GameMaps.ParseLimits, GameMaps.ParseMap, GameMaps.LimitsRejected |
| src/view/Game.java:343-349 | `pointToCell` divides with truncation, so a point up to one cell left of or above the board maps to column or row 0 | a 4×4 board in a 110×100 panel, click at (2, 50): board starts at x = 5, cell (2, 0) is selected | a click outside the board selects nothing | medium, not executed | GameRules.PointToCell, GameRules.MarginClickSelects | GameRules.PointToCellFloor, GameRules.FloorAgreesOnBoard |
| src/view/Select.java:323-337 | `updateStats` leaves a label untouched when the best is missing, so it keeps showing the previously selected level's best | select a level with 10 best moves, then one with a completion record but no best moves | show `-` as `clear` does | medium, not executed | GameRules.UpdateStats, GameRules.StaleBestShown | GameRules.UpdateStatsCleared, GameRules.ClearedLabelsForget |
| src/view/Select.java:164-179 | the list keeps any file whose name ends in `.txt` in any case but strips only a lower-case `.txt`, and the opened path appends `.txt` again | a file `A.TXT` is listed as `A.TXT` and opened as `maps/A.TXT.txt` | listed names open the listed file | medium, not executed | GameRules.ListedName, GameRules.UpperCaseExtensionLost | GameRules.ListedNameExact |
| util/UserController.java:34-36 | registration and renaming accept any name, but the reader keeps only lines with exactly two `:`-separated fields, so an account whose name holds `:` disappears on the next start | register the name `a:b` | every saved account reloads | medium, not executed | Users.UserOfLine, Users.ColonNameLost | Users.UserOfLineLastColon, Users.AnyNameReadsBack, Users.AnySavedUsersReload |
| util/Saver.java:354-378 | one unreadable record line makes `loadAllEntries` return an empty map, and `saveInternal` then rewrites the file with only the record being saved | a save file with a record for another level and one line without brackets | skip the unreadable line and keep the other records | high, not executed | SaveStore.SaveInternal, SaveStore.StrictSaveDropsOnUnreadable | SaveStore.SaveKeepingReadable, SaveStore.SaveKeepsReadable |

=== FILE: board.dfy ===
/**
 * The board: a grid of `rows` by `cols` cells holding tiles, the goal cells,
 * the anchors recorded at construction (for reset), a move history and an
 * optional focused tile.  Legality of a move is the bounds check followed by
 * the collision check; undo re-applies the opposite step without checks.
 */
module Boards {
  import opened Wrappers
  import opened JavaText
  import opened Tiles

  /** One history record: which tile (by id) moved in which direction. */
  datatype MoveEntry = MoveEntry(blockId: Int32, dir: Direction)

  /**
   * `history` is kept in the order of the underlying deque: the newest entry
   * first.  `focused` is the index of the focused tile in `blocks`.
   */
  datatype Board = Board(
    rows: int,
    cols: int,
    blocks: seq<Block>,
    goals: seq<Cell>,
    initial: seq<Cell>,
    history: seq<MoveEntry>,
    focused: Option<nat>)

  /** Every construction path records one initial anchor per tile; focus names a tile. */
  ghost predicate Wf(b: Board)
  {
    |b.initial| == |b.blocks| && (b.focused.Some? ==> b.focused.value < |b.blocks|)
  }

  function Anchors(ts: seq<Block>): (ps: seq<Cell>)
    ensures |ps| == |ts| && forall i | 0 <= i < |ts| :: ps[i] == ts[i].pos
  {
    if ts == [] then [] else [ts[0].pos] + Anchors(ts[1..])
  }

  /** Construction from a parsed level: anchors recorded, no history, no focus. */
  function NewBoard(rows: int, cols: int, blocks: seq<Block>, goals: seq<Cell>): (b: Board)
    ensures Wf(b) && b.history == [] && b.focused == None
    ensures b.blocks == blocks && b.goals == goals && b.rows == rows && b.cols == cols
    ensures forall i | 0 <= i < |blocks| :: b.initial[i] == blocks[i].pos
  {
    Board(rows, cols, blocks, goals, Anchors(blocks), [], None)
  }

  // ---------------------------------------------------------------------------
  // Geometry on the grid
  // ---------------------------------------------------------------------------

  /** A tile of kind `k` anchored at `p` lies inside [0, rows) x [0, cols). */
  predicate InGrid(rows: int, cols: int, k: Kind, p: Cell)
  {
    !(p.row < 0 || p.col < 0 || p.row + SizeOf(k).height > rows || p.col + SizeOf(k).width > cols)
  }

  /** Some cell of the first footprint equals some cell of the second, as the nested loops test it. */
  predicate Overlaps(k1: Kind, p1: Cell, k2: Kind, p2: Cell)
  {
    exists q | q in Footprint(k1, p1) :: q in Footprint(k2, p2)
  }

  /** The closed form: the two rectangles intersect on both axes. */
  predicate RectsMeet(k1: Kind, p1: Cell, k2: Kind, p2: Cell)
  {
    p1.row < p2.row + SizeOf(k2).height && p2.row < p1.row + SizeOf(k1).height &&
    p1.col < p2.col + SizeOf(k2).width && p2.col < p1.col + SizeOf(k1).width
  }

  lemma {:induction false} OverlapsIsRectsMeet(k1: Kind, p1: Cell, k2: Kind, p2: Cell)
    ensures Overlaps(k1, p1, k2, p2) <==> RectsMeet(k1, p1, k2, p2)
  {
    if RectsMeet(k1, p1, k2, p2) {
      var q := Cell(if p1.row < p2.row then p2.row else p1.row, if p1.col < p2.col then p2.col else p1.col);
      assert q in Footprint(k1, p1) && q in Footprint(k2, p2);
    }
  }

  /**
   * Whether a tile of kind `k` at `p` would share a cell with a tile other
   * than index `i`.  The cell-by-cell comparison is written in its closed
   * form; OverlapsIsRectsMeet shows the two agree.
   */
  predicate Collides(blocks: seq<Block>, i: nat, k: Kind, p: Cell)
  {
    exists j | 0 <= j < |blocks| && j != i :: RectsMeet(k, p, blocks[j].kind, blocks[j].pos)
  }

  /** All tiles inside the grid and no two sharing a cell. */
  ghost predicate Legal(rows: int, cols: int, blocks: seq<Block>)
  {
    (forall i | 0 <= i < |blocks| :: InGrid(rows, cols, blocks[i].kind, blocks[i].pos)) &&
    (forall i, j | 0 <= i < |blocks| && 0 <= j < |blocks| && i != j ::
       !RectsMeet(blocks[i].kind, blocks[i].pos, blocks[j].kind, blocks[j].pos))
  }

  // ---------------------------------------------------------------------------
  // Moving, undoing, resetting
  // ---------------------------------------------------------------------------

  /**
   * The tile list after moving tile `i` one step in direction `d`, or None
   * when the step leaves the grid or runs into another tile.
   */
  function Shift(rows: int, cols: int, blocks: seq<Block>, i: nat, d: Direction): (r: Option<seq<Block>>)
    requires i < |blocks|
    ensures r.None? <==>
      !InGrid(rows, cols, blocks[i].kind, Step(blocks[i].pos, d)) ||
      exists j, c | 0 <= j < |blocks| && j != i ::
        InRect(blocks[i].kind, Step(blocks[i].pos, d), c) && Covers(blocks[j], c)
    ensures r.Some? ==> |r.value| == |blocks| && r.value[i].pos == Step(blocks[i].pos, d)
    ensures r.Some? ==> r.value[i].id == blocks[i].id && r.value[i].kind == blocks[i].kind
    ensures r.Some? ==> forall j | 0 <= j < |blocks| && j != i :: r.value[j] == blocks[j]
  {
    var b := blocks[i];
    var next := NextPosition(b, d);
    if !InGrid(rows, cols, b.kind, next) then None
    else if Collides(blocks, i, b.kind, next) then
      ghost var j :| 0 <= j < |blocks| && j != i && RectsMeet(b.kind, next, blocks[j].kind, blocks[j].pos);
      ghost var q := blocks[j].pos;
      ghost var c := Cell(if next.row < q.row then q.row else next.row, if next.col < q.col then q.col else next.col);
      assert InRect(b.kind, next, c) && Covers(blocks[j], c);
      None
    else
      Some(blocks[i := MoveTo(b, next)])
  }

  /**
   * `moveBlock`: on success the tile moves and one (id, direction) entry is
   * pushed; on failure nothing changes (the provisional push is popped again).
   */
  function MoveBlock(b: Board, i: nat, d: Direction): (r: (bool, Board))
    requires i < |b.blocks|
    ensures r.0 <==> Shift(b.rows, b.cols, b.blocks, i, d).Some?
    ensures !r.0 ==> r.1 == b
    ensures r.0 ==> r.1.blocks == Shift(b.rows, b.cols, b.blocks, i, d).value
    ensures r.0 ==> r.1.history == [MoveEntry(b.blocks[i].id, d)] + b.history
    ensures r.1.rows == b.rows && r.1.cols == b.cols && r.1.goals == b.goals
    ensures r.1.initial == b.initial && r.1.focused == b.focused
  {
    match Shift(b.rows, b.cols, b.blocks, i, d)
    case None => (false, b)
    case Some(ts) => (true, b.(blocks := ts, history := [MoveEntry(b.blocks[i].id, d)] + b.history))
  }

  /** Moves keep every tile on the grid and all footprints disjoint. */
  lemma {:induction false} ShiftPreservesLegal(rows: int, cols: int, blocks: seq<Block>, i: nat, d: Direction)
    requires i < |blocks| && Legal(rows, cols, blocks)
    requires Shift(rows, cols, blocks, i, d).Some?
    ensures Legal(rows, cols, Shift(rows, cols, blocks, i, d).value)
  {
    var ts := Shift(rows, cols, blocks, i, d).value;
    var next := ts[i].pos;
    forall j | 0 <= j < |blocks| && j != i
      ensures !RectsMeet(ts[i].kind, ts[i].pos, ts[j].kind, ts[j].pos)
      ensures !RectsMeet(ts[j].kind, ts[j].pos, ts[i].kind, ts[i].pos)
    {
      var q := ts[j].pos;
      var c := Cell(if next.row < q.row then q.row else next.row, if next.col < q.col then q.col else next.col);
      assert !(InRect(blocks[i].kind, Step(blocks[i].pos, d), c) && Covers(blocks[j], c));
    }
  }

  /** Index of the tile the id map resolves to: the last tile carrying `id`. */
  function FindBlockById(blocks: seq<Block>, id: Int32): (r: Option<nat>)
    ensures r.None? <==> forall j | 0 <= j < |blocks| :: blocks[j].id != id
    ensures r.Some? ==> r.value < |blocks| && blocks[r.value].id == id
    ensures r.Some? ==> forall j | r.value < j < |blocks| :: blocks[j].id != id
  {
    if blocks == [] then None
    else if blocks[|blocks| - 1].id == id then Some(|blocks| - 1)
    else FindBlockById(blocks[..|blocks| - 1], id)
  }

  /** Index of the first tile carrying `id`, the stream search over the tile list. */
  function FirstWithId(blocks: seq<Block>, id: Int32): (r: Option<nat>)
    ensures r.None? <==> forall j | 0 <= j < |blocks| :: blocks[j].id != id
    ensures r.Some? ==> r.value < |blocks| && blocks[r.value].id == id
    ensures r.Some? ==> forall j | 0 <= j < r.value :: blocks[j].id != id
  {
    if blocks == [] then None
    else if blocks[0].id == id then Some(0)
    else match FirstWithId(blocks[1..], id)
      case None => None
      case Some(k) => Some(k + 1)
  }

  predicate UniqueIds(blocks: seq<Block>)
  {
    forall i, j | 0 <= i < j < |blocks| :: blocks[i].id != blocks[j].id
  }

  /** With distinct ids the id map and the first-match search agree. */
  lemma {:induction false} LookupsAgree(blocks: seq<Block>, id: Int32)
    requires UniqueIds(blocks)
    ensures FindBlockById(blocks, id) == FirstWithId(blocks, id)
  {
  }

  /**
   * `undo`: pops the newest entry; if its id resolves to a tile, that tile
   * takes one step in the opposite direction (no bounds or collision check).
   * An unknown id reports failure with the entry already popped.
   */
  function Undo(b: Board): (r: (bool, Board))
    ensures b.history == [] ==> r == (false, b)
    ensures b.history != [] ==> r.1.history == b.history[1..]
    ensures r.0 <==> b.history != [] && FindBlockById(b.blocks, b.history[0].blockId).Some?
    ensures r.1.rows == b.rows && r.1.cols == b.cols && r.1.goals == b.goals
    ensures r.1.initial == b.initial && r.1.focused == b.focused && |r.1.blocks| == |b.blocks|
    ensures !r.0 ==> r.1.blocks == b.blocks
    ensures r.0 ==> var k := FindBlockById(b.blocks, b.history[0].blockId).value;
      Step(r.1.blocks[k].pos, b.history[0].dir) == b.blocks[k].pos &&
      r.1.blocks[k].id == b.blocks[k].id && r.1.blocks[k].kind == b.blocks[k].kind &&
      forall j | 0 <= j < |b.blocks| && j != k :: r.1.blocks[j] == b.blocks[j]
  {
    if b.history == [] then (false, b)
    else
      var last := b.history[0];
      match FindBlockById(b.blocks, last.blockId)
      case None => (false, b.(history := b.history[1..]))
      case Some(k) =>
        var t := b.blocks[k];
        StepOpposite(Step(t.pos, Opposite(last.dir)), Opposite(last.dir));
        OppositeInvolution(last.dir);
        (true, b.(blocks := b.blocks[k := MoveTo(t, NextPosition(t, Opposite(last.dir)))], history := b.history[1..]))
  }

  /** Undo right after an accepted move restores the board exactly, when the id map resolves to the moved tile. */
  lemma {:induction false} UndoAfterMove(b: Board, i: nat, d: Direction)
    requires i < |b.blocks| && FindBlockById(b.blocks, b.blocks[i].id) == Some(i)
    requires MoveBlock(b, i, d).0
    ensures Undo(MoveBlock(b, i, d).1) == (true, b)
  {
    var b1 := MoveBlock(b, i, d).1;
    assert b1.blocks[i].id == b.blocks[i].id;
    assert FindBlockById(b1.blocks, b.blocks[i].id) == Some(i) by {
      assert forall j | 0 <= j < |b1.blocks| && j != i :: b1.blocks[j].id == b.blocks[j].id;
    }
    StepOpposite(b.blocks[i].pos, d);
    var r := Undo(b1);
    assert r.1.blocks == b.blocks;
  }

  /** `reset`: every tile back at its recorded anchor, history emptied, focus cleared. */
  function Reset(b: Board): (r: Board)
    requires Wf(b)
    ensures Wf(r) && r.history == [] && r.focused == None
    ensures |r.blocks| == |b.blocks|
    ensures forall i | 0 <= i < |b.blocks| ::
      r.blocks[i].pos == b.initial[i] && r.blocks[i].id == b.blocks[i].id && r.blocks[i].kind == b.blocks[i].kind
    ensures r.rows == b.rows && r.cols == b.cols && r.goals == b.goals && r.initial == b.initial
  {
    b.(blocks := seq(|b.blocks|, i requires 0 <= i < |b.blocks| => MoveTo(b.blocks[i], b.initial[i])),
       history := [], focused := None)
  }

  lemma {:induction false} ResetIdempotent(b: Board)
    requires Wf(b)
    ensures Reset(Reset(b)) == Reset(b)
  {
  }

  /** A reset forgets any accepted or rejected move. */
  lemma {:induction false} ResetAfterMove(b: Board, i: nat, d: Direction)
    requires Wf(b) && i < |b.blocks|
    ensures Wf(MoveBlock(b, i, d).1)
    ensures Reset(MoveBlock(b, i, d).1) == Reset(b.(focused := None))
  {
    var b1 := MoveBlock(b, i, d).1;
    assert Reset(b1).blocks == Reset(b).blocks;
  }

  // ---------------------------------------------------------------------------
  // Queries
  // ---------------------------------------------------------------------------

  /** Index of the first tile, in list order, whose occupied cells (see OccupiedCells) include `c`. */
  function GetBlockAt(blocks: seq<Block>, c: Cell): (r: Option<nat>)
    ensures r.None? <==> forall j | 0 <= j < |blocks| :: !Covers(blocks[j], c)
    ensures r.Some? ==> r.value < |blocks| && Covers(blocks[r.value], c)
    ensures r.Some? ==> forall j | 0 <= j < r.value :: !Covers(blocks[j], c)
  {
    if blocks == [] then None
    else if Covers(blocks[0], c) then Some(0)
    else match GetBlockAt(blocks[1..], c)
      case None => None
      case Some(k) => Some(k + 1)
  }

  /** Index of the first Large tile. */
  function FirstLarge(blocks: seq<Block>): (r: Option<nat>)
    ensures r.None? <==> forall j | 0 <= j < |blocks| :: blocks[j].kind != Large
    ensures r.Some? ==> r.value < |blocks| && blocks[r.value].kind == Large
    ensures r.Some? ==> forall j | 0 <= j < r.value :: blocks[j].kind != Large
  {
    if blocks == [] then None
    else if blocks[0].kind == Large then Some(0)
    else match FirstLarge(blocks[1..])
      case None => None
      case Some(k) => Some(k + 1)
  }

  /** Whether every cell of the tile lies among `goals`, checked cell by cell. */
  function AllCellsIn(cells: seq<Cell>, goals: seq<Cell>): (r: bool)
    ensures r <==> forall k | 0 <= k < |cells| :: cells[k] in goals
  {
    if cells == [] then true
    else if cells[0] !in goals then false
    else AllCellsIn(cells[1..], goals)
  }

  /** `isVictory` on a tile list: the first Large tile stands entirely on goal cells. */
  function Victorious(blocks: seq<Block>, goals: seq<Cell>): (r: bool)
    ensures r <==> (FirstLarge(blocks).Some? &&
      forall c | Covers(blocks[FirstLarge(blocks).value], c) :: c in goals)
  {
    match FirstLarge(blocks)
    case None => false
    case Some(k) =>
      var cells := OccupiedCells(blocks[k]);
      assert forall c | Covers(blocks[k], c) :: c in cells;
      AllCellsIn(cells, goals)
  }

  function IsVictory(b: Board): bool
  {
    Victorious(b.blocks, b.goals)
  }

  /** Without a Large tile there is no victory. */
  lemma {:induction false} NoLargeNoVictory(blocks: seq<Block>, goals: seq<Cell>)
    requires forall j | 0 <= j < |blocks| :: blocks[j].kind != Large
    ensures !Victorious(blocks, goals)
  {
  }

  /** `copy`: same tiles, anchors taken from the current positions, no history, no focus. */
  function Copy(b: Board): (r: Board)
    ensures Wf(r) && r.history == [] && r.focused == None
    ensures r.rows == b.rows && r.cols == b.cols && r.goals == b.goals && |r.blocks| == |b.blocks|
    ensures forall i | 0 <= i < |b.blocks| :: r.blocks[i] == b.blocks[i] && r.initial[i] == b.blocks[i].pos
  {
    var ts := seq(|b.blocks|, i requires 0 <= i < |b.blocks| => Tiles.Copy(b.blocks[i]));
    NewBoard(b.rows, b.cols, ts, b.goals)
  }

  /** Resetting a copy leaves it as it was copied. */
  lemma {:induction false} ResetCopy(b: Board)
    ensures Reset(Copy(b)) == Copy(b)
  {
  }

  /** `getHistory`: the entries oldest first. */
  function GetHistory(b: Board): (h: seq<MoveEntry>)
    ensures |h| == |b.history|
    ensures forall k | 0 <= k < |h| :: h[k] == b.history[|h| - 1 - k]
  {
    Reverse(b.history)
  }

  function Reverse<T>(s: seq<T>): (r: seq<T>)
    ensures |r| == |s| && forall k | 0 <= k < |s| :: r[k] == s[|s| - 1 - k]
  {
    if s == [] then [] else Reverse(s[1..]) + [s[0]]
  }

  /** An accepted move appends its entry at the end of the chronological history. */
  lemma {:induction false} HistoryAfterMove(b: Board, i: nat, d: Direction)
    requires i < |b.blocks| && MoveBlock(b, i, d).0
    ensures GetHistory(MoveBlock(b, i, d).1) == GetHistory(b) + [MoveEntry(b.blocks[i].id, d)]
  {
  }

  // ---------------------------------------------------------------------------
  // Focus
  // ---------------------------------------------------------------------------

  function SetFocused(b: Board, f: Option<nat>): (r: Board)
    ensures r.focused == f && r == b.(focused := f)
  {
    b.(focused := f)
  }

  /**
   * `moveFocus` as written: the probe is the focused tile's anchor stepped
   * once; focus moves to whichever tile covers the probe, if any.
   */
  function MoveFocus(b: Board, d: Direction): (r: Board)
    requires Wf(b)
    ensures Wf(r) && r == b.(focused := r.focused)
    ensures b.focused.None? ==> r == b
    ensures b.focused.Some? ==> (r.focused.Some? && (r.focused == b.focused ||
      Covers(b.blocks[r.focused.value], Step(b.blocks[b.focused.value].pos, d))))
    ensures b.focused.Some? && (forall j | 0 <= j < |b.blocks| :: !Covers(b.blocks[j], Step(b.blocks[b.focused.value].pos, d))) ==>
      r == b
    ensures b.focused.Some? && (exists j | 0 <= j < |b.blocks| :: Covers(b.blocks[j], Step(b.blocks[b.focused.value].pos, d))) ==>
      r.focused.Some? && Covers(b.blocks[r.focused.value], Step(b.blocks[b.focused.value].pos, d)) &&
      forall j | 0 <= j < r.focused.value :: !Covers(b.blocks[j], Step(b.blocks[b.focused.value].pos, d))
  {
    match b.focused
    case None => b
    case Some(f) =>
      match GetBlockAt(b.blocks, Step(b.blocks[f].pos, d))
      case None => b
      case Some(j) => b.(focused := Some(j))
  }

  /** The first cell just beyond the tile's edge facing `d`. */
  function EdgeProbe(t: Block, d: Direction): (c: Cell)
    ensures !Covers(t, c)
  {
    match d
    case Up => Cell(t.pos.row - 1, t.pos.col)
    case Left => Cell(t.pos.row, t.pos.col - 1)
    case Down => Cell(t.pos.row + SizeOf(t.kind).height, t.pos.col)
    case Right => Cell(t.pos.row, t.pos.col + SizeOf(t.kind).width)
  }

  /** Focus navigation probing beyond the tile's facing edge, so that it can leave a tall or wide tile. */
  function MoveFocusEdge(b: Board, d: Direction): (r: Board)
    requires Wf(b)
    ensures Wf(r) && r == b.(focused := r.focused)
    ensures b.focused.None? ==> r == b
    ensures b.focused.Some? ==> (r.focused.Some? && (r.focused == b.focused ||
      Covers(b.blocks[r.focused.value], EdgeProbe(b.blocks[b.focused.value], d))))
    ensures b.focused.Some? && (forall j | 0 <= j < |b.blocks| :: !Covers(b.blocks[j], EdgeProbe(b.blocks[b.focused.value], d))) ==>
      r == b
    ensures b.focused.Some? && (exists j | 0 <= j < |b.blocks| :: Covers(b.blocks[j], EdgeProbe(b.blocks[b.focused.value], d))) ==>
      r.focused.Some? && Covers(b.blocks[r.focused.value], EdgeProbe(b.blocks[b.focused.value], d)) &&
      forall j | 0 <= j < r.focused.value :: !Covers(b.blocks[j], EdgeProbe(b.blocks[b.focused.value], d))
  {
    match b.focused
    case None => b
    case Some(f) =>
      match GetBlockAt(b.blocks, EdgeProbe(b.blocks[f], d))
      case None => b
      case Some(j) => b.(focused := Some(j))
  }

  /**
   * The edge probe never lands on the focused tile itself, so whenever some
   * tile lies beyond the facing edge the focus leaves the focused tile for
   * the first such tile.
   */
  lemma {:induction false} MoveFocusEdgeLeaves(b: Board, d: Direction)
    requires Wf(b) && b.focused.Some?
    ensures MoveFocusEdge(b, d).focused.value != b.focused.value ==>
      Covers(b.blocks[MoveFocusEdge(b, d).focused.value], EdgeProbe(b.blocks[b.focused.value], d))
    ensures GetBlockAt(b.blocks, EdgeProbe(b.blocks[b.focused.value], d)) != b.focused
    ensures (exists j | 0 <= j < |b.blocks| :: Covers(b.blocks[j], EdgeProbe(b.blocks[b.focused.value], d))) ==>
      MoveFocusEdge(b, d).focused.value != b.focused.value &&
      MoveFocusEdge(b, d).focused == GetBlockAt(b.blocks, EdgeProbe(b.blocks[b.focused.value], d))
  {
  }

  /** A vertical tile above a small one: the focus cannot move down. */
  function StuckFocusBoard(): Board
  {
    NewBoard(3, 1, [Block(1, Vertical, Cell(0, 0)), Block(2, Small, Cell(2, 0))], []).(focused := Some(0))
  }

  /** As written, focus stays on the vertical tile although a tile lies directly below it. */
  lemma {:induction false} MoveFocusStuck()
    ensures MoveFocus(StuckFocusBoard(), Down).focused == Some(0)
    ensures MoveFocusEdge(StuckFocusBoard(), Down).focused == Some(1)
  {
    var b := StuckFocusBoard();
    assert Covers(b.blocks[0], Cell(1, 0));
    assert !Covers(b.blocks[0], Cell(2, 0)) && Covers(b.blocks[1], Cell(2, 0));
  }
}

=== FILE: configs.dfy ===
/**
 * The settings file reader: one `key=value;` pair per line, with comment and
 * malformed lines skipped, and the typed getters over the resulting map.
 * Reading the file itself is left to the caller, which passes its lines.
 */
module Configs {
  import opened Wrappers
  import opened JavaText

  type Settings = map<string, string>

  /**
   * The pair one line contributes, None when the line is skipped: after
   * trimming, a line starting with ';' or holding no '=' is a comment.
   */
  function ConfigLine(line: string): (r: Option<(string, string)>)
    ensures r.None? <==> StartsWith(Trim(line), ";") || '=' !in Trim(line)
    ensures r.Some? ==> NoBlankEnds(r.value.0) && NoBlankEnds(r.value.1) && '=' !in r.value.0
  {
    var t := Trim(line);
    if StartsWith(t, ";") || '=' !in t then None
    else
      var u := StripSemicolon(t);
      Some(SplitSetting(u))
  }

  /** One trailing ';' is dropped and the rest re-trimmed; an '=' in the line survives. */
  function StripSemicolon(t: string): (u: string)
    ensures '=' in t ==> '=' in u
  {
    if EndsWith(t, ";") then
      var body := t[..|t| - 1];
      assert '=' in t ==> '=' in body by {
        assert t[|t| - 1] == ';';
        assert forall i | 0 <= i < |t| - 1 :: body[i] == t[i];
      }
      TrimKeeps(body, '=');
      Trim(body)
    else t
  }

  /** Key and value: the trimmed text before and after the first '='. */
  function SplitSetting(u: string): (r: (string, string))
    requires '=' in u
    ensures NoBlankEnds(r.0) && NoBlankEnds(r.1) && '=' !in r.0
  {
    assert multiset(u)['='] >= 1 by {
      assert '=' in multiset(u);
    }
    SplitLimitFull(u, '=', 2);
    var parts := SplitLimit(u, '=', 2);
    TrimKeeps(parts[0], '=');
    (Trim(parts[0]), Trim(parts[1]))
  }

  /** The line that writes `key` as `value`. */
  function SettingLine(key: string, value: string): string
  {
    key + "=" + value + ";"
  }

  /** The settings line without its ';' splits back into the key and value. */
  lemma {:induction false} SplitSettingJoined(key: string, value: string)
    requires NoBlankEnds(key) && NoBlankEnds(value) && '=' !in key
    ensures '=' in key + "=" + value
    ensures SplitSetting(key + "=" + value) == (key, value)
  {
    var body := key + "=" + value;
    assert body == key + ['='] + value;
    assert body[|key|] == '=';
    SplitLimitCons(key, value, '=', 2);
    assert SplitLimit(body, '=', 2) == [key, value];
  }

  /** Text with no blank ends ending in ';' loses exactly that ';'. */
  lemma {:induction false} StripSettingLine(key: string, value: string)
    requires NoBlankEnds(key) && NoBlankEnds(value)
    ensures StripSemicolon(SettingLine(key, value)) == key + "=" + value
  {
    var body := key + "=" + value;
    var line := body + ";";
    assert SettingLine(key, value) == line;
    assert line[..|line| - 1] == body;
    assert body[0] == if key == [] then '=' else key[0];
    assert body[|body| - 1] == if value == [] then '=' else value[|value| - 1];
    assert NoBlankEnds(body);
  }

  /**
   * A written setting reads back as the same pair, for any key without '='
   * that does not start a comment and any value, both free of blank ends;
   * the value may itself contain '=' and ';'.
   */
  lemma {:induction false} SettingLineReadsBack(key: string, value: string)
    requires NoBlankEnds(key) && NoBlankEnds(value) && '=' !in key && !StartsWith(key, ";")
    ensures ConfigLine(SettingLine(key, value)) == Some((key, value))
  {
    var line := SettingLine(key, value);
    assert line == (key + "=" + value) + ";";
    assert line[0] == if key == [] then '=' else key[0];
    assert line[|line| - 1] == ';';
    assert NoBlankEnds(line);
    assert line[|key|] == '=';
    assert !StartsWith(line, ";") by {
      assert key != [] ==> key[..1] == line[..1];
    }
    StripSettingLine(key, value);
    SplitSettingJoined(key, value);
  }

  /** A pair as the reader stores it: trimmed key and value, no '=' in the key. */
  predicate GoodPair(p: (string, string))
  {
    NoBlankEnds(p.0) && NoBlankEnds(p.1) && '=' !in p.0
  }

  /** What each line of the file contributes, in file order. */
  function ConfigLines(lines: seq<string>): (r: seq<Option<(string, string)>>)
    ensures |r| == |lines| && forall i | 0 <= i < |lines| :: r[i] == ConfigLine(lines[i])
    ensures forall i | 0 <= i < |r| :: r[i].Some? ==> GoodPair(r[i].value)
  {
    seq(|lines|, i requires 0 <= i < |lines| => ConfigLine(lines[i]))
  }

  /**
   * The reader loop: the lines' pairs put into the map in file order, so a
   * later pair replaces the value of an earlier one with the same key.
   */
  function Collect(pairs: seq<Option<(string, string)>>): (r: Settings)
    ensures (forall i | 0 <= i < |pairs| :: pairs[i].Some? ==> GoodPair(pairs[i].value)) ==>
      forall k | k in r :: GoodPair((k, r[k]))
    decreases |pairs|
  {
    if pairs == [] then map[]
    else
      var init := pairs[..|pairs| - 1];
      var m := Collect(init);
      assert forall i | 0 <= i < |init| :: init[i] == pairs[i];
      match pairs[|pairs| - 1]
      case None => m
      case Some((k, v)) => m[k := v]
  }

  /** The settings of a file; every key and value is trimmed and no key holds '='. */
  function ParseConfig(lines: seq<string>): (r: Settings)
    ensures forall k | k in r :: GoodPair((k, r[k]))
  {
    Collect(ConfigLines(lines))
  }

  /** The pair sets `k`. */
  predicate SetsKey(p: Option<(string, string)>, k: string)
  {
    p.Some? && p.value.0 == k
  }

  /** A key is collected exactly when some pair sets it. */
  lemma {:induction false} CollectKeys(pairs: seq<Option<(string, string)>>, k: string)
    ensures k in Collect(pairs) <==> exists j | 0 <= j < |pairs| :: SetsKey(pairs[j], k)
    decreases |pairs|
  {
    if pairs != [] {
      var init := pairs[..|pairs| - 1];
      CollectKeys(init, k);
      assert forall j | 0 <= j < |init| :: init[j] == pairs[j];
      if !SetsKey(pairs[|pairs| - 1], k) {
        assert k in Collect(pairs) <==> k in Collect(init);
        assert forall j | 0 <= j < |pairs| && SetsKey(pairs[j], k) :: j < |init|;
      }
    }
  }

  /** The value of a key is the one in the last pair that sets it. */
  lemma {:induction false} LastPairWins(pairs: seq<Option<(string, string)>>, j: nat, k: string, v: string)
    requires j < |pairs| && pairs[j] == Some((k, v))
    requires forall i | j < i < |pairs| :: !SetsKey(pairs[i], k)
    ensures k in Collect(pairs) && Collect(pairs)[k] == v
    decreases |pairs|
  {
    if j < |pairs| - 1 {
      var init := pairs[..|pairs| - 1];
      assert init[j] == pairs[j];
      assert forall i | j < i < |init| :: init[i] == pairs[i];
      LastPairWins(init, j, k, v);
      assert !SetsKey(pairs[|pairs| - 1], k);
    }
  }

  /** A key is in a file's settings exactly when one of its lines sets it. */
  lemma {:induction false} ParseConfigKeys(lines: seq<string>, k: string)
    ensures k in ParseConfig(lines) <==> exists j | 0 <= j < |lines| :: SetsKey(ConfigLine(lines[j]), k)
  {
    CollectKeys(ConfigLines(lines), k);
  }

  /** The value of a key is the one on the last line of the file that sets it. */
  lemma {:induction false} LastSettingWins(lines: seq<string>, j: nat, k: string, v: string)
    requires j < |lines| && ConfigLine(lines[j]) == Some((k, v))
    requires forall i | j < i < |lines| :: !SetsKey(ConfigLine(lines[i]), k)
    ensures k in ParseConfig(lines) && ParseConfig(lines)[k] == v
  {
    LastPairWins(ConfigLines(lines), j, k, v);
  }

  /** `getString`: the stored text, None (Java's null) for an absent key. */
  function GetString(settings: Settings, key: string): (r: Option<string>)
    ensures r.Some? <==> key in settings
    ensures r.Some? ==> r.value == settings[key]
  {
    if key in settings then Some(settings[key]) else None
  }

  /** `getInt`: the value parsed as an int; 0 when the key is absent or the text is not an int. */
  function GetInt(settings: Settings, key: string): (r: Int32)
    ensures key !in settings ==> r == 0
    ensures key in settings && ParseInt(settings[key]).None? ==> r == 0
    ensures r != 0 ==> ParseInt(settings[key]) == Some(r)
    ensures key in settings && ParseInt(settings[key]).Some? ==> r == ParseInt(settings[key]).value
  {
    match GetString(settings, key)
    case None => 0
    case Some(val) =>
      match ParseInt(val)
      case Some(n) => n
      case None => 0
  }

  /** `getBoolean`: true only for a present value equal to "true" ignoring case. */
  function GetBoolean(settings: Settings, key: string): (r: bool)
    ensures r <==> (key in settings && |settings[key]| == 4 &&
                    forall j | 0 <= j < 4 :: settings[key][j] == "true"[j] || settings[key][j] == "TRUE"[j])
  {
    ParseBoolean(GetString(settings, key))
  }

  /** A file whose last line sets `key` gives that value back through every getter. */
  lemma {:induction false} WrittenSettingReadsBack(lines: seq<string>, key: string, value: string)
    requires NoBlankEnds(key) && NoBlankEnds(value) && '=' !in key && !StartsWith(key, ";")
    ensures var settings := ParseConfig(lines + [SettingLine(key, value)]);
      GetString(settings, key) == Some(value)
  {
    var all := lines + [SettingLine(key, value)];
    SettingLineReadsBack(key, value);
    LastSettingWins(all, |lines|, key, value);
  }

  /** A written int reads back through `getInt`. */
  lemma {:induction false} WrittenIntReadsBack(lines: seq<string>, key: string, n: Int32)
    requires NoBlankEnds(key) && '=' !in key && !StartsWith(key, ";")
    ensures GetInt(ParseConfig(lines + [SettingLine(key, IntToString(n))]), key) == n
  {
    var t := IntToString(n);
    assert NoBlankEnds(t) by {
      assert t[0] in t && t[|t| - 1] in t;
    }
    WrittenSettingReadsBack(lines, key, t);
    ParseIntRendered(n);
  }

  /** A written boolean reads back through `getBoolean`. */
  lemma {:induction false} WrittenBooleanReadsBack(lines: seq<string>, key: string, b: bool)
    requires NoBlankEnds(key) && '=' !in key && !StartsWith(key, ";")
    ensures GetBoolean(ParseConfig(lines + [SettingLine(key, BoolToString(b))]), key) == b
  {
    WrittenSettingReadsBack(lines, key, BoolToString(b));
    BooleanTextParses(b);
  }

  lemma {:induction false} BooleanTextParses(b: bool)
    ensures ParseBoolean(Some(BoolToString(b))) == b
  {
    if b {
      assert ToLower("true") == "true";
    } else {
      assert ToLower("false")[0] == 'f';
    }
  }

  /** Case does not matter to `getBoolean`, anything other than "true" is false, and so is a missing key. */
  lemma {:induction false} GetBooleanCases()
    ensures GetBoolean(map["sound" := "TRUE"], "sound")
    ensures GetBoolean(map["sound" := "True"], "sound")
    ensures !GetBoolean(map["sound" := "yes"], "sound")
    ensures !GetBoolean(map[], "sound")
  {
    assert ToLower("TRUE") == "true";
    assert ToLower("True") == "true";
  }

  /** A value that is not a decimal int, an empty value and a missing key all read as 0. */
  lemma {:induction false} GetIntFallsBack()
    ensures GetInt(map["rows" := "five"], "rows") == 0
    ensures GetInt(map["rows" := ""], "rows") == 0
    ensures GetInt(map[], "rows") == 0
  {
  }
}

=== FILE: game_map.dfy ===
/**
 * Level files.  The first line holds the time limit and the move limit; each
 * further line is one grid row of comma-separated cell tokens, a token being
 * a tile id (empty means 0, the empty cell) optionally followed by `*` for a
 * goal cell.  Parsing never stops at a bad token: it marks the map invalid.
 * Tiles are derived from the cells sharing an id.
 */
module GameMaps {
  import opened Wrappers
  import opened JavaText
  import opened Tiles
  import Boards

  // ---------------------------------------------------------------------------
  // Row-major cell enumeration
  // ---------------------------------------------------------------------------

  /** Strict row-major order: earlier row, or same row and earlier column. */
  predicate Before(a: Cell, b: Cell)
  {
    a.row < b.row || (a.row == b.row && a.col < b.col)
  }

  predicate RowMajor(cells: seq<Cell>)
  {
    forall i, j | 0 <= i < j < |cells| :: Before(cells[i], cells[j])
  }

  predicate InBox(rows: int, cols: int, c: Cell)
  {
    0 <= c.row < rows && 0 <= c.col < cols
  }

  function RowCells(r: int, cols: nat): (cs: seq<Cell>)
    ensures |cs| == cols && RowMajor(cs)
    ensures forall c :: c in cs <==> c.row == r && 0 <= c.col < cols
  {
    var cs := seq(cols, k requires 0 <= k < cols => Cell(r, k));
    assert forall c: Cell | c.row == r && 0 <= c.col < cols :: cs[c.col] == c;
    cs
  }

  /** Every cell of a `rows` by `cols` grid in the order of the nested row/column loops. */
  function GridCells(rows: nat, cols: nat): (cs: seq<Cell>)
    ensures RowMajor(cs)
    ensures forall c :: c in cs <==> InBox(rows, cols, c)
  {
    if rows == 0 then []
    else
      var front := GridCells(rows - 1, cols);
      var last := RowCells(rows - 1, cols);
      assert forall i, j | 0 <= i < |front| && 0 <= j < |last| :: Before(front[i], last[j]) by {
        forall i, j | 0 <= i < |front| && 0 <= j < |last| ensures Before(front[i], last[j]) {
          assert front[i] in front && last[j] in last;
        }
      }
      front + last
  }

  // ---------------------------------------------------------------------------
  // The parsed map
  // ---------------------------------------------------------------------------

  /** A rectangular table: `rows` rows of `cols` entries each. */
  ghost predicate Rect<T>(t: seq<seq<T>>, rows: nat, cols: nat)
  {
    |t| == rows && forall r | 0 <= r < rows :: |t[r]| == cols
  }

  datatype GameMap = GameMap(
    valid: bool,
    rows: nat,
    cols: nat,
    timeLimit: Int32,
    moveLimit: Int32,
    layout: seq<seq<Int32>>,
    zone: seq<seq<bool>>,
    blocks: seq<Block>)

  /** The time and move limits of the first line; `ok` is false when either failed to parse. */
  datatype Limits = Limits(timeLimit: Int32, moveLimit: Int32, ok: bool)

  /**
   * The first line as the constructor reads it: the first two space-separated
   * tokens of the trimmed line.  A number format error marks the map invalid
   * (the time limit keeps its value if only the move limit fails); a line with
   * a single valid number has no second token, and the resulting array index
   * error is not caught, so the constructor throws (None).
   */
  function ParseLimitsAsWritten(first: string): (r: Option<Limits>)
    ensures r.None? <==> |SplitSpaces(Trim(first))| == 1 && ParseInt(SplitSpaces(Trim(first))[0]).Some?
  {
    var toks := SplitSpaces(Trim(first));
    match ParseInt(toks[0])
    case None => Some(Limits(0, 0, false))
    case Some(t) =>
      if |toks| < 2 then None
      else match ParseInt(toks[1])
        case None => Some(Limits(t, 0, false))
        case Some(m) => Some(Limits(t, m, true))
  }

  /** The limits line with a missing second token treated like an unparsable one. */
  function ParseLimits(first: string): (r: Limits)
    ensures r.ok <==> (var toks := SplitSpaces(Trim(first));
      |toks| >= 2 && ParseInt(toks[0]).Some? && ParseInt(toks[1]).Some? &&
      r.timeLimit == ParseInt(toks[0]).value && r.moveLimit == ParseInt(toks[1]).value)
    ensures ParseLimitsAsWritten(first).Some? ==> r == ParseLimitsAsWritten(first).value
  {
    var toks := SplitSpaces(Trim(first));
    match ParseInt(toks[0])
    case None => Limits(0, 0, false)
    case Some(t) =>
      if |toks| < 2 then Limits(t, 0, false)
      else match ParseInt(toks[1])
        case None => Limits(t, 0, false)
        case Some(m) => Limits(t, m, true)
  }

  /** A token's text once blanks and a trailing goal marker are removed. */
  function TokenBody(raw: string): string
  {
    var s := Trim(raw);
    if EndsWith(s, "*") then Trim(s[..|s| - 1]) else s
  }

  /** A cell token: (id, goal marker, parsed without error). */
  datatype CellToken = CellToken(id: Int32, goal: bool, ok: bool)

  /**
   * One token: trimmed; a trailing `*` marks a goal and is removed (then the
   * rest is trimmed again); empty text is id 0; a non-number is id 0 and an error.
   */
  function ParseCell(raw: string): (t: CellToken)
    ensures t.goal <==> EndsWith(Trim(raw), "*")
    ensures t.ok <==> TokenBody(raw) == [] || ParseInt(TokenBody(raw)).Some?
    ensures !t.ok ==> t.id == 0
    ensures Trim(raw) == "" ==> t == CellToken(0, false, true)
    ensures ParseInt(Trim(raw)).Some? ==> t == CellToken(ParseInt(Trim(raw)).value, false, true)
  {
    var s := Trim(raw);
    var goal := EndsWith(s, "*");
    NumberNotStarred(s);
    CellOfBody(TokenBody(raw), goal)
  }

  /** The token for the text left once any goal marker is removed. */
  function CellOfBody(body: string, goal: bool): (t: CellToken)
    ensures t.goal == goal
    ensures t.ok <==> body == [] || ParseInt(body).Some?
    ensures !t.ok ==> t.id == 0
    ensures body == "" ==> t == CellToken(0, goal, true)
    ensures ParseInt(body).Some? ==> t == CellToken(ParseInt(body).value, goal, true)
  {
    if body == [] then CellToken(0, goal, true)
    else match ParseInt(body)
      case Some(v) => CellToken(v, goal, true)
      case None => CellToken(0, goal, false)
  }

  /** A number never ends with the goal marker. */
  lemma {:induction false} NumberNotStarred(s: string)
    ensures ParseInt(s).Some? ==> !EndsWith(s, "*")
  {
    if ParseInt(s).Some? {
      var digits := if s[0] == '-' || s[0] == '+' then s[1..] else s;
      assert digits != [] && AllDigits(digits);
      assert s[|s| - 1] == digits[|digits| - 1];
      assert s[|s| - 1..] == [s[|s| - 1]];
    }
  }

  /** The widest row, in fields; 0 without rows. */
  function MaxLen(parts: seq<seq<string>>): (m: nat)
    ensures forall r | 0 <= r < |parts| :: |parts[r]| <= m
    ensures parts == [] ==> m == 0
    ensures parts != [] ==> exists r | 0 <= r < |parts| :: |parts[r]| == m
  {
    if parts == [] then 0
    else
      var m := MaxLen(parts[1..]);
      if |parts[0]| >= m then |parts[0]|
      else
        assert forall r | 1 <= r < |parts| :: parts[r] == parts[1..][r - 1];
        m
  }

  /** The token in row `r`, column `c`; cells past the end of a short row are empty. */
  function TokenAt(parts: seq<seq<string>>, r: nat, c: nat): CellToken
    requires r < |parts|
  {
    if c < |parts[r]| then ParseCell(parts[r][c]) else CellToken(0, false, true)
  }

  function At<T>(t: seq<seq<T>>, c: Cell): T
    requires 0 <= c.row < |t| && 0 <= c.col < |t[c.row]|
  {
    t[c.row][c.col]
  }

  // ---------------------------------------------------------------------------
  // Cells by id, shapes and tiles
  // ---------------------------------------------------------------------------

  /** The cells of `cells` whose layout entry is `id`, in their original order. */
  function CellsOf(layout: seq<seq<Int32>>, rows: nat, cols: nat, cells: seq<Cell>, id: int): (r: seq<Cell>)
    requires Rect(layout, rows, cols) && forall k | 0 <= k < |cells| :: InBox(rows, cols, cells[k])
    ensures forall c :: c in r <==> c in cells && InBox(rows, cols, c) && At(layout, c) == id
    ensures RowMajor(cells) ==> RowMajor(r)
    ensures |r| <= |cells|
  {
    if cells == [] then []
    else
      var rest := CellsOf(layout, rows, cols, cells[1..], id);
      assert forall c | c in cells[1..] :: c in cells;
      assert InBox(rows, cols, cells[0]);
      if At(layout, cells[0]) == id then
        assert RowMajor(cells) ==> forall k | 0 <= k < |rest| :: Before(cells[0], rest[k]) by {
          if RowMajor(cells) {
            forall k | 0 <= k < |rest| ensures Before(cells[0], rest[k]) {
              assert rest[k] in cells[1..];
            }
          }
        }
        [cells[0]] + rest
      else rest
  }

  /** Inserts `x` into a strictly ascending sequence. */
  function Insert(s: seq<int>, x: int): (r: seq<int>)
    requires forall i, j | 0 <= i < j < |s| :: s[i] < s[j]
    ensures forall i, j | 0 <= i < j < |r| :: r[i] < r[j]
    ensures forall y :: y in r <==> y in s || y == x
  {
    if s == [] then [x]
    else if x < s[0] then [x] + s
    else if x == s[0] then s
    else
      var rest := Insert(s[1..], x);
      assert forall y | y in s :: y == s[0] || y in s[1..];
      HeadBelowTail(s);
      ConsAscending(s[0], rest);
      [s[0]] + rest
  }

  /** In a strictly ascending sequence the head is below every later element. */
  lemma {:induction false} HeadBelowTail(s: seq<int>)
    requires s != [] && forall i, j | 0 <= i < j < |s| :: s[i] < s[j]
    ensures forall y | y in s[1..] :: s[0] < y
  {
    assert forall k | 1 <= k < |s| :: s[k] == s[1..][k - 1];
  }

  /** A head below every element of an ascending sequence keeps it ascending. */
  lemma {:induction false} ConsAscending(h: int, rest: seq<int>)
    requires forall i, j | 0 <= i < j < |rest| :: rest[i] < rest[j]
    requires forall y | y in rest :: h < y
    ensures forall i, j | 0 <= i < j < |[h] + rest| :: ([h] + rest)[i] < ([h] + rest)[j]
  {
    var r := [h] + rest;
    assert forall k | 1 <= k < |r| :: r[k] == rest[k - 1] && r[k] in rest;
  }

  /**
   * The distinct non-zero ids of the layout, ascending.  Tiles are created in
   * the iteration order of a hash map keyed by id; ascending order is that order
   * for the small non-negative ids levels use.
   */
  function IdsIn(layout: seq<seq<Int32>>, rows: nat, cols: nat, cells: seq<Cell>): (ids: seq<int>)
    requires Rect(layout, rows, cols) && forall k | 0 <= k < |cells| :: InBox(rows, cols, cells[k])
    ensures forall i, j | 0 <= i < j < |ids| :: ids[i] < ids[j]
    ensures forall x :: x in ids <==> x != 0 && exists c | c in cells && InBox(rows, cols, c) :: At(layout, c) == x
  {
    if cells == [] then []
    else
      var front := IdsIn(layout, rows, cols, cells[..|cells| - 1]);
      var c := cells[|cells| - 1];
      assert InBox(rows, cols, c);
      assert forall d | d in cells :: d in cells[..|cells| - 1] || d == c;
      assert forall d | d in cells[..|cells| - 1] :: d in cells;
      if At(layout, c) == 0 then front else Insert(front, At(layout, c))
  }

  function MinCol(cells: seq<Cell>): (m: int)
    requires cells != []
    ensures forall k | 0 <= k < |cells| :: m <= cells[k].col
    ensures exists k | 0 <= k < |cells| :: m == cells[k].col
  {
    if |cells| == 1 then cells[0].col
    else
      var m := MinCol(cells[1..]);
      assert forall k | 1 <= k < |cells| :: cells[k] == cells[1..][k - 1];
      if cells[0].col <= m then cells[0].col else m
  }

  function MaxCol(cells: seq<Cell>): (m: int)
    requires cells != []
    ensures forall k | 0 <= k < |cells| :: cells[k].col <= m
    ensures exists k | 0 <= k < |cells| :: m == cells[k].col
  {
    if |cells| == 1 then cells[0].col
    else
      var m := MaxCol(cells[1..]);
      assert forall k | 1 <= k < |cells| :: cells[k] == cells[1..][k - 1];
      if cells[0].col >= m then cells[0].col else m
  }

  function MinRow(cells: seq<Cell>): (m: int)
    requires cells != []
    ensures forall k | 0 <= k < |cells| :: m <= cells[k].row
    ensures exists k | 0 <= k < |cells| :: m == cells[k].row
  {
    if |cells| == 1 then cells[0].row
    else
      var m := MinRow(cells[1..]);
      assert forall k | 1 <= k < |cells| :: cells[k] == cells[1..][k - 1];
      if cells[0].row <= m then cells[0].row else m
  }

  function MaxRow(cells: seq<Cell>): (m: int)
    requires cells != []
    ensures forall k | 0 <= k < |cells| :: cells[k].row <= m
    ensures exists k | 0 <= k < |cells| :: m == cells[k].row
  {
    if |cells| == 1 then cells[0].row
    else
      var m := MaxRow(cells[1..]);
      assert forall k | 1 <= k < |cells| :: cells[k] == cells[1..][k - 1];
      if cells[0].row >= m then cells[0].row else m
  }

  /**
   * The shape rule for one id: 1, 2 or 4 cells, filling a bounding box of
   * 1 or 2 rows by 1 or 2 columns exactly.
   */
  predicate ShapeOk(cells: seq<Cell>)
  {
    var n := |cells|;
    (n == 1 || n == 2 || n == 4) &&
    var h := MaxRow(cells) - MinRow(cells) + 1;
    var w := MaxCol(cells) - MinCol(cells) + 1;
    h * w == n && 1 <= h <= 2 && 1 <= w <= 2
  }

  /** The kind rule: one cell is Small, two cells in one row Horizontal, other pairs Vertical, anything else Large. */
  function KindOf(cells: seq<Cell>): (k: Kind)
    requires cells != []
    ensures |cells| == 1 <==> k == Small
    ensures k == Horizontal <==> |cells| == 2 && cells[0].row == cells[1].row
    ensures k == Vertical <==> |cells| == 2 && cells[0].row != cells[1].row
  {
    if |cells| == 1 then Small
    else if |cells| == 2 then (if cells[0].row == cells[1].row then Horizontal else Vertical)
    else Large
  }

  /** A well-shaped id's cells, listed row-major, are exactly the footprint of its tile. */
  lemma {:induction false} ShapeIsFootprint(cells: seq<Cell>)
    requires cells != [] && RowMajor(cells) && ShapeOk(cells)
    ensures forall c :: c in cells <==> InRect(KindOf(cells), cells[0], c)
  {
    ShapeSides(cells);
    if |cells| == 1 {
      ListedRect(cells, Small, cells[0]);
    } else if |cells| == 2 {
      PairFootprint(cells);
    } else {
      assert forall k | 0 <= k < 4 :: MinRow(cells) <= cells[k].row <= MinRow(cells) + 1 && MinCol(cells) <= cells[k].col <= MinCol(cells) + 1;
      QuadFootprint(cells, MinRow(cells), MinCol(cells));
    }
  }

  /** The bounding box of a well-shaped id has the sides its cell count allows. */
  lemma {:induction false} ShapeSides(cells: seq<Cell>)
    requires cells != [] && ShapeOk(cells)
    ensures var h, w := MaxRow(cells) - MinRow(cells) + 1, MaxCol(cells) - MinCol(cells) + 1;
      1 <= h <= 2 && 1 <= w <= 2 && (|cells| == 1 || |cells| == 2 || |cells| == 4) &&
      (|cells| == 1 ==> h == 1 && w == 1) && (|cells| == 2 ==> h + w == 3) && (|cells| == 4 ==> h == 2 && w == 2)
  {
    BoxSides(MaxRow(cells) - MinRow(cells) + 1, MaxCol(cells) - MinCol(cells) + 1, |cells|);
  }

  /** Two row-major cells in a box of two are a domino anchored at the first. */
  lemma {:induction false} PairFootprint(cells: seq<Cell>)
    requires |cells| == 2 && RowMajor(cells)
    requires MaxRow(cells) - MinRow(cells) + MaxCol(cells) - MinCol(cells) == 1
    ensures forall c :: c in cells <==> InRect(KindOf(cells), cells[0], c)
  {
    assert Before(cells[0], cells[1]);
    if cells[0].row == cells[1].row {
      assert cells[1] == Cell(cells[0].row, cells[0].col + 1);
      ListedRect(cells, Horizontal, cells[0]);
    } else {
      assert cells[1] == Cell(cells[0].row + 1, cells[0].col);
      ListedRect(cells, Vertical, cells[0]);
    }
  }

  /** Four row-major cells in a two-by-two box fill it, the top-left one first. */
  lemma {:induction false} QuadFootprint(cells: seq<Cell>, r0: int, c0: int)
    requires |cells| == 4 && RowMajor(cells)
    requires forall k | 0 <= k < 4 :: r0 <= cells[k].row <= r0 + 1 && c0 <= cells[k].col <= c0 + 1
    ensures forall c :: c in cells <==> InRect(KindOf(cells), cells[0], c)
  {
    assert Before(cells[0], cells[1]) && Before(cells[1], cells[2]) && Before(cells[2], cells[3]);
    assert 0 <= BoxRank(cells[0], r0, c0) < BoxRank(cells[1], r0, c0) < BoxRank(cells[2], r0, c0) < BoxRank(cells[3], r0, c0) <= 3;
    assert cells[0] == Cell(r0, c0);
    assert cells[1] == Cell(r0, c0 + 1);
    assert cells[2] == Cell(r0 + 1, c0);
    assert cells[3] == Cell(r0 + 1, c0 + 1);
    ListedRect(cells, Large, cells[0]);
  }

  /** The row-major position of a cell within the two-by-two box at (r0, c0). */
  function BoxRank(c: Cell, r0: int, c0: int): int
  {
    2 * (c.row - r0) + (c.col - c0)
  }

  /** The sides of a box of one, two or four cells. */
  lemma {:induction false} BoxSides(h: int, w: int, n: int)
    requires 1 <= h <= 2 && 1 <= w <= 2 && h * w == n
    ensures n == 1 ==> h == 1 && w == 1
    ensures n == 2 ==> h + w == 3
    ensures n == 4 ==> h == 2 && w == 2
  {
  }

  /** Cells listed row-major over a tile's rectangle, one per cell, are exactly that rectangle. */
  lemma {:induction false} ListedRect(cells: seq<Cell>, k: Kind, p: Cell)
    requires k == Small ==> cells == [p]
    requires k == Horizontal ==> |cells| == 2 && cells[0] == p && cells[1] == Cell(p.row, p.col + 1)
    requires k == Vertical ==> |cells| == 2 && cells[0] == p && cells[1] == Cell(p.row + 1, p.col)
    requires k == Large ==> |cells| == 4 && cells[0] == p && cells[1] == Cell(p.row, p.col + 1) &&
                            cells[2] == Cell(p.row + 1, p.col) && cells[3] == Cell(p.row + 1, p.col + 1)
    ensures forall c :: c in cells <==> InRect(k, p, c)
  {
    match k
    case Small =>
    case Horizontal =>
      assert cells == [p, Cell(p.row, p.col + 1)];
    case Vertical =>
      assert cells == [p, Cell(p.row + 1, p.col)];
    case Large =>
      assert cells == [p, Cell(p.row, p.col + 1), Cell(p.row + 1, p.col), Cell(p.row + 1, p.col + 1)];
  }

  // ---------------------------------------------------------------------------
  // The constructor
  // ---------------------------------------------------------------------------

  function Layout(parts: seq<seq<string>>, cols: nat): (t: seq<seq<Int32>>)
    ensures Rect(t, |parts|, cols)
    ensures forall r, c | 0 <= r < |parts| && 0 <= c < cols :: t[r][c] == TokenAt(parts, r, c).id
  {
    seq(|parts|, r requires 0 <= r < |parts| => seq(cols, c requires 0 <= c < cols => TokenAt(parts, r, c).id))
  }

  function Zone(parts: seq<seq<string>>, cols: nat): (t: seq<seq<bool>>)
    ensures Rect(t, |parts|, cols)
    ensures forall r, c | 0 <= r < |parts| && 0 <= c < cols :: t[r][c] == TokenAt(parts, r, c).goal
  {
    seq(|parts|, r requires 0 <= r < |parts| => seq(cols, c requires 0 <= c < cols => TokenAt(parts, r, c).goal))
  }

  /** The goal cells of a zone table, row-major. */
  function ZoneCells(zone: seq<seq<bool>>, rows: nat, cols: nat, cells: seq<Cell>): (r: seq<Cell>)
    requires Rect(zone, rows, cols) && forall k | 0 <= k < |cells| :: InBox(rows, cols, cells[k])
    ensures forall c :: c in r <==> c in cells && InBox(rows, cols, c) && At(zone, c)
    ensures RowMajor(cells) ==> RowMajor(r)
  {
    if cells == [] then []
    else
      var rest := ZoneCells(zone, rows, cols, cells[1..]);
      assert forall c | c in cells[1..] :: c in cells;
      assert InBox(rows, cols, cells[0]);
      if At(zone, cells[0]) then
        assert RowMajor(cells) ==> forall k | 0 <= k < |rest| :: Before(cells[0], rest[k]) by {
          if RowMajor(cells) {
            forall k | 0 <= k < |rest| ensures Before(cells[0], rest[k]) {
              assert rest[k] in cells[1..];
            }
          }
        }
        [cells[0]] + rest
      else rest
  }

  /** `getVictoryCells`: the goal cells in row-major order. */
  function VictoryCells(m: GameMap): (goals: seq<Cell>)
    requires Rect(m.zone, m.rows, m.cols)
    ensures RowMajor(goals)
    ensures forall c :: c in goals <==> InBox(m.rows, m.cols, c) && At(m.zone, c)
  {
    ZoneCells(m.zone, m.rows, m.cols, GridCells(m.rows, m.cols))
  }

  function TileCells(layout: seq<seq<Int32>>, rows: nat, cols: nat, id: int): (cs: seq<Cell>)
    requires Rect(layout, rows, cols)
    ensures RowMajor(cs)
    ensures forall c :: c in cs <==> InBox(rows, cols, c) && At(layout, c) == id
  {
    CellsOf(layout, rows, cols, GridCells(rows, cols), id)
  }

  /** The distinct non-zero ids of the whole layout, ascending. */
  function IdList(layout: seq<seq<Int32>>, rows: nat, cols: nat): (ids: seq<int>)
    requires Rect(layout, rows, cols)
    ensures forall i, j | 0 <= i < j < |ids| :: ids[i] < ids[j]
    ensures forall x :: x in ids <==> x != 0 && exists c | InBox(rows, cols, c) :: At(layout, c) == x
  {
    var grid := GridCells(rows, cols);
    var ids := IdsIn(layout, rows, cols, grid);
    ids
  }

  /** One tile per distinct non-zero id, anchored at the id's first cell in row-major order. */
  function MakeBlocks(layout: seq<seq<Int32>>, rows: nat, cols: nat, ids: seq<int>): (ts: seq<Block>)
    requires Rect(layout, rows, cols)
    requires forall k | 0 <= k < |ids| :: ids[k] != 0 && exists c | InBox(rows, cols, c) :: At(layout, c) == ids[k]
    ensures |ts| == |ids|
    ensures forall k | 0 <= k < |ids| :: (ts[k].id == ids[k] && TileCells(layout, rows, cols, ids[k]) != [] &&
      ts[k].pos == TileCells(layout, rows, cols, ids[k])[0] &&
      ts[k].kind == KindOf(TileCells(layout, rows, cols, ids[k])))
  {
    seq(|ids|, k requires 0 <= k < |ids| =>
      var cs := TileCells(layout, rows, cols, ids[k]);
      var c :| InBox(rows, cols, c) && At(layout, c) == ids[k];
      assert c in cs;
      Block(layout[c.row][c.col], KindOf(cs), cs[0]))
  }

  /** `initBlocks`: the tiles of a layout. */
  function TilesOf(layout: seq<seq<Int32>>, rows: nat, cols: nat): (ts: seq<Block>)
    requires Rect(layout, rows, cols)
    ensures |ts| == |IdList(layout, rows, cols)|
    ensures forall k | 0 <= k < |ts| :: var cs := TileCells(layout, rows, cols, ts[k].id);
      ts[k].id == IdList(layout, rows, cols)[k] && cs != [] && ts[k].pos == cs[0] && ts[k].kind == KindOf(cs)
  {
    var ids := IdList(layout, rows, cols);
    assert forall k | 0 <= k < |ids| :: ids[k] in ids;
    MakeBlocks(layout, rows, cols, ids)
  }

  /** `validateLayout`: every non-zero id has a legal shape. */
  predicate WellShaped(layout: seq<seq<Int32>>, rows: nat, cols: nat)
    requires Rect(layout, rows, cols)
  {
    var ids := IdList(layout, rows, cols);
    forall k | 0 <= k < |ids| :: ShapeOk(TileCells(layout, rows, cols, ids[k]))
  }

  predicate HasLarge(ts: seq<Block>)
  {
    exists k | 0 <= k < |ts| :: ts[k].kind == Large
  }

  /** The grid lines split into cell tokens. */
  function Parts(body: seq<string>): (parts: seq<seq<string>>)
    ensures |parts| == |body|
    ensures forall r | 0 <= r < |body| :: parts[r] == Split(Trim(body[r]), ',')
  {
    seq(|body|, r requires 0 <= r < |body| => Split(Trim(body[r]), ','))
  }

  predicate TokensOk(parts: seq<seq<string>>, cols: nat)
  {
    forall r, c | 0 <= r < |parts| && 0 <= c < cols :: TokenAt(parts, r, c).ok
  }

  /** The constructor given the limits and the grid lines. */
  function Build(limits: Limits, body: seq<string>): (m: GameMap)
    ensures Rect(m.layout, m.rows, m.cols) && Rect(m.zone, m.rows, m.cols)
    ensures m.rows == |body| && m.cols == MaxLen(Parts(body))
    ensures m.timeLimit == limits.timeLimit && m.moveLimit == limits.moveLimit
    ensures m.layout == Layout(Parts(body), m.cols) && m.zone == Zone(Parts(body), m.cols)
    ensures m.blocks == TilesOf(m.layout, m.rows, m.cols)
    ensures m.valid <==> (limits.ok && m.rows != 0 && m.cols != 0 && TokensOk(Parts(body), m.cols) &&
      WellShaped(m.layout, m.rows, m.cols) && HasLarge(m.blocks) && |VictoryCells(m)| >= 4)
  {
    var parts := Parts(body);
    var rows := |body|;
    var cols := MaxLen(parts);
    var layout := Layout(parts, cols);
    var zone := Zone(parts, cols);
    var blocks := TilesOf(layout, rows, cols);
    var m := GameMap(false, rows, cols, limits.timeLimit, limits.moveLimit, layout, zone, blocks);
    var valid := limits.ok && rows != 0 && cols != 0 && TokensOk(parts, cols) &&
      WellShaped(layout, rows, cols) && HasLarge(blocks) && |VictoryCells(m)| >= 4;
    m.(valid := valid)
  }

  /** The constructor as written: None when the limits line makes it throw. */
  function ParseMapAsWritten(lines: seq<string>): (r: Option<GameMap>)
  {
    if lines == [] then Some(GameMap(false, 0, 0, 0, 0, [], [], []))
    else match ParseLimitsAsWritten(lines[0])
      case None => None
      case Some(l) => Some(Build(l, lines[1..]))
  }

  /** The constructor with a one-number limits line reported as an invalid map. */
  function ParseMap(lines: seq<string>): (m: GameMap)
    ensures Rect(m.layout, m.rows, m.cols) && Rect(m.zone, m.rows, m.cols)
    ensures m.blocks == TilesOf(m.layout, m.rows, m.cols)
    ensures lines == [] ==> !m.valid
    ensures lines != [] ==> m.rows == |lines| - 1 && m.cols == MaxLen(Parts(lines[1..]))
    ensures lines != [] ==> m.layout == Layout(Parts(lines[1..]), m.cols) && m.zone == Zone(Parts(lines[1..]), m.cols)
    ensures m.valid ==> (m.rows != 0 && m.cols != 0 && WellShaped(m.layout, m.rows, m.cols) &&
      HasLarge(m.blocks) && |VictoryCells(m)| >= 4)
    ensures ParseMapAsWritten(lines).Some? ==> m == ParseMapAsWritten(lines).value
  {
    if lines == [] then GameMap(false, 0, 0, 0, 0, [], [], [])
    else Build(ParseLimits(lines[0]), lines[1..])
  }

  /** A level whose limits line holds only the time limit. */
  const OneLimitLevel: seq<string> := ["60", "1,1", "1*,1*", "*,*"]

  /** As written the constructor throws on it; the corrected parser reports it invalid. */
  lemma {:induction false} OneLimitCrashes()
    ensures ParseMapAsWritten(OneLimitLevel).None?
    ensures !ParseMap(OneLimitLevel).valid
  {
    SixtyAlone();
    assert !ParseLimits(OneLimitLevel[0]).ok;
  }

  /** The line "60" is one token holding the number 60. */
  lemma {:induction false} SixtyAlone()
    ensures SplitSpaces(Trim("60")) == ["60"] && ParseInt("60") == Some(60)
  {
    OneToken("60");
    SixtyParses();
  }

  /** A line without blanks is one token. */
  lemma {:induction false} OneToken(line: string)
    requires line != [] && forall j | 0 <= j < |line| :: !IsBlank(line[j])
    ensures SplitSpaces(Trim(line)) == [line]
  {
    assert Trim(line) == line by {
      assert NoBlankEnds(line);
    }
    assert forall j | 0 <= j < |line| :: !IsSpace(line[j]);
    RunWithoutSpaces(line, "");
    assert "" + line == line;
  }

  /** A limits line of two blank-free numbers separated by one space gives exactly those two tokens. */
  lemma {:induction false} TwoTokens(a: string, b: string)
    requires a != [] && forall j | 0 <= j < |a| :: !IsBlank(a[j])
    requires b != [] && forall j | 0 <= j < |b| :: !IsBlank(b[j])
    ensures SplitSpaces(Trim(a + " " + b)) == [a, b]
  {
    var line := a + " " + b;
    assert line[0] == a[0] && line[|line| - 1] == b[|b| - 1];
    assert Trim(line) == line by {
      assert NoBlankEnds(line);
    }
    assert forall j | 0 <= j < |a| :: !IsSpace(a[j]);
    assert forall j | 0 <= j < |b| :: !IsSpace(b[j]);
    JoinCons(a, [b], ' ');
    assert [a] + [b] == [a, b];
    assert Join([b], ' ') == b;
    SplitSpacesJoin([a, b]);
  }

  lemma {:induction false} SixtyParses()
    ensures ParseInt("60") == Some(60)
  {
    var line := "60";
    assert line[..1] == "6" && "6"[..0] == "";
    assert DigitsValue("6") == 6;
    assert DigitsValue(line) == 60;
  }

  // ---------------------------------------------------------------------------
  // What a valid map guarantees
  // ---------------------------------------------------------------------------

  /** Each tile covers exactly the grid cells whose layout entry is its id. */
  ghost predicate ExactCover(layout: seq<seq<Int32>>, rows: nat, cols: nat, ts: seq<Block>)
    requires Rect(layout, rows, cols)
  {
    forall k, c | 0 <= k < |ts| :: Covers(ts[k], c) <==> InBox(rows, cols, c) && At(layout, c) == ts[k].id
  }

  /** Under the shape rule every tile covers exactly the cells carrying its id. */
  lemma {:induction false} WellShapedTiles(layout: seq<seq<Int32>>, rows: nat, cols: nat)
    requires Rect(layout, rows, cols) && WellShaped(layout, rows, cols)
    ensures ExactCover(layout, rows, cols, TilesOf(layout, rows, cols))
  {
    var ts := TilesOf(layout, rows, cols);
    var ids := IdList(layout, rows, cols);
    forall k | 0 <= k < |ts|
      ensures forall c :: Covers(ts[k], c) <==> InBox(rows, cols, c) && At(layout, c) == ts[k].id
    {
      ShapeIsFootprint(TileCells(layout, rows, cols, ids[k]));
    }
  }

  /** Tiles that cover exactly the cells of their distinct ids lie on the grid and are pairwise disjoint. */
  lemma {:induction false} ExactTilesLegal(layout: seq<seq<Int32>>, rows: nat, cols: nat, ts: seq<Block>)
    requires Rect(layout, rows, cols) && ExactCover(layout, rows, cols, ts)
    requires Boards.UniqueIds(ts)
    ensures Boards.Legal(rows, cols, ts)
  {
    forall i | 0 <= i < |ts|
      ensures Boards.InGrid(rows, cols, ts[i].kind, ts[i].pos)
    {
      var t := ts[i];
      var far := Cell(t.pos.row + SizeOf(t.kind).height - 1, t.pos.col + SizeOf(t.kind).width - 1);
      assert Covers(ts[i], t.pos) && Covers(ts[i], far);
      assert InBox(rows, cols, t.pos) && InBox(rows, cols, far);
    }
    forall i, j | 0 <= i < |ts| && 0 <= j < |ts| && i != j
      ensures !Boards.RectsMeet(ts[i].kind, ts[i].pos, ts[j].kind, ts[j].pos)
    {
      var a, b := ts[i], ts[j];
      assert a.id != b.id by {
        if i < j { } else { }
      }
      forall c ensures !(Covers(a, c) && Covers(b, c)) {
        if Covers(ts[i], c) {
          assert At(layout, c) == a.id;
        }
      }
      var c := Cell(if a.pos.row < b.pos.row then b.pos.row else a.pos.row,
                    if a.pos.col < b.pos.col then b.pos.col else a.pos.col);
      assert !(Covers(a, c) && Covers(b, c));
    }
  }

  /** Tiles follow the ascending id list, so no two share an id. */
  lemma {:induction false} TilesUnique(layout: seq<seq<Int32>>, rows: nat, cols: nat)
    requires Rect(layout, rows, cols)
    ensures Boards.UniqueIds(TilesOf(layout, rows, cols))
  {
  }

  /** On a valid map every tile covers exactly the cells carrying its id, so tiles are on the grid and disjoint. */
  lemma {:induction false} ValidTilesMatchLayout(lines: seq<string>)
    requires ParseMap(lines).valid
    ensures var m := ParseMap(lines); ExactCover(m.layout, m.rows, m.cols, m.blocks)
    ensures var m := ParseMap(lines); Boards.Legal(m.rows, m.cols, m.blocks) && Boards.UniqueIds(m.blocks)
  {
    var m := ParseMap(lines);
    ShapedTilesLegal(m.layout, m.rows, m.cols);
  }

  lemma {:induction false} ShapedTilesLegal(layout: seq<seq<Int32>>, rows: nat, cols: nat)
    requires Rect(layout, rows, cols) && WellShaped(layout, rows, cols)
    ensures ExactCover(layout, rows, cols, TilesOf(layout, rows, cols))
    ensures Boards.Legal(rows, cols, TilesOf(layout, rows, cols)) && Boards.UniqueIds(TilesOf(layout, rows, cols))
  {
    WellShapedTiles(layout, rows, cols);
    TilesUnique(layout, rows, cols);
    ExactTilesLegal(layout, rows, cols, TilesOf(layout, rows, cols));
  }

  /** Each tile sits at the first cell, in row-major order, carrying its id. */
  lemma {:induction false} TileAnchorsFirst(layout: seq<seq<Int32>>, rows: nat, cols: nat)
    requires Rect(layout, rows, cols)
    ensures var ts := TilesOf(layout, rows, cols);
      forall k, c | 0 <= k < |ts| && InBox(rows, cols, c) && At(layout, c) == ts[k].id ::
        ts[k].pos == c || Before(ts[k].pos, c)
  {
    var ts := TilesOf(layout, rows, cols);
    forall k, c | 0 <= k < |ts| && InBox(rows, cols, c) && At(layout, c) == ts[k].id
      ensures ts[k].pos == c || Before(ts[k].pos, c)
    {
      var cs := TileCells(layout, rows, cols, ts[k].id);
      assert c in cs;
      var j :| 0 <= j < |cs| && cs[j] == c;
      assert j == 0 || Before(cs[0], cs[j]);
    }
  }

  // ---------------------------------------------------------------------------
  // Why a level is rejected
  // ---------------------------------------------------------------------------

  /** The id in a layout cell, 0 off the table. */
  function IdAt(layout: seq<seq<Int32>>, c: Cell): int
  {
    if 0 <= c.row < |layout| && 0 <= c.col < |layout[c.row]| then layout[c.row][c.col] else 0
  }

  /** The cells of the grid carrying `id` are exactly the footprint of a tile of kind `k` at `p`. */
  ghost predicate IdCells(layout: seq<seq<Int32>>, rows: nat, cols: nat, id: int, k: Kind, p: Cell)
  {
    forall c :: InBox(rows, cols, c) && IdAt(layout, c) == id <==> InRect(k, p, c)
  }

  /** A first line without two numbers makes the level invalid. */
  lemma {:induction false} LimitsRejected(lines: seq<string>)
    requires lines != []
    requires var toks := SplitSpaces(Trim(lines[0]));
      !(|toks| >= 2 && ParseInt(toks[0]).Some? && ParseInt(toks[1]).Some?)
    ensures !ParseMap(lines).valid
  {
    assert !ParseLimits(lines[0]).ok;
  }

  /** A cell token that, without blanks and goal marker, is neither empty nor a number makes the level invalid. */
  lemma {:induction false} BadTokenRejected(lines: seq<string>, r: nat, c: nat)
    requires 1 <= r < |lines| && c < |Split(Trim(lines[r]), ',')|
    requires var tok := Split(Trim(lines[r]), ',')[c];
      TokenBody(tok) != [] && ParseInt(TokenBody(tok)).None?
    ensures !ParseMap(lines).valid
  {
    var parts := Parts(lines[1..]);
    assert parts[r - 1] == Split(Trim(lines[r]), ',');
    assert c < MaxLen(parts);
    assert !TokenAt(parts, r - 1, c).ok;
  }

  /** Under the shape rule every id of the grid has a tile whose footprint is exactly that id's cells. */
  lemma {:induction false} ShapedIdIsTile(layout: seq<seq<Int32>>, rows: nat, cols: nat, id: int, c0: Cell)
    requires Rect(layout, rows, cols) && WellShaped(layout, rows, cols)
    requires id != 0 && InBox(rows, cols, c0) && IdAt(layout, c0) == id
    ensures var ts := TilesOf(layout, rows, cols);
      exists k | 0 <= k < |ts| :: ts[k].id == id && IdCells(layout, rows, cols, id, ts[k].kind, ts[k].pos)
  {
    var ts := TilesOf(layout, rows, cols);
    WellShapedTiles(layout, rows, cols);
    var ids := IdList(layout, rows, cols);
    assert id in ids;
    var k :| 0 <= k < |ids| && ids[k] == id;
    TileIsIdCells(layout, rows, cols, ts, k);
  }

  /** A tile of an exact cover has exactly its id's cells as footprint. */
  lemma {:induction false} TileIsIdCells(layout: seq<seq<Int32>>, rows: nat, cols: nat, ts: seq<Block>, k: nat)
    requires Rect(layout, rows, cols) && ExactCover(layout, rows, cols, ts) && k < |ts|
    ensures IdCells(layout, rows, cols, ts[k].id, ts[k].kind, ts[k].pos)
  {
    forall c ensures InBox(rows, cols, c) && IdAt(layout, c) == ts[k].id <==> InRect(ts[k].kind, ts[k].pos, c) {
      assert Covers(ts[k], c) == InRect(ts[k].kind, ts[k].pos, c);
    }
  }

  /** On a valid level the cells of every id in the grid form the footprint of that id's tile. */
  lemma {:induction false} ValidIdIsTile(lines: seq<string>, id: int, c0: Cell)
    ensures var m := ParseMap(lines);
      m.valid && id != 0 && InBox(m.rows, m.cols, c0) && IdAt(m.layout, c0) == id ==>
        exists k | 0 <= k < |m.blocks| :: m.blocks[k].id == id && IdCells(m.layout, m.rows, m.cols, id, m.blocks[k].kind, m.blocks[k].pos)
  {
    var m := ParseMap(lines);
    if m.valid && id != 0 && InBox(m.rows, m.cols, c0) && IdAt(m.layout, c0) == id {
      ShapedIdIsTile(m.layout, m.rows, m.cols, id, c0);
    }
  }

  /**
   * An id whose cells are not a 1×1, 1×2, 2×1 or 2×2 block (every kind's
   * footprint at any anchor misses or adds a cell) makes the level invalid.
   */
  lemma {:induction false} MisshapedRejected(lines: seq<string>, id: int, c0: Cell)
    requires var m := ParseMap(lines);
      id != 0 && InBox(m.rows, m.cols, c0) && IdAt(m.layout, c0) == id &&
      forall k, p :: !IdCells(m.layout, m.rows, m.cols, id, k, p)
    ensures !ParseMap(lines).valid
  {
    ValidIdIsTile(lines, id, c0);
  }

  /** A valid level has a large tile, and its id's cells form a 2×2 block. */
  lemma {:induction false} ValidHasLargeBlock(lines: seq<string>)
    ensures var m := ParseMap(lines);
      m.valid ==> (exists k | 0 <= k < |m.blocks| ::
                     m.blocks[k].kind == Large && IdCells(m.layout, m.rows, m.cols, m.blocks[k].id, Large, m.blocks[k].pos))
  {
    var m := ParseMap(lines);
    if m.valid {
      WellShapedTiles(m.layout, m.rows, m.cols);
      var k :| 0 <= k < |m.blocks| && m.blocks[k].kind == Large;
      TileIsIdCells(m.layout, m.rows, m.cols, m.blocks, k);
    }
  }

  /** A level where no id's cells form a 2×2 block has no large tile and is invalid. */
  lemma {:induction false} NoLargeRejected(lines: seq<string>)
    requires var m := ParseMap(lines);
      forall id, p :: !IdCells(m.layout, m.rows, m.cols, id, Large, p)
    ensures !ParseMap(lines).valid
  {
    ValidHasLargeBlock(lines);
  }

  /** Distinct cells all drawn from a set are no more than the set holds. */
  lemma {:induction false} RowMajorWithin(cells: seq<Cell>, s: set<Cell>)
    requires RowMajor(cells) && forall i | 0 <= i < |cells| :: cells[i] in s
    ensures |cells| <= |s|
    decreases |cells|
  {
    if cells != [] {
      var rest := cells[1..];
      assert RowMajor(rest) by {
        forall i, j | 0 <= i < j < |rest| ensures Before(rest[i], rest[j]) {
          assert Before(cells[i + 1], cells[j + 1]);
        }
      }
      forall i | 0 <= i < |rest| ensures rest[i] in s - {cells[0]} {
        assert Before(cells[0], cells[i + 1]);
      }
      RowMajorWithin(rest, s - {cells[0]});
    }
  }

  /** A level whose goal cells all lie in a set of fewer than four cells is invalid. */
  lemma {:induction false} FewGoalsRejected(lines: seq<string>, few: set<Cell>)
    requires |few| < 4
    requires var m := ParseMap(lines);
      forall c | InBox(m.rows, m.cols, c) && At(m.zone, c) :: c in few
    ensures !ParseMap(lines).valid
  {
    var m := ParseMap(lines);
    var goals := VictoryCells(m);
    assert forall i | 0 <= i < |goals| :: goals[i] in goals;
    RowMajorWithin(goals, few);
  }

  /** The board a level starts from. */
  function ToBoard(m: GameMap): (b: Boards.Board)
    requires Rect(m.zone, m.rows, m.cols)
    ensures b.rows == m.rows && b.cols == m.cols
    ensures b.history == [] && b.focused == None && b.blocks == m.blocks
    ensures forall c :: c in b.goals <==> InBox(m.rows, m.cols, c) && At(m.zone, c)
  {
    Boards.NewBoard(m.rows, m.cols, m.blocks, VictoryCells(m))
  }
}

=== FILE: game_rules.dfy ===
/**
 * The pure rules inside the game's views: statistics defaults and the
 * best-record update on victory, the time and move limits, the clock text,
 * the drag gesture, the pixel-to-cell mapping, the victory message, and the
 * level selector's file-name and statistics helpers.
 */
module GameRules {
  import opened Wrappers
  import opened JavaText
  import opened Tiles

  // ---------------------------------------------------------------------------
  // Modes and statistics
  // ---------------------------------------------------------------------------

  datatype Mode = Normal | TimeLimit | MoveLimit

  /** The mode's label, which is also what a save record stores as its mode. */
  function ModeLabel(m: Mode): (s: string)
    ensures |s| == 4 && ',' !in s && forall c | c in s :: !IsLineTerminator(c)
  {
    match m
    case Normal => "普通模式"
    case TimeLimit => "限时模式"
    case MoveLimit => "限步模式"
  }

  /** Different modes have different labels, so the stored label names the mode. */
  lemma {:induction false} ModeLabelsDistinct(a: Mode, b: Mode)
    requires ModeLabel(a) == ModeLabel(b)
    ensures a == b
  {
    assert ModeLabel(a)[1] == ModeLabel(b)[1];
  }

  datatype Stats = Stats(completedCount: Int32, bestTime: Int64, bestMoves: Int32)

  /** "No record yet": nothing completed and the largest values as bests. */
  const NoRecord: Stats := Stats(0, MaxLong, MaxInt)

  /** The statistics a game starts with: the saved ones, or no record. */
  function InitialStats(saved: Option<Stats>): (s: Stats)
    ensures saved.None? ==> s.completedCount == 0 && s.bestTime == MaxLong && s.bestMoves == MaxInt
    ensures saved.Some? ==> s == saved.value
  {
    saved.GetOr(NoRecord)
  }

  /** Statistics after a victory, the two new-record flags, and whether they are saved. */
  datatype VictoryOutcome = VictoryOutcome(stats: Stats, newTime: bool, newMoves: bool, saved: bool)

  /**
   * The victory rule: one more completion (an int that wraps), the bests
   * become the minimum of old and current, the flags compare against the old
   * bests, and the result is saved for every user but the guest.
   */
  function OnVictory(s: Stats, elapsed: Int64, moves: Int32, user: string): (r: VictoryOutcome)
    ensures r.stats.bestTime <= s.bestTime && r.stats.bestTime <= elapsed
    ensures r.stats.bestTime == s.bestTime || r.stats.bestTime == elapsed
    ensures r.stats.bestMoves <= s.bestMoves && r.stats.bestMoves <= moves
    ensures r.stats.bestMoves == s.bestMoves || r.stats.bestMoves == moves
    ensures r.newTime <==> r.stats.bestTime < s.bestTime
    ensures r.newMoves <==> r.stats.bestMoves < s.bestMoves
    ensures s.completedCount < MaxInt ==> r.stats.completedCount == s.completedCount + 1
    ensures s.completedCount == MaxInt ==> r.stats.completedCount == MinInt
    ensures r.saved <==> user != "Guest"
  {
    var nt := elapsed < s.bestTime;
    var nm := moves < s.bestMoves;
    VictoryOutcome(Stats(ToInt32(s.completedCount + 1), Min(s.bestTime, elapsed), Min(s.bestMoves, moves)),
                   nt, nm, user != "Guest")
  }

  /** One finished run: its elapsed milliseconds and move count. */
  datatype Run = Run(elapsed: Int64, moves: Int32)

  /** Statistics after a series of victories. */
  function AfterRuns(s: Stats, runs: seq<Run>): Stats
    decreases |runs|
  {
    if runs == [] then s else AfterRuns(OnVictory(s, runs[0].elapsed, runs[0].moves, "").stats, runs[1..])
  }

  /** The `(int)` cast composes with addition: wrapping early or late gives the same int. */
  lemma {:induction false} WrapAdd(x: int, y: int)
    ensures ToInt32(ToInt32(x) + y) == ToInt32(x + y)
  {
    var m := 0x1_0000_0000;
    var a := x - MinInt;
    var q := a / m;
    assert ToInt32(x) == x - m * q;
    var b := x + y - MinInt;
    assert ToInt32(x) + y - MinInt == b - m * q;
    assert (b - m * q) % m == b % m by {
      assert b - m * q == m * (b / m - q) + b % m;
    }
  }

  /**
   * After any series of victories the bests are the minimum over the old
   * bests and every run, and the completion count has grown by the number of
   * runs, modulo the int range.
   */
  lemma {:induction false} BestsAreMinima(s: Stats, runs: seq<Run>)
    ensures var t := AfterRuns(s, runs);
      t.bestTime <= s.bestTime && (forall i | 0 <= i < |runs| :: t.bestTime <= runs[i].elapsed) &&
      (t.bestTime == s.bestTime || exists i | 0 <= i < |runs| :: t.bestTime == runs[i].elapsed)
    ensures var t := AfterRuns(s, runs);
      t.bestMoves <= s.bestMoves && (forall i | 0 <= i < |runs| :: t.bestMoves <= runs[i].moves) &&
      (t.bestMoves == s.bestMoves || exists i | 0 <= i < |runs| :: t.bestMoves == runs[i].moves)
    ensures AfterRuns(s, runs).completedCount == ToInt32(s.completedCount + |runs|)
    decreases |runs|
  {
    if runs != [] {
      var s1 := OnVictory(s, runs[0].elapsed, runs[0].moves, "").stats;
      BestsAreMinima(s1, runs[1..]);
      var t := AfterRuns(s, runs);
      assert t == AfterRuns(s1, runs[1..]);
      forall i | 1 <= i < |runs|
        ensures t.bestTime <= runs[i].elapsed && t.bestMoves <= runs[i].moves
      {
        assert runs[1..][i - 1] == runs[i];
      }
      if t.bestTime != s1.bestTime {
        var i :| 0 <= i < |runs| - 1 && t.bestTime == runs[1..][i].elapsed;
        assert t.bestTime == runs[i + 1].elapsed;
      }
      if t.bestMoves != s1.bestMoves {
        var i :| 0 <= i < |runs| - 1 && t.bestMoves == runs[1..][i].moves;
        assert t.bestMoves == runs[i + 1].moves;
      }
      WrapAdd(s.completedCount + 1, |runs| - 1);
    }
  }

  // ---------------------------------------------------------------------------
  // Limits and the clock
  // ---------------------------------------------------------------------------

  /** The time limit (seconds) fails strictly after it is used up. */
  predicate TimeUp(mode: Mode, limit: Int32, elapsed: Int64)
  {
    mode == TimeLimit && elapsed > limit * 1000
  }

  /** The move limit fails strictly after it is used up. */
  predicate MovesUp(mode: Mode, limit: Int32, moves: int)
  {
    mode == MoveLimit && moves > limit
  }

  /** Once a limit has failed it stays failed as time and moves grow; exactly the limit never fails. */
  lemma {:induction false} LimitsAreMonotone(mode: Mode, limit: Int32, e1: Int64, e2: Int64, m1: int, m2: int)
    requires e1 <= e2 && m1 <= m2
    ensures TimeUp(mode, limit, e1) ==> TimeUp(mode, limit, e2)
    ensures MovesUp(mode, limit, m1) ==> MovesUp(mode, limit, m2)
    ensures !TimeUp(mode, limit, limit * 1000) && !MovesUp(mode, limit, limit)
  {
  }

  /** Whole minutes and remaining seconds of `ms`, as `formatTime` derives them through an int. */
  function ClockParts(ms: Int64): (r: (int, int))
    ensures 0 <= ms <= 1000 * MaxInt + 999 ==> r.0 * 60 + r.1 == ms / 1000 && 0 <= r.1 < 60 && 0 <= r.0
  {
    var total := ToInt32(Quot(ms, 1000));
    (Quot(total, 60), Rem(total, 60))
  }

  /** `formatTime` of the victory screen, also the game's clock: "MM:SS", each part zero-padded. */
  function FormatTime(ms: Int64): (s: string)
    ensures |s| >= 5
  {
    var (m, sec) := ClockParts(ms);
    Pad2(m) + ":" + Pad2(sec)
  }

  /** Reading "M...M:SS" back into seconds; None unless both parts are digit strings. */
  function ParseClock(t: string): (r: Option<int>)
  {
    var k := IndexOf(t, ':');
    if k < 0 then None
    else
      var mm := t[..k];
      var ss := t[k + 1..];
      if mm == [] || ss == [] || !AllDigits(mm) || !AllDigits(ss) then None
      else Some(DigitsValue(mm) * 60 + DigitsValue(ss))
  }

  lemma {:induction false} Pad2Digits(n: nat)
    ensures AllDigits(Pad2(n)) && DigitsValue(Pad2(n)) == n
  {
    if n < 10 {
      var s := Pad2(n);
      assert s[..1] == "0";
      assert DigitsValue(s[..1]) == 0 by {
        assert s[..1][..0] == [];
      }
    }
  }

  /** Two digit strings joined by ':' parse as minutes and seconds. */
  lemma {:induction false} ParseClockJoined(mm: string, ss: string)
    requires mm != [] && ss != [] && AllDigits(mm) && AllDigits(ss)
    ensures ParseClock(mm + ":" + ss) == Some(DigitsValue(mm) * 60 + DigitsValue(ss))
  {
    var t := mm + ":" + ss;
    assert t == mm + (":" + ss);
    IndexOfConcat(mm, ":" + ss, ':');
    assert t[..|mm|] == mm;
    assert t[|mm| + 1..] == ss;
  }

  /** "M:SS" text built from whole minutes and seconds reads back as the seconds it stands for. */
  lemma {:induction false} ClockTextReadsBack(m: nat, sec: nat)
    ensures ParseClock(Pad2(m) + ":" + Pad2(sec)) == Some(m * 60 + sec)
  {
    Pad2Digits(m);
    Pad2Digits(sec);
    ParseClockJoined(Pad2(m), Pad2(sec));
  }

  /** Within the int range of seconds the clock text reads back as the whole seconds elapsed. */
  lemma {:induction false} ClockReadsBack(ms: Int64)
    requires 0 <= ms <= 1000 * MaxInt + 999
    ensures ParseClock(FormatTime(ms)) == Some(ms / 1000)
  {
    var p := ClockParts(ms);
    ClockTextReadsBack(p.0, p.1);
  }

  /**
   * What one tick of the game clock does: show the texts or end the game on a
   * limit.  A move-limit failure happens after the time label was refreshed,
   * so it carries that text, and it reports the clock read again.
   */
  datatype Tick =
    | Shows(timeText: string, movesText: string)
    | TimeFailed(moves: int, elapsed: Int64)
    | MovesFailed(timeText: string, moves: int, elapsed: Int64)

  /**
   * The clock tick: the time limit is tested first (with the elapsed time of
   * this tick), then the time label is refreshed and the move limit tested;
   * otherwise the moves label is refreshed too, with the limit appended in the
   * limited modes.  `later` is the second clock reading taken when the move
   * limit fails.
   */
  function UpdateTimeLabel(mode: Mode, timeLimit: Int32, moveLimit: Int32, elapsed: Int64, later: Int64, moves: nat): (r: Tick)
    ensures r.TimeFailed? <==> TimeUp(mode, timeLimit, elapsed)
    ensures r.MovesFailed? <==> !TimeUp(mode, timeLimit, elapsed) && MovesUp(mode, moveLimit, moves)
    ensures r.TimeFailed? ==> r.moves == moves && r.elapsed == elapsed
    ensures r.MovesFailed? ==> r.moves == moves && r.elapsed == later && StartsWith(r.timeText, FormatTime(elapsed))
    ensures r.Shows? ==> StartsWith(r.timeText, FormatTime(elapsed)) && StartsWith(r.movesText, "步数: " + IntToString(moves))
    ensures (r.Shows? || r.MovesFailed?) && mode != TimeLimit ==> r.timeText == FormatTime(elapsed)
  {
    if TimeUp(mode, timeLimit, elapsed) then TimeFailed(moves, elapsed)
    else if MovesUp(mode, moveLimit, moves) then MovesFailed(TimeText(mode, timeLimit, elapsed), moves, later)
    else Shows(TimeText(mode, timeLimit, elapsed), MovesText(mode, moveLimit, moves))
  }

  /** The time label: the clock, followed by "/mm:ss" of the limit in the time-limit mode. */
  function TimeText(mode: Mode, timeLimit: Int32, elapsed: Int64): (t: string)
    ensures StartsWith(t, FormatTime(elapsed))
    ensures mode != TimeLimit ==> t == FormatTime(elapsed)
    ensures mode == TimeLimit ==> |t| > |FormatTime(elapsed)| + 1 && t[|FormatTime(elapsed)|] == '/'
    ensures mode == TimeLimit && timeLimit >= 0 ==> ParseClock(t[|FormatTime(elapsed)| + 1..]) == Some(timeLimit as int)
  {
    var clock := FormatTime(elapsed);
    if mode == TimeLimit then
      var limit := Pad2(Quot(timeLimit, 60)) + ":" + Pad2(Rem(timeLimit, 60));
      SlashSuffix(clock, limit);
      LimitClockReadsBack(timeLimit);
      clock + "/" + limit
    else clock
  }

  /** The `/limit` suffix of a label sits right after the slash that follows the head. */
  lemma {:induction false} SlashSuffix(head: string, tail: string)
    ensures var t := head + "/" + tail;
      StartsWith(t, head) && |t| == |head| + 1 + |tail| && t[|head|] == '/' && t[|head| + 1..] == tail
  {
    var t := head + "/" + tail;
    assert t[..|head|] == head;
    assert t[|head| + 1..] == tail;
  }

  /** The `%02d:%02d` text of a non-negative limit in seconds reads back as that limit. */
  lemma {:induction false} LimitClockReadsBack(limit: Int32)
    ensures limit >= 0 ==> ParseClock(Pad2(Quot(limit, 60)) + ":" + Pad2(Rem(limit, 60))) == Some(limit as int)
  {
    if limit >= 0 {
      ClockTextReadsBack(Quot(limit, 60), Rem(limit, 60));
    }
  }

  /** The moves label: the count, followed by "/limit" in the move-limit mode. */
  function MovesText(mode: Mode, moveLimit: Int32, moves: nat): (t: string)
    ensures StartsWith(t, "步数: " + IntToString(moves))
    ensures mode != MoveLimit ==> t == "步数: " + IntToString(moves)
    ensures mode == MoveLimit ==> var n := |"步数: " + IntToString(moves)|;
      |t| > n + 1 && t[n] == '/' && ParseInt(t[n + 1..]) == Some(moveLimit)
  {
    var head := "步数: " + IntToString(moves);
    if mode == MoveLimit then
      SlashSuffix(head, IntToString(moveLimit));
      ParseIntRendered(moveLimit);
      head + "/" + IntToString(moveLimit)
    else
      StartsWithConcat(head, "");
      assert head + "" == head;
      head
  }

  // ---------------------------------------------------------------------------
  // Mouse gestures
  // ---------------------------------------------------------------------------

  /** Gestures shorter than this many milliseconds do not move a tile. */
  const ClickThreshold: int := 100

  /** The drag rule: vertical when |dy| exceeds |dx| (by sign of dy), otherwise horizontal (by sign of dx). */
  function DragDirection(dx: Int32, dy: Int32): (d: Direction)
    ensures d == Up || d == Down <==> AbsInt(dy) > AbsInt(dx)
    ensures AbsInt(dy) > AbsInt(dx) ==> (d == Down <==> dy > 0)
    ensures AbsInt(dy) <= AbsInt(dx) ==> (d == Right <==> dx > 0)
    ensures dx == 0 && dy == 0 ==> d == Left
  {
    if AbsInt(dy) > AbsInt(dx) then (if dy > 0 then Down else Up)
    else (if dx > 0 then Right else Left)
  }

  /** Dragging the opposite way gives the opposite direction, for every drag that moves. */
  lemma {:induction false} DragIsAntisymmetric(dx: Int32, dy: Int32)
    requires dx != MinInt && dy != MinInt && (dx != 0 || dy != 0)
    ensures DragDirection(-dx, -dy) == Opposite(DragDirection(dx, dy))
  {
  }

  /**
   * Mouse release: a tile pressed on and held for at least the threshold is
   * moved in the drag direction; anything else does nothing.
   */
  function Release(pressed: Option<nat>, duration: int, dx: Int32, dy: Int32): (r: Option<(nat, Direction)>)
    ensures r.Some? <==> pressed.Some? && duration >= ClickThreshold
    ensures r.Some? ==> r.value.0 == pressed.value && r.value.1 == DragDirection(dx, dy)
  {
    if pressed.Some? && duration >= ClickThreshold then Some((pressed.value, DragDirection(dx, dy))) else None
  }

  datatype Point = Point(x: int, y: int)

  /** The board's layout in the panel: cell size and the offsets that centre it. */
  datatype Layout = Layout(cs: int, xo: int, yo: int)

  function BoardLayout(rows: int, cols: int, width: int, height: int): Layout
    requires rows > 0 && cols > 0
  {
    var cs := Min(Quot(width, cols), Quot(height, rows));
    Layout(cs, Quot(width - cs * cols, 2), Quot(height - cs * rows, 2))
  }

  /** In a panel of non-negative size the whole board fits and the centring offsets are non-negative. */
  lemma {:induction false} BoardFitsPanel(rows: int, cols: int, width: int, height: int)
    requires rows > 0 && cols > 0 && width >= 0 && height >= 0
    ensures var l := BoardLayout(rows, cols, width, height);
      0 <= l.cs && l.cs * cols <= width && l.cs * rows <= height && 0 <= l.xo && 0 <= l.yo
  {
    var l := BoardLayout(rows, cols, width, height);
    AxisQuotient(width, cols);
    AxisQuotient(height, rows);
    AxisFits(width, cols, l.cs);
    AxisFits(height, rows, l.cs);
  }

  /** The truncated quotient of a non-negative length by a positive count is a non-negative size that fits. */
  lemma {:induction false} AxisQuotient(len: int, n: int)
    requires len >= 0 && n > 0
    ensures 0 <= Quot(len, n) && n * Quot(len, n) <= len
  {
    var q := Quot(len, n);
    assert len - n * q >= 0;
    if q < 0 {
      MulOrder(n, q, -1);
    }
  }

  /** Along one axis, a cell size no larger than the quotient fits, and half the slack is a non-negative offset. */
  lemma {:induction false} AxisFits(len: int, n: int, cs: int)
    requires len >= 0 && n > 0 && 0 <= cs <= Quot(len, n) && n * Quot(len, n) <= len
    ensures cs * n <= len
    ensures 0 <= Quot(len - cs * n, 2)
  {
    MulOrder(n, cs, Quot(len, n));
  }

  /**
   * `pointToCell` as written: (row, col) by Java's truncating division of the
   * offsets from the board's corner; None where the division by a zero cell
   * size throws.
   */
  function PointToCell(rows: int, cols: int, width: int, height: int, p: Point): (r: Option<Cell>)
    requires rows > 0 && cols > 0
    ensures r.None? <==> BoardLayout(rows, cols, width, height).cs == 0
  {
    var l := BoardLayout(rows, cols, width, height);
    if l.cs == 0 then None else Some(Cell(Quot(p.y - l.yo, l.cs), Quot(p.x - l.xo, l.cs)))
  }

  /** A press a few pixels left of the board still lands in column 0. */
  lemma {:induction false} MarginClickSelects()
    ensures BoardLayout(4, 4, 110, 100) == Layout(25, 5, 0)
    ensures PointToCell(4, 4, 110, 100, Point(2, 50)) == Some(Cell(2, 0))
    ensures PointToCellFloor(4, 4, 110, 100, Point(2, 50)) == Some(Cell(2, -1))
  {
    assert Quot(-3, 25) == 0;
  }

  /** The evident intent: floor division, so only points on the board map into the grid. */
  function PointToCellFloor(rows: int, cols: int, width: int, height: int, p: Point): (r: Option<Cell>)
    requires rows > 0 && cols > 0 && width >= 0 && height >= 0
    ensures r.None? <==> BoardLayout(rows, cols, width, height).cs == 0
    ensures r.Some? ==> var l := BoardLayout(rows, cols, width, height);
      (0 <= r.value.row < rows <==> l.yo <= p.y < l.yo + l.cs * rows) &&
      (0 <= r.value.col < cols <==> l.xo <= p.x < l.xo + l.cs * cols)
  {
    var l := BoardLayout(rows, cols, width, height);
    if l.cs == 0 then None
    else
      FloorDivRange(p.y - l.yo, l.cs, rows);
      FloorDivRange(p.x - l.xo, l.cs, cols);
      Some(Cell((p.y - l.yo) / l.cs, (p.x - l.xo) / l.cs))
  }

  lemma {:induction false} FloorDivRange(a: int, cs: int, n: int)
    requires cs > 0 && n > 0
    ensures 0 <= a / cs < n <==> 0 <= a < cs * n
  {
    var q := a / cs;
    var r := a % cs;
    assert a == cs * q + r && 0 <= r < cs;
    MulOrder(cs, q, -1);
    MulOrder(cs, q, n);
    MulOrder(cs, n - 1, q);
  }

  /** Multiplying by a positive number keeps the order, strictly and weakly. */
  lemma {:induction false} MulOrder(c: int, x: int, y: int)
    requires c > 0
    ensures x <= y <==> c * x <= c * y
  {
    assert c * y - c * x == c * (y - x);
  }

  /** On the board the two divisions agree: truncation and floor differ only left of or above it. */
  lemma {:induction false} FloorAgreesOnBoard(rows: int, cols: int, width: int, height: int, p: Point)
    requires rows > 0 && cols > 0 && width >= 0 && height >= 0
    requires var l := BoardLayout(rows, cols, width, height); l.cs > 0 && p.x >= l.xo && p.y >= l.yo
    ensures PointToCell(rows, cols, width, height, p) == PointToCellFloor(rows, cols, width, height, p)
  {
  }

  // ---------------------------------------------------------------------------
  // The victory screen
  // ---------------------------------------------------------------------------

  /** The new-record message; None when neither record was broken (no label at all). */
  function RecordMessage(newTime: bool, newMoves: bool): (m: Option<string>)
    ensures m.None? <==> !newTime && !newMoves
    ensures m.Some? ==> ('、' in m.value <==> newTime && newMoves)
    ensures m.Some? ==> StartsWith(m.value, "您创造了新的") && EndsWith(m.value, "记录！")
  {
    if !newTime && !newMoves then None
    else Some("您创造了新的" + (if newTime then "最快用时" else "") + (if newTime && newMoves then "、" else "")
              + (if newMoves then "最少步数" else "") + "记录！")
  }

  /** The message tells which records were broken: different flags never give the same message. */
  lemma {:induction false} RecordMessageInjective(t1: bool, m1: bool, t2: bool, m2: bool)
    requires RecordMessage(t1, m1) == RecordMessage(t2, m2)
    ensures t1 == t2 && m1 == m2
  {
    if RecordMessage(t1, m1).Some? {
      var s1 := RecordMessage(t1, m1).value;
      assert t1 <==> s1[6] == '最' && s1[7] == '快';
      assert t2 <==> s1[6] == '最' && s1[7] == '快';
    }
  }

  // ---------------------------------------------------------------------------
  // The level selector
  // ---------------------------------------------------------------------------

  /** `File.getName` on a Unix path: the text after the last '/', trailing slashes ignored. */
  function FileName(path: string): (name: string)
    ensures '/' !in name
    decreases |path|
  {
    if |path| > 0 && path[|path| - 1] == '/' then FileName(path[..|path| - 1])
    else
      var k := LastIndexOf(path, '/');
      if k < 0 then path else path[k + 1..]
  }

  /**
   * `getFileNameWithoutExtension`: "" for a missing or blank path or an empty
   * name; the name before its last dot when that dot is not the first character;
   * the whole name otherwise.
   */
  function FileNameWithoutExtension(path: Option<string>): (r: string)
    ensures path.None? ==> r == ""
    ensures path.Some? && |Trim(path.value)| == 0 ==> r == ""
    ensures '/' !in r
  {
    if path.None? || |Trim(path.value)| == 0 then ""
    else
      var full := FileName(path.value);
      if full == [] then ""
      else
        var dot := LastIndexOf(full, '.');
        if dot > 0 then full[..dot] else full
  }

  /** The name after a directory and a slash is what FileName returns, and such a path is not blank. */
  lemma {:induction false} FileNameAfterSlash(dir: string, name: string)
    requires |name| > 0 && '/' !in name
    ensures FileName(dir + "/" + name) == name
    ensures |Trim(dir + "/" + name)| != 0
  {
    var path := (dir + "/") + name;
    assert path == dir + "/" + name;
    LastIndexOfSuffix(dir + "/", name, '/');
    assert path[|path| - 1] == name[|name| - 1];
    assert path[|dir| + 1..] == name;
    assert path[|dir|] == '/';
  }

  /** In "base.ext" with a dot-free extension, the last dot sits right after the base. */
  lemma {:induction false} LastDotAfterBase(base: string, ext: string)
    requires '.' !in ext
    ensures LastIndexOf(base + "." + ext, '.') == |base|
    ensures (base + "." + ext)[..|base|] == base
  {
    LastIndexOfSuffix(base + ".", ext, '.');
  }

  /** A directory, a base name and one extension: exactly the extension is removed. */
  lemma {:induction false} StripsLastExtension(dir: string, base: string, ext: string)
    requires |base| > 0 && '/' !in base && '/' !in ext && '.' !in ext
    ensures FileNameWithoutExtension(Some(dir + "/" + base + "." + ext)) == base
  {
    var name := base + "." + ext;
    assert dir + "/" + base + "." + ext == dir + "/" + name;
    FileNameAfterSlash(dir, name);
    LastDotAfterBase(base, ext);
  }

  /** A name without a dot after its first character is returned whole. */
  lemma {:induction false} NoExtensionKept(dir: string, name: string)
    requires |name| > 0 && '/' !in name && '.' !in name[1..]
    ensures FileNameWithoutExtension(Some(dir + "/" + name)) == name
  {
    FileNameAfterSlash(dir, name);
    assert forall j | 1 <= j < |name| :: name[j] == name[1..][j - 1];
    assert LastIndexOf(name, '.') <= 0;
  }

  /** `StatsPanel.formatTime`: "m分ss秒" on longs, minutes unpadded and seconds zero-padded. */
  function StatsFormatTime(ms: Int64): (s: string)
  {
    var total := Quot(ms, 1000);
    IntToString(Quot(total, 60)) + "分" + Pad2(Rem(total, 60)) + "秒"
  }

  /** For the same non-negative time both formatters show the same seconds after the same minutes. */
  lemma {:induction false} FormattersAgree(ms: Int64)
    requires 0 <= ms <= 1000 * MaxInt + 999
    ensures var (m, sec) := ClockParts(ms);
      StatsFormatTime(ms) == NatToString(m) + "分" + Pad2(sec) + "秒" && FormatTime(ms) == Pad2(m) + ":" + Pad2(sec)
  {
  }

  /** The three statistics labels of the selector. */
  datatype StatsLabels = StatsLabels(completed: string, moves: string, time: string)

  const ClearedLabels: StatsLabels := StatsLabels("完成次数：-", "最少步数：-", "最快时间：-")

  /**
   * `updateStats` as written: with saved statistics the count is shown, and a
   * best is shown only when it is not the no-record value; otherwise that
   * label keeps whatever text it had before.
   */
  function UpdateStats(l: StatsLabels, saved: Option<Stats>): (r: StatsLabels)
    ensures saved.None? ==> r == ClearedLabels
    ensures saved.Some? && saved.value.bestMoves == MaxInt ==> r.moves == l.moves
    ensures saved.Some? && saved.value.bestTime == MaxLong ==> r.time == l.time
  {
    match saved
    case None => ClearedLabels
    case Some(s) =>
      StatsLabels("完成次数：" + IntToString(s.completedCount),
                  if s.bestMoves != MaxInt then "最少步数：" + IntToString(s.bestMoves) else l.moves,
                  if s.bestTime != MaxLong then "最快时间：" + StatsFormatTime(s.bestTime) else l.time)
  }

  /**
   * Selecting a level with a record and then a level saved but never
   * completed (its bests are the no-record values) leaves the first level's
   * best moves on screen.
   */
  lemma {:induction false} StaleBestShown()
    ensures var first := UpdateStats(ClearedLabels, Some(Stats(1, 5000, 10)));
      UpdateStats(first, Some(Stats(0, MaxLong, MaxInt))).moves == "最少步数：10"
  {
    assert IntToString(10) == "10";
  }

  /** The evident intent: a best with the no-record value shows the cleared text. */
  function UpdateStatsCleared(l: StatsLabels, saved: Option<Stats>): (r: StatsLabels)
    ensures saved.None? ==> r == ClearedLabels
    ensures saved.Some? && saved.value.bestMoves == MaxInt ==> r.moves == ClearedLabels.moves
    ensures saved.Some? && saved.value.bestTime == MaxLong ==> r.time == ClearedLabels.time
  {
    match saved
    case None => ClearedLabels
    case Some(s) =>
      StatsLabels("完成次数：" + IntToString(s.completedCount),
                  if s.bestMoves != MaxInt then "最少步数：" + IntToString(s.bestMoves) else ClearedLabels.moves,
                  if s.bestTime != MaxLong then "最快时间：" + StatsFormatTime(s.bestTime) else ClearedLabels.time)
  }

  /** The corrected labels depend on the selected level only, never on what was shown before. */
  lemma {:induction false} ClearedLabelsForget(l1: StatsLabels, l2: StatsLabels, saved: Option<Stats>)
    ensures UpdateStatsCleared(l1, saved) == UpdateStatsCleared(l2, saved)
    ensures saved.Some? && saved.value.bestMoves != MaxInt && saved.value.bestTime != MaxLong ==>
      UpdateStatsCleared(l1, saved) == UpdateStats(l2, saved)
  {
  }

  /** The level directory's files listed in the selector. */
  const MapDir: string := "maps"

  /**
   * The selector's list entry for a file of the level directory: listed when
   * its lower-cased name ends in ".txt"; the shown name drops a trailing
   * ".txt" written in lower case only.
   */
  function ListedName(file: string): (r: Option<string>)
    ensures r.Some? <==> EndsWith(ToLower(file), ".txt")
    ensures r.Some? && EndsWith(file, ".txt") ==> r.value + ".txt" == file
    ensures r.Some? && !EndsWith(file, ".txt") ==> r.value == file
  {
    if !EndsWith(ToLower(file), ".txt") then None
    else if EndsWith(file, ".txt") then Some(file[..|file| - 4])
    else Some(file)
  }

  /** The file a selected name is opened from. */
  function LevelPath(name: string): string
  {
    MapDir + "/" + name + ".txt"
  }

  /** A level file named with an upper-case extension is listed but opened under another name. */
  lemma {:induction false} UpperCaseExtensionLost()
    ensures ListedName("A.TXT") == Some("A.TXT")
    ensures LevelPath(ListedName("A.TXT").value) != MapDir + "/" + "A.TXT"
  {
    assert ToLower("A.TXT") == "a.txt";
    assert !EndsWith("A.TXT", ".txt") by {
      assert "A.TXT"[1..] != ".txt";
    }
    assert |LevelPath("A.TXT")| != |MapDir + "/" + "A.TXT"|;
  }

  /** The evident intent: list exactly the files the selector can open again. */
  function ListedNameExact(file: string): (r: Option<string>)
    ensures r.Some? <==> EndsWith(file, ".txt")
    ensures r.Some? ==> LevelPath(r.value) == MapDir + "/" + file
  {
    if EndsWith(file, ".txt") then
      assert file[..|file| - 4] + ".txt" == file;
      Some(file[..|file| - 4])
    else None
  }
}

=== FILE: java_text.dfy ===
/**
 * The slice of Java's integer and string semantics that the game relies on:
 * 32/64-bit ranges and narrowing, truncating division, String.trim,
 * String.split (with and without a limit), Integer/Long.parseInt, decimal
 * rendering, Boolean.parseBoolean and the "%02d" format.
 */
module JavaText {
  import opened Wrappers

  const MinInt: int := -0x8000_0000
  const MaxInt: int := 0x7FFF_FFFF
  const MinLong: int := -0x8000_0000_0000_0000
  const MaxLong: int := 0x7FFF_FFFF_FFFF_FFFF

  type Int32 = x: int | MinInt <= x <= MaxInt
  type Int64 = x: int | MinLong <= x <= MaxLong

  // ---------------------------------------------------------------------------
  // Integer arithmetic
  // ---------------------------------------------------------------------------

  function Abs(x: int): nat
  {
    if x < 0 then -x else x
  }

  /** Java's `(int)` cast of a long: keeps the low 32 bits as a two's-complement value. */
  function ToInt32(x: int): (r: Int32)
    ensures MinInt <= x <= MaxInt ==> r == x
    ensures (x - r) % 0x1_0000_0000 == 0
  {
    (x - MinInt) % 0x1_0000_0000 + MinInt
  }

  /** Java's integer `/`: the quotient truncated toward zero. */
  function Quot(a: int, b: int): (q: int)
    requires b != 0
    ensures 0 <= a && 0 < b ==> q == a / b
    ensures Abs(a - b * q) < Abs(b)
    ensures a - b * q == 0 || (a - b * q < 0 <==> a < 0)
  {
    if a >= 0 && b > 0 then a / b
    else if a >= 0 then -(a / -b)
    else if b > 0 then -((-a) / b)
    else (-a) / (-b)
  }

  /** Java's integer `%`: the remainder takes the sign of the dividend. */
  function Rem(a: int, b: int): (r: int)
    requires b != 0
    ensures 0 <= a && 0 < b ==> r == a % b
    ensures Abs(r) < Abs(b)
    ensures r == 0 || (r < 0 <==> a < 0)
    ensures b * Quot(a, b) + r == a
  {
    a - b * Quot(a, b)
  }

  /** `Math.abs` on an int: the absolute value, except that MIN_VALUE stays negative. */
  function AbsInt(x: Int32): (r: Int32)
    ensures x != MinInt ==> r == Abs(x)
    ensures x == MinInt ==> r == MinInt
  {
    if x == MinInt then MinInt else if x < 0 then -x else x
  }

  function Min(a: int, b: int): (m: int)
    ensures m <= a && m <= b
    ensures m == a || m == b
  {
    if a <= b then a else b
  }

  // ---------------------------------------------------------------------------
  // Characters, trimming and searching
  // ---------------------------------------------------------------------------

  /** String.trim removes every leading and trailing char whose code is at most U+0020. */
  predicate IsBlank(c: char)
  {
    c <= ' '
  }

  /** The characters the regex class `\s` matches. */
  predicate IsSpace(c: char)
  {
    c == ' ' || c == '\t' || c == '\n' || c == '\U{0B}' || c == '\U{0C}' || c == '\r'
  }

  /** The characters a regex `.` refuses: Java's line terminators. */
  predicate IsLineTerminator(c: char)
  {
    c == '\n' || c == '\r' || c == '\U{85}' || c == '\U{2028}' || c == '\U{2029}'
  }

  predicate NoBlankEnds(s: string)
  {
    s == [] || (!IsBlank(s[0]) && !IsBlank(s[|s| - 1]))
  }

  function TrimStart(s: string): (t: string)
    ensures t == [] || !IsBlank(t[0])
    ensures |t| <= |s| && t == s[|s| - |t|..]
    ensures forall i | 0 <= i < |s| - |t| :: IsBlank(s[i])
  {
    if s != [] && IsBlank(s[0]) then TrimStart(s[1..]) else s
  }

  function TrimEnd(s: string): (t: string)
    ensures t == [] || !IsBlank(t[|t| - 1])
    ensures |t| <= |s| && t == s[..|t|]
    ensures forall i | |t| <= i < |s| :: IsBlank(s[i])
  {
    if s != [] && IsBlank(s[|s| - 1]) then TrimEnd(s[..|s| - 1]) else s
  }

  /** String.trim. */
  function Trim(s: string): (t: string)
    ensures NoBlankEnds(t)
    ensures NoBlankEnds(s) ==> t == s
    ensures t == [] <==> forall i | 0 <= i < |s| :: IsBlank(s[i])
  {
    var l := TrimStart(s);
    var r := TrimEnd(l);
    r
  }

  lemma {:induction false} TrimStartAt(s: string)
    ensures forall i | 0 <= i < |TrimStart(s)| :: TrimStart(s)[i] == s[|s| - |TrimStart(s)| + i]
  {
    var t := TrimStart(s);
    assert t == s[|s| - |t|..];
  }

  lemma {:induction false} TrimEndAt(s: string)
    ensures forall i | 0 <= i < |TrimEnd(s)| :: TrimEnd(s)[i] == s[i]
  {
    var t := TrimEnd(s);
    assert t == s[..|t|];
  }

  /** Trimmed text is the part of the original after `|s| - |TrimStart(s)|` characters. */
  lemma {:induction false} TrimSlice(s: string)
    ensures var off := |s| - |TrimStart(s)|;
      off + |Trim(s)| <= |s| && forall i | 0 <= i < |Trim(s)| :: Trim(s)[i] == s[off + i]
  {
    TrimStartAt(s);
    TrimEndAt(TrimStart(s));
  }

  /** What trimming removes at the end is blank. */
  lemma {:induction false} TrimBlankEnd(s: string)
    ensures |Trim(s)| <= |TrimStart(s)|
    ensures forall i | |Trim(s)| <= i < |TrimStart(s)| :: IsBlank(TrimStart(s)[i])
  {
    assert Trim(s) == TrimEnd(TrimStart(s));
  }

  /** Trimming keeps every non-blank character and adds none. */
  lemma {:induction false} TrimKeeps(s: string, c: char)
    ensures c in Trim(s) ==> c in s
    ensures c in s && !IsBlank(c) ==> c in Trim(s)
  {
    TrimAddsNothing(s, c);
    TrimKeepsNonBlank(s, c);
  }

  lemma {:induction false} TrimAddsNothing(s: string, c: char)
    ensures c in Trim(s) ==> c in s
  {
    if c in Trim(s) {
      var t := Trim(s);
      var off := |s| - |TrimStart(s)|;
      TrimSlice(s);
      var i :| 0 <= i < |t| && t[i] == c;
      assert s[off + i] == c;
    }
  }

  lemma {:induction false} TrimKeepsNonBlank(s: string, c: char)
    ensures c in s && !IsBlank(c) ==> c in Trim(s)
  {
    if c in s && !IsBlank(c) {
      var t := Trim(s);
      var off := |s| - |TrimStart(s)|;
      TrimSlice(s);
      TrimStartAt(s);
      TrimBlankEnd(s);
      var i :| 0 <= i < |s| && s[i] == c;
      assert off <= i;
      assert TrimStart(s)[i - off] == c;
      assert t[i - off] == c;
    }
  }

  function IndexOf(s: string, c: char): (i: int)
    ensures -1 <= i < |s|
    ensures i == -1 <==> c !in s
    ensures 0 <= i ==> s[i] == c && c !in s[..i]
  {
    if s == [] then -1
    else if s[0] == c then 0
    else
      var j := IndexOf(s[1..], c);
      if j < 0 then -1
      else
        assert s[..j + 1] == [s[0]] + s[1..][..j];
        j + 1
  }

  function LastIndexOf(s: string, c: char): (i: int)
    ensures -1 <= i < |s|
    ensures i == -1 <==> c !in s
    ensures 0 <= i ==> s[i] == c && c !in s[i + 1..]
  {
    if s == [] then -1
    else if s[|s| - 1] == c then |s| - 1
    else
      var init := s[..|s| - 1];
      assert s == init + [s[|s| - 1]];
      var j := LastIndexOf(init, c);
      if j < 0 then -1
      else
        assert s[j + 1..] == init[j + 1..] + [s[|s| - 1]];
        j
  }

  /** Searching a concatenation whose first part lacks `c` finds `c` in the second part. */
  lemma {:induction false} IndexOfConcat(a: string, b: string, c: char)
    requires c !in a && |b| > 0 && b[0] == c
    ensures IndexOf(a + b, c) == |a|
  {
    assert (a + b)[..|a|] == a;
    IndexOfAt(a + b, c, |a|);
  }

  /** Searching backwards in a concatenation whose second part lacks `c` finds the last `c` of the first part. */
  lemma {:induction false} LastIndexOfSuffix(a: string, b: string, c: char)
    requires |a| > 0 && a[|a| - 1] == c && c !in b
    ensures LastIndexOf(a + b, c) == |a| - 1
  {
    var s := a + b;
    var i := LastIndexOf(s, c);
    assert s[|a| - 1] == c;
    assert s[|a|..] == b;
    assert forall j | |a| <= j < |s| :: s[j] != c;
    assert forall k | i < k < |s| :: s[k] in s[i + 1..];
  }

  /** `String.substring(i, j)`, failing where Java throws StringIndexOutOfBoundsException. */
  function Substring(s: string, i: int, j: int): (r: Option<string>)
    ensures r.Some? <==> 0 <= i <= j <= |s|
    ensures r.Some? ==> |r.value| == j - i && forall k | i <= k < j :: r.value[k - i] == s[k]
  {
    if 0 <= i <= j <= |s| then Some(s[i..j]) else None
  }

  predicate StartsWith(s: string, prefix: string)
  {
    |prefix| <= |s| && s[..|prefix|] == prefix
  }

  predicate EndsWith(s: string, suffix: string)
  {
    |suffix| <= |s| && s[|s| - |suffix|..] == suffix
  }

  lemma {:induction false} StartsWithConcat(a: string, b: string)
    ensures StartsWith(a + b, a)
  {
    assert (a + b)[..|a|] == a;
  }

  // ---------------------------------------------------------------------------
  // Splitting
  // ---------------------------------------------------------------------------

  /** The inverse of splitting: the parts with `sep` between consecutive ones. */
  function Join(parts: seq<string>, sep: char): string
  {
    if |parts| == 0 then ""
    else if |parts| == 1 then parts[0]
    else parts[0] + [sep] + Join(parts[1..], sep)
  }

  /** Every field between separators, empty ones included. */
  function SplitAll(s: string, sep: char): (parts: seq<string>)
    ensures |parts| >= 1
    ensures forall k | 0 <= k < |parts| :: sep !in parts[k]
    ensures Join(parts, sep) == s
    ensures |parts| == 1 <==> sep !in s
    decreases |s|
  {
    var i := IndexOf(s, sep);
    if i < 0 then [s]
    else
      var head, tail := s[..i], s[i + 1..];
      var rest := SplitAll(tail, sep);
      JoinCons(head, rest, sep);
      SplitAround(s, i);
      assert forall k | 1 <= k < |rest| + 1 :: ([head] + rest)[k] == rest[k - 1];
      [head] + rest
  }

  /** A string is the text before position i, the character at i and the text after it. */
  lemma {:induction false} SplitAround(s: string, i: nat)
    requires i < |s|
    ensures s[..i] + [s[i]] + s[i + 1..] == s
  {
  }

  lemma {:induction false} JoinCons(a: string, rest: seq<string>, sep: char)
    requires |rest| >= 1
    ensures Join([a] + rest, sep) == a + [sep] + Join(rest, sep)
  {
    assert ([a] + rest)[1..] == rest;
  }

  function DropTrailingEmpty(parts: seq<string>): (r: seq<string>)
    ensures |r| <= |parts| && r == parts[..|r|]
    ensures r == [] || r[|r| - 1] != ""
    ensures forall k | |r| <= k < |parts| :: parts[k] == ""
  {
    if |parts| > 0 && parts[|parts| - 1] == "" then DropTrailingEmpty(parts[..|parts| - 1])
    else parts
  }

  /**
   * `s.split(sep)` for a one-character separator and no limit: without a match
   * the whole input is the single field; otherwise trailing empty fields are dropped.
   */
  function Split(s: string, sep: char): (parts: seq<string>)
    ensures forall k | 0 <= k < |parts| :: sep !in parts[k]
    ensures sep !in s ==> parts == [s]
    ensures sep in s ==> parts == [] || parts[|parts| - 1] != ""
    ensures sep in s ==> |parts| <= |SplitAll(s, sep)| && parts == SplitAll(s, sep)[..|parts|]
    ensures sep in s ==> forall k | |parts| <= k < |SplitAll(s, sep)| :: SplitAll(s, sep)[k] == ""
  {
    if sep !in s then [s] else DropTrailingEmpty(SplitAll(s, sep))
  }

  /** Splitting undoes joining separator-free fields whose last one is not empty. */
  lemma {:induction false} SplitJoin(parts: seq<string>, sep: char)
    requires |parts| >= 1 && parts[|parts| - 1] != ""
    requires forall k | 0 <= k < |parts| :: sep !in parts[k]
    ensures Split(Join(parts, sep), sep) == parts
  {
    var s := Join(parts, sep);
    SplitAllJoin(parts, sep);
    if |parts| == 1 {
      assert s == parts[0];
    } else {
      JoinSeparators(parts, sep);
      assert sep in multiset(s);
      assert DropTrailingEmpty(parts) == parts;
    }
  }

  /** `s.split(sep, n)` for n >= 1: at most n fields, the last one holding the rest. */
  function SplitLimit(s: string, sep: char, n: nat): (parts: seq<string>)
    requires n >= 1
    ensures 1 <= |parts| <= n
    ensures Join(parts, sep) == s
    ensures forall k | 0 <= k < |parts| - 1 :: sep !in parts[k]
    ensures |parts| < n ==> sep !in parts[|parts| - 1]
    decreases n
  {
    var i := IndexOf(s, sep);
    if n == 1 || i < 0 then [s]
    else
      var rest := SplitLimit(s[i + 1..], sep, n - 1);
      JoinCons(s[..i], rest, sep);
      SplitAround(s, i);
      ConsFields(s[..i], rest, sep);
      [s[..i]] + rest
  }

  /** A separator-free field put in front keeps every field but the last separator-free. */
  lemma {:induction false} ConsFields(a: string, rest: seq<string>, sep: char)
    requires |rest| >= 1 && sep !in a && forall k | 0 <= k < |rest| - 1 :: sep !in rest[k]
    ensures forall k | 0 <= k < |[a] + rest| - 1 :: sep !in ([a] + rest)[k]
    ensures ([a] + rest)[|[a] + rest| - 1] == rest[|rest| - 1]
  {
    forall k | 0 <= k < |[a] + rest| - 1
      ensures sep !in ([a] + rest)[k]
    {
      if k > 0 {
        assert ([a] + rest)[k] == rest[k - 1];
      }
    }
  }

  /** The first occurrence is the one with none before it. */
  lemma {:induction false} IndexOfAt(s: string, c: char, k: nat)
    requires k < |s| && s[k] == c && c !in s[..k]
    ensures IndexOf(s, c) == k
  {
    assert c in s;
  }

  /** Splitting text that starts with a separator-free field peels that field off. */
  lemma {:induction false} SplitLimitCons(a: string, b: string, sep: char, n: nat)
    requires n >= 2 && sep !in a
    ensures SplitLimit(a + [sep] + b, sep, n) == [a] + SplitLimit(b, sep, n - 1)
  {
    var s := a + [sep] + b;
    var i := IndexOf(s, sep);
    assert s[|a|] == sep;
    IndexOfAt(s, sep, |a|);
    assert s[..i] == a;
    assert s[i + 1..] == b;
  }

  lemma {:induction false} SplitAllCons(a: string, b: string, sep: char)
    requires sep !in a
    ensures SplitAll(a + [sep] + b, sep) == [a] + SplitAll(b, sep)
  {
    var s := a + [sep] + b;
    var i := IndexOf(s, sep);
    assert s[|a|] == sep;
    IndexOfAt(s, sep, |a|);
    assert s[..i] == a;
    assert s[i + 1..] == b;
  }

  /** Splitting undoes joining when no part contains the separator. */
  lemma {:induction false} SplitAllJoin(parts: seq<string>, sep: char)
    requires |parts| >= 1
    requires forall k | 0 <= k < |parts| :: sep !in parts[k]
    ensures SplitAll(Join(parts, sep), sep) == parts
    decreases |parts|
  {
    if |parts| == 1 {
    } else {
      SplitAllJoin(parts[1..], sep);
      SplitAllCons(parts[0], Join(parts[1..], sep), sep);
    }
  }

  /** Joining n parts puts at least n - 1 separators into the text. */
  lemma {:induction false} JoinSeparators(parts: seq<string>, sep: char)
    ensures multiset(Join(parts, sep))[sep] >= |parts| - 1
    decreases |parts|
  {
    if |parts| > 1 {
      JoinSeparators(parts[1..], sep);
      assert multiset(Join(parts, sep)) == multiset(parts[0]) + multiset([sep]) + multiset(Join(parts[1..], sep));
    }
  }

  /** Every character of a join is the separator or a character of one of the parts. */
  lemma {:induction false} JoinChars(parts: seq<string>, sep: char, c: char)
    requires c in Join(parts, sep)
    ensures c == sep || exists k | 0 <= k < |parts| :: c in parts[k]
    decreases |parts|
  {
    if |parts| > 1 && c != sep && c !in parts[0] {
      JoinChars(parts[1..], sep, c);
      var k :| 0 <= k < |parts| - 1 && c in parts[1..][k];
      assert c in parts[k + 1];
    }
  }

  /** A split whose only empty field is the last one drops exactly that field. */
  lemma {:induction false} SplitFinalEmpty(s: string, sep: char, n: nat)
    requires sep in s && n >= 1
    requires |SplitAll(s, sep)| == n + 1 && |SplitAll(s, sep)[n]| == 0 && |SplitAll(s, sep)[n - 1]| > 0
    ensures |Split(s, sep)| == n && forall k | 0 <= k < n :: Split(s, sep)[k] == SplitAll(s, sep)[k]
  {
    DropOneEmpty(SplitAll(s, sep), n);
  }

  /** One trailing empty field after a non-empty one is all that is dropped. */
  lemma {:induction false} DropOneEmpty(parts: seq<string>, n: nat)
    requires n >= 1 && |parts| == n + 1 && parts[n] == "" && parts[n - 1] != ""
    ensures |DropTrailingEmpty(parts)| == n && forall k | 0 <= k < n :: DropTrailingEmpty(parts)[k] == parts[k]
  {
    assert DropTrailingEmpty(parts) == DropTrailingEmpty(parts[..n]);
    assert DropTrailingEmpty(parts[..n]) == parts[..n];
  }

  /** With at least n - 1 separators in the text, a limit-n split yields exactly n fields. */
  lemma {:induction false} SplitLimitFull(s: string, sep: char, n: nat)
    requires n >= 1 && multiset(s)[sep] >= n - 1
    ensures |SplitLimit(s, sep, n)| == n
    decreases n
  {
    if n > 1 {
      FirstSeparatorCount(s, sep);
      var i := IndexOf(s, sep);
      var a, b := s[..i], s[i + 1..];
      SplitLimitFull(b, sep, n - 1);
      SplitLimitCons(a, b, sep, n);
    }
  }

  /** Past the first separator one fewer separator remains. */
  lemma {:induction false} FirstSeparatorCount(s: string, sep: char)
    requires multiset(s)[sep] >= 1
    ensures 0 <= IndexOf(s, sep)
    ensures s == s[..IndexOf(s, sep)] + [sep] + s[IndexOf(s, sep) + 1..]
    ensures multiset(s[IndexOf(s, sep) + 1..])[sep] == multiset(s)[sep] - 1
  {
    var i := IndexOf(s, sep);
    assert sep in multiset(s);
    assert s == s[..i] + [sep] + s[i + 1..];
    assert multiset(s) == multiset(s[..i]) + multiset([sep]) + multiset(s[i + 1..]);
    assert sep !in multiset(s[..i]);
  }

  /** A limit split undoes joining exactly n fields when only the last may contain the separator. */
  lemma {:induction false} SplitLimitJoin(parts: seq<string>, sep: char)
    requires |parts| >= 1
    requires forall k | 0 <= k < |parts| - 1 :: sep !in parts[k]
    ensures SplitLimit(Join(parts, sep), sep, |parts|) == parts
    decreases |parts|
  {
    if |parts| == 1 {
      assert Join(parts, sep) == parts[0];
    } else {
      TailSeparatorFree(parts, sep);
      SplitLimitJoin(parts[1..], sep);
      JoinStep(parts, sep);
    }
  }

  lemma {:induction false} TailSeparatorFree(parts: seq<string>, sep: char)
    requires |parts| >= 2 && forall k | 0 <= k < |parts| - 1 :: sep !in parts[k]
    ensures sep !in parts[0] && forall k | 0 <= k < |parts[1..]| - 1 :: sep !in parts[1..][k]
  {
    assert forall k | 0 <= k < |parts| - 2 :: parts[1..][k] == parts[k + 1];
  }

  lemma {:induction false} JoinStep(parts: seq<string>, sep: char)
    requires |parts| >= 2 && sep !in parts[0]
    requires SplitLimit(Join(parts[1..], sep), sep, |parts[1..]|) == parts[1..]
    ensures SplitLimit(Join(parts, sep), sep, |parts|) == parts
  {
    assert |parts[1..]| == |parts| - 1;
    var joined := Join(parts, sep);
    var tail := Join(parts[1..], sep);
    assert joined == parts[0] + [sep] + tail;
    SplitLimitCons(parts[0], tail, sep, |parts|);
    PrependSplit(SplitLimit(joined, sep, |parts|), parts[0], SplitLimit(tail, sep, |parts| - 1), parts);
  }

  lemma {:induction false} PrependSplit(whole: seq<string>, head: string, tail: seq<string>, parts: seq<string>)
    requires |parts| >= 1 && head == parts[0] && tail == parts[1..] && whole == [head] + tail
    ensures whole == parts
  {
  }

  /**
   * `s.trim().split("\\s+")`: on trimmed text the fields are the maximal runs
   * of non-space characters, and the empty text is one empty field.
   */
  function SplitSpaces(t: string): (parts: seq<string>)
    ensures |parts| >= 1
    ensures forall k | 0 <= k < |parts| :: forall j | 0 <= j < |parts[k]| :: !IsSpace(parts[k][j])
    ensures t != [] && (forall j | 0 <= j < |t| :: !IsSpace(t[j])) ==> parts == [t]
    ensures (exists j | 0 <= j < |t| :: !IsSpace(t[j])) ==> parts == SpaceRuns(t, "") && forall k | 0 <= k < |parts| :: parts[k] != ""
  {
    if t == [] then [""] else
    var r := SpaceRuns(t, "");
    assert (forall j | 0 <= j < |t| :: !IsSpace(t[j])) ==> r == [t] by {
      if forall j | 0 <= j < |t| :: !IsSpace(t[j]) {
        RunWithoutSpaces(t, "");
        assert "" + t == t;
      }
    }
    assert (exists j | 0 <= j < |t| :: !IsSpace(t[j])) ==> r != [] by {
      if exists j | 0 <= j < |t| :: !IsSpace(t[j]) {
        var j :| 0 <= j < |t| && !IsSpace(t[j]);
        SpaceRunsNonEmpty(t, "", j);
      }
    }
    if r == [] then [""] else r
  }

  /** The maximal non-space runs of `t`, the first one continuing `acc`. */
  function SpaceRuns(t: string, acc: string): (parts: seq<string>)
    requires forall j | 0 <= j < |acc| :: !IsSpace(acc[j])
    ensures forall k | 0 <= k < |parts| :: parts[k] != "" && forall j | 0 <= j < |parts[k]| :: !IsSpace(parts[k][j])
    decreases |t|
  {
    if t == [] then (if acc == "" then [] else [acc])
    else if IsSpace(t[0]) then (if acc == "" then SpaceRuns(t[1..], "") else [acc] + SpaceRuns(t[1..], ""))
    else SpaceRuns(t[1..], acc + [t[0]])
  }

  /** Text without spaces continues the current run to its end. */
  lemma {:induction false} RunWithoutSpaces(t: string, acc: string)
    requires forall j | 0 <= j < |acc| :: !IsSpace(acc[j])
    requires forall j | 0 <= j < |t| :: !IsSpace(t[j])
    requires acc + t != []
    ensures SpaceRuns(t, acc) == [acc + t]
    decreases |t|
  {
    if t != [] {
      assert !IsSpace(t[0]);
      assert forall j | 0 <= j < |t| - 1 :: t[1..][j] == t[j + 1];
      RunWithoutSpaces(t[1..], acc + [t[0]]);
      assert (acc + [t[0]]) + t[1..] == acc + t;
    } else {
      assert acc + t == acc;
    }
  }

  /** A text with a non-space character, or a run already started, has at least one run. */
  lemma {:induction false} SpaceRunsNonEmpty(t: string, acc: string, j: nat)
    requires forall i | 0 <= i < |acc| :: !IsSpace(acc[i])
    requires acc != [] || (j < |t| && !IsSpace(t[j]))
    ensures SpaceRuns(t, acc) != []
    decreases |t|
  {
    if t != [] {
      assert forall i | 0 <= i < |t| - 1 :: t[1..][i] == t[i + 1];
      if IsSpace(t[0]) {
        if acc == "" {
          SpaceRunsNonEmpty(t[1..], "", j - 1);
        }
      } else {
        SpaceRunsNonEmpty(t[1..], acc + [t[0]], 0);
      }
    }
  }

  /**
   * A space splits the text in two: the runs of `a + [c] + b` are the runs of
   * `a` (continuing `acc`) followed by the runs of `b`.
   */
  lemma {:induction false} SpaceRunsAtSpace(a: string, c: char, b: string, acc: string)
    requires IsSpace(c)
    requires forall j | 0 <= j < |acc| :: !IsSpace(acc[j])
    ensures SpaceRuns(a + [c] + b, acc) == SpaceRuns(a, acc) + SpaceRuns(b, "")
    decreases |a|
  {
    var t := a + [c] + b;
    if a == [] {
      assert t == [c] + b && t[1..] == b;
    } else {
      assert t[0] == a[0] && t[1..] == a[1..] + [c] + b;
      if IsSpace(a[0]) {
        SpaceRunsAtSpace(a[1..], c, b, "");
      } else {
        SpaceRunsAtSpace(a[1..], c, b, acc + [a[0]]);
      }
    }
  }

  /** The runs of words joined by single spaces are the words. */
  lemma {:induction false} SpaceRunsJoin(words: seq<string>)
    requires |words| >= 1
    requires forall k | 0 <= k < |words| :: words[k] != "" && forall j | 0 <= j < |words[k]| :: !IsSpace(words[k][j])
    ensures SpaceRuns(Join(words, ' '), "") == words
    decreases |words|
  {
    if |words| == 1 {
      RunWithoutSpaces(words[0], "");
      assert "" + words[0] == words[0];
    } else {
      JoinCons(words[0], words[1..], ' ');
      assert [words[0]] + words[1..] == words;
      SpaceRunsJoin(words[1..]);
      SpaceRunsAtSpace(words[0], ' ', Join(words[1..], ' '), "");
      RunWithoutSpaces(words[0], "");
      assert "" + words[0] == words[0];
    }
  }

  /** `split("\\s+")` undoes joining non-empty space-free words with single spaces. */
  lemma {:induction false} SplitSpacesJoin(words: seq<string>)
    requires |words| >= 1
    requires forall k | 0 <= k < |words| :: words[k] != "" && forall j | 0 <= j < |words[k]| :: !IsSpace(words[k][j])
    ensures SplitSpaces(Join(words, ' ')) == words
  {
    SpaceRunsJoin(words);
    assert words[0][0] in Join(words, ' ') by {
      if |words| > 1 {
        JoinCons(words[0], words[1..], ' ');
        assert [words[0]] + words[1..] == words;
      }
    }
  }

  // ---------------------------------------------------------------------------
  // Decimal numbers
  // ---------------------------------------------------------------------------

  predicate IsDigit(c: char)
  {
    '0' <= c <= '9'
  }

  predicate AllDigits(s: string)
  {
    forall j | 0 <= j < |s| :: IsDigit(s[j])
  }

  /** The value of a string of decimal digits, most significant first. */
  function DigitsValue(s: string): nat
    requires AllDigits(s)
  {
    if s == [] then 0 else DigitsValue(s[..|s| - 1]) * 10 + (s[|s| - 1] as int - '0' as int)
  }

  function DigitChar(d: nat): (c: char)
    requires d < 10
    ensures IsDigit(c) && c as int - '0' as int == d
  {
    ('0' as int + d) as char
  }

  /** Decimal text of a natural number without leading zeros. */
  function NatToString(n: nat): (s: string)
    ensures |s| >= 1 && AllDigits(s)
    ensures DigitsValue(s) == n
    ensures n >= 10 ==> s[0] != '0'
  {
    if n < 10 then [DigitChar(n)]
    else
      var p := NatToString(n / 10);
      var s := p + [DigitChar(n % 10)];
      assert s[..|s| - 1] == p;
      s
  }

  /** `String.valueOf` of an int or long (and StringBuilder.append of one). */
  function IntToString(n: int): (s: string)
    ensures |s| >= 1
    ensures ',' !in s && ';' !in s && ':' !in s && '}' !in s && '{' !in s
    ensures forall c | c in s :: !IsLineTerminator(c) && !IsBlank(c)
  {
    if n < 0 then "-" + NatToString(-n) else NatToString(n)
  }

  /** The text after an optional leading sign. */
  function Unsigned(s: string): (d: string)
    ensures |d| == |s| || (s != [] && (s[0] == '-' || s[0] == '+') && d == s[1..])
  {
    if s != [] && (s[0] == '-' || s[0] == '+') then s[1..] else s
  }

  /** An optional sign followed by at least one ASCII digit. */
  predicate SignedDigits(s: string)
  {
    Unsigned(s) != [] && AllDigits(Unsigned(s))
  }

  /** The number such text denotes: its digits' value, negated under a leading '-'. */
  function SignedValue(s: string): int
    requires SignedDigits(s)
  {
    if s[0] == '-' then 0 - DigitsValue(Unsigned(s)) else DigitsValue(Unsigned(s))
  }

  /**
   * Integer.parseInt / Long.parseLong into the range [lo, hi]: an optional sign,
   * then at least one ASCII digit; no value where Java throws NumberFormatException.
   */
  function ParseDecimal(s: string, lo: int, hi: int): (r: Option<int>)
    ensures r.Some? <==> SignedDigits(s) && lo <= SignedValue(s) <= hi
    ensures r.Some? ==> r.value == SignedValue(s)
    ensures r.Some? ==> s != [] && (IsDigit(s[0]) || s[0] == '-' || s[0] == '+')
  {
    if s == [] then None
    else
      var digits := if s[0] == '-' || s[0] == '+' then s[1..] else s;
      if digits == [] || !AllDigits(digits) then None
      else
        var v: int := if s[0] == '-' then 0 - DigitsValue(digits) else DigitsValue(digits);
        if lo <= v <= hi then Some(v) else None
  }

  /** A sign, leading zeros and a negative zero are accepted; blanks, a bare sign and other characters are not. */
  lemma {:induction false} ParseDecimalCases()
    ensures ParseDecimal("+7", MinInt, MaxInt) == Some(7)
    ensures ParseDecimal("007", MinInt, MaxInt) == Some(7)
    ensures ParseDecimal("-0", MinInt, MaxInt) == Some(0)
    ensures ParseDecimal("-", MinInt, MaxInt) == None
    ensures ParseDecimal(" 7", MinInt, MaxInt) == None
  {
    assert Unsigned("+7") == "7";
    assert DigitsValue("00") == 0 by {
      assert "00"[..1] == "0" && "0"[..0] == "";
    }
    assert "007"[..2] == "00";
    assert Unsigned("-0") == "0" && "0"[..0] == "";
    assert Unsigned("-") == "";
    assert !IsDigit(" 7"[0]);
  }

  function Pow10(n: nat): (p: nat)
    ensures p >= 1
  {
    if n == 0 then 1 else 10 * Pow10(n - 1)
  }

  /** Digits without a leading zero are worth at least 10^(length - 1). */
  lemma {:induction false} DigitsLowerBound(s: string)
    requires s != [] && AllDigits(s) && s[0] != '0'
    ensures DigitsValue(s) >= Pow10(|s| - 1)
    decreases |s|
  {
    if |s| > 1 {
      var p := s[..|s| - 1];
      assert p[0] == s[0];
      DigitsLowerBound(p);
    }
  }

  /** A number of eleven or more significant digits never fits an int: Java throws rather than wraps. */
  lemma {:induction false} LongNumberRejected(s: string)
    requires |s| >= 11 && AllDigits(s) && s[0] != '0'
    ensures ParseInt(s) == None && ParseInt("-" + s) == None
  {
    DigitsLowerBound(s);
    assert Pow10(10) == 10000000000;
    var n := |s| - 1;
    assert Pow10(n) >= Pow10(10) by {
      PowMonotone(10, n);
    }
    assert Unsigned("-" + s) == s;
  }

  lemma {:induction false} PowMonotone(a: nat, b: nat)
    requires a <= b
    ensures Pow10(a) <= Pow10(b)
    decreases b
  {
    if a < b {
      PowMonotone(a, b - 1);
    }
  }

  /** `Integer.parseInt`: an optionally signed run of digits whose value fits an int. */
  function ParseInt(s: string): (r: Option<Int32>)
    ensures r.Some? <==> SignedDigits(s) && MinInt <= SignedValue(s) <= MaxInt
    ensures r.Some? ==> r.value == SignedValue(s)
  {
    match ParseDecimal(s, MinInt, MaxInt)
    case Some(v) => Some(v)
    case None => None
  }

  /** `Long.parseLong`: an optionally signed run of digits whose value fits a long. */
  function ParseLong(s: string): (r: Option<Int64>)
    ensures r.Some? <==> SignedDigits(s) && MinLong <= SignedValue(s) <= MaxLong
    ensures r.Some? ==> r.value == SignedValue(s)
  {
    match ParseDecimal(s, MinLong, MaxLong)
    case Some(v) => Some(v)
    case None => None
  }

  /** Parsing the rendered text of a number gives the number back. */
  lemma {:induction false} ParseRendered(n: int, lo: int, hi: int)
    requires lo <= n <= hi
    ensures ParseDecimal(IntToString(n), lo, hi) == Some(n)
  {
    var s := IntToString(n);
    if n < 0 {
      assert s[1..] == NatToString(-n);
    } else {
      assert s == NatToString(n);
    }
  }

  lemma {:induction false} ParseIntRendered(n: Int32)
    ensures ParseInt(IntToString(n)) == Some(n)
  {
    ParseRendered(n, MinInt, MaxInt);
  }

  lemma {:induction false} ParseLongRendered(n: Int64)
    ensures ParseLong(IntToString(n)) == Some(n)
  {
    ParseRendered(n, MinLong, MaxLong);
  }

  // ---------------------------------------------------------------------------
  // Booleans and formatting
  // ---------------------------------------------------------------------------

  function ToLowerAscii(c: char): char
  {
    if 'A' <= c <= 'Z' then (c as int + 32) as char else c
  }

  function ToLower(s: string): (t: string)
    ensures |t| == |s|
    ensures forall j | 0 <= j < |s| :: t[j] == ToLowerAscii(s[j])
  {
    seq(|s|, j requires 0 <= j < |s| => ToLowerAscii(s[j]))
  }

  /** `String.valueOf(boolean)`. */
  function BoolToString(b: bool): (s: string)
    ensures forall c | c in s :: 'a' <= c <= 'z'
  {
    if b then "true" else "false"
  }

  /** Boolean.parseBoolean: true exactly for "true" in any letter case; null is false. */
  function ParseBoolean(s: Option<string>): (b: bool)
    ensures b <==> s.Some? && |s.value| == 4 && forall j | 0 <= j < 4 :: s.value[j] == "true"[j] || s.value[j] == "TRUE"[j]
  {
    s.Some? && ToLower(s.value) == "true"
  }

  /** `String.format("%02d", n)`: at least two characters, zero-padded after any sign. */
  function Pad2(n: int): (s: string)
    ensures |s| >= 2
    ensures 0 <= n < 10 ==> s == ['0', DigitChar(n)]
    ensures n >= 10 ==> s == NatToString(n)
    ensures n < 0 ==> s == IntToString(n) && s[0] == '-'
  {
    if 0 <= n < 10 then "0" + NatToString(n) else IntToString(n)
  }
}

=== FILE: save_records.dfy ===
/**
 * One line of a save file per level: `[name,digest]{body}`, where the body
 * is eight comma-terminated scalar fields followed by `id:DIR;` move tokens.
 * This module holds the record, its body serialiser and parser, the line
 * layout, and the two structural line checks (the lenient pattern-only one
 * and the strict one that also counts fields and refuses negative numbers).
 */
module SaveRecords {
  import opened Wrappers
  import opened JavaText
  import opened Tiles
  import opened Boards

  /** A history as a Java list holds it: at most Integer.MAX_VALUE entries, oldest first. */
  type History = h: seq<MoveEntry> | |h| <= MaxInt

  /** One level's record; `mapName` is also its key in the file. */
  datatype Entry = Entry(
    mapName: string,
    mapMd5: string,
    completedCount: Int32,
    bestTime: Int64,
    bestMoves: Int32,
    inGame: bool,
    mode: string,
    movesSoFar: Int32,
    elapsedSoFar: Int64,
    history: History)

  /**
   * `new Entry(mapName, mapMd5)`: zero counters, not in game, empty history.
   * The mode is null in Java; it is the text that null renders as.
   */
  function NewEntry(mapName: string, mapMd5: string): (e: Entry)
    ensures e.mapName == mapName && e.mapMd5 == mapMd5 && e.history == []
    ensures e.completedCount == 0 && e.bestTime == 0 && e.bestMoves == 0 && e.movesSoFar == 0 && e.elapsedSoFar == 0
  {
    Entry(mapName, mapMd5, 0, 0, 0, false, "null", 0, 0, [])
  }

  predicate SingleLine(s: string)
  {
    forall c | c in s :: !IsLineTerminator(c)
  }

  // ---------------------------------------------------------------------------
  // Direction names and move tokens
  // ---------------------------------------------------------------------------

  /** `Direction.name()`. */
  function DirName(d: Direction): (s: string)
    ensures |s| >= 2 && ':' !in s && ';' !in s && ',' !in s && SingleLine(s)
  {
    match d
    case Up => "UP"
    case Down => "DOWN"
    case Left => "LEFT"
    case Right => "RIGHT"
  }

  /** `Direction.valueOf`: the constant with exactly this name, none where Java throws. */
  function DirValueOf(s: string): (r: Option<Direction>)
    ensures r.Some? ==> DirName(r.value) == s
    ensures forall d :: DirName(d) == s ==> r == Some(d)
  {
    if s == "UP" then Some(Up)
    else if s == "DOWN" then Some(Down)
    else if s == "LEFT" then Some(Left)
    else if s == "RIGHT" then Some(Right)
    else None
  }

  /** `id:DIR`, one history entry without its terminator. */
  function MoveToken(me: MoveEntry): (s: string)
    ensures |s| > 0 && ';' !in s && ',' !in s && SingleLine(s)
  {
    IntToString(me.blockId) + ":" + DirName(me.dir)
  }

  /** The history part of a body: each token followed by `;`. */
  function HistoryText(h: seq<MoveEntry>): (s: string)
    ensures ',' !in s && SingleLine(s)
    ensures s == "" <==> h == []
  {
    if h == [] then "" else MoveToken(h[0]) + ";" + HistoryText(h[1..])
  }

  /**
   * The loop over `hist.split(";")`: empty tokens are skipped; each other
   * token is split at `:` and needs an int before and a direction name after
   * the first colon (anything after a second colon is ignored).
   */
  function ParseTokens(ts: seq<string>): (r: Option<seq<MoveEntry>>)
    ensures r.Some? ==> |r.value| <= |ts|
  {
    if ts == [] then Some([])
    else if ts[0] == "" then ParseTokens(ts[1..])
    else
      var part := Split(ts[0], ':');
      if |part| < 2 then None
      else match (ParseInt(part[0]), DirValueOf(part[1]), ParseTokens(ts[1..]))
        case (Some(id), Some(d), Some(rest)) => Some([MoveEntry(id, d)] + rest)
        case _ => None
  }

  /** The history field: empty text is the empty history. */
  function ParseHistory(hist: string): (r: Option<History>)
  {
    if hist == "" then Some([])
    else match ParseTokens(Split(hist, ';'))
      case Some(h) => if |h| <= MaxInt then Some(h) else None
      case None => None
  }

  // ---------------------------------------------------------------------------
  // Body
  // ---------------------------------------------------------------------------

  /** The nine fields `toBody` writes, in order; the last is the history text. */
  function BodyFields(e: Entry): (fs: seq<string>)
    ensures |fs| == 9 && fs[0] == e.mapMd5 && fs[5] == e.mode && fs[8] == HistoryText(e.history)
  {
    [e.mapMd5, IntToString(e.completedCount), IntToString(e.bestTime), IntToString(e.bestMoves),
     BoolToString(e.inGame), e.mode, IntToString(e.movesSoFar), IntToString(e.elapsedSoFar),
     HistoryText(e.history)]
  }

  /** Apart from the two free-text fields, no field holds a comma or a line terminator. */
  lemma {:induction false} BodyFieldsPlain(e: Entry)
    ensures forall k | 0 <= k < 9 && k != 0 && k != 5 :: ',' !in BodyFields(e)[k] && SingleLine(BodyFields(e)[k])
  {
    var fs := BodyFields(e);
    forall k | 0 <= k < 9 && k != 0 && k != 5
      ensures ',' !in fs[k] && SingleLine(fs[k])
    {
      if k == 4 {
        assert fs[4] == BoolToString(e.inGame);
      } else if k == 8 {
        assert fs[8] == HistoryText(e.history);
      } else if k == 1 {
        assert fs[1] == IntToString(e.completedCount);
      } else if k == 2 {
        assert fs[2] == IntToString(e.bestTime);
      } else if k == 3 {
        assert fs[3] == IntToString(e.bestMoves);
      } else if k == 6 {
        assert fs[6] == IntToString(e.movesSoFar);
      } else {
        assert fs[7] == IntToString(e.elapsedSoFar);
      }
    }
  }

  /**
   * `toBody`: the nine fields joined by commas (eight comma-terminated
   * scalars, then the tokens), so a limit-9 split always finds nine fields.
   */
  function ToBody(e: Entry): (body: string)
    ensures |SplitLimit(body, ',', 9)| == 9
    ensures body != ""
  {
    var fs := BodyFields(e);
    JoinSeparators(fs, ',');
    SplitLimitFull(Join(fs, ','), ',', 9);
    Join(fs, ',')
  }

  /**
   * `fromBody`: split with limit 9, parse fields 1, 2, 3, 6 and 7 as numbers,
   * field 4 with Boolean.parseBoolean, keep fields 0 and 5 as text and parse
   * field 8 as the history.  None where Java throws (too few fields, a bad
   * number, a bad token).
   */
  function FromBody(mapName: string, body: string): (r: Option<Entry>)
    ensures r.Some? ==> r.value.mapName == mapName && ',' !in r.value.mapMd5 && ',' !in r.value.mode
    ensures r.Some? ==> |SplitLimit(body, ',', 9)| == 9
  {
    var ps := SplitLimit(body, ',', 9);
    if |ps| < 9 then None
    else match (ParseInt(ps[1]), ParseLong(ps[2]), ParseInt(ps[3]), ParseInt(ps[6]), ParseLong(ps[7]), ParseHistory(ps[8]))
      case (Some(c), Some(t), Some(m), Some(v), Some(el), Some(h)) =>
        Some(Entry(mapName, ps[0], c, t, m, ParseBoolean(Some(ps[4])), ps[5], v, el, h))
      case _ => None
  }

  /** Splitting the history text at `;` gives the tokens and one final empty field. */
  lemma {:induction false} SplitHistoryText(h: seq<MoveEntry>)
    ensures |SplitAll(HistoryText(h), ';')| == |h| + 1
    ensures |SplitAll(HistoryText(h), ';')[|h|]| == 0
    ensures forall k | 0 <= k < |h| :: SplitAll(HistoryText(h), ';')[k] == MoveToken(h[k])
    decreases |h|
  {
    if h == [] {
      assert HistoryText(h) == [];
      assert IndexOf([], ';') == -1;
      assert SplitAll([], ';') == [[]];
    } else {
      var a := MoveToken(h[0]);
      var t := h[1..];
      var b := HistoryText(t);
      SplitHistoryText(t);
      assert HistoryText(h) == a + [';'] + b;
      SplitAllCons(a, b, ';');
      var q := SplitAll(b, ';');
      assert |t| == |h| - 1;
      assert |q[|h| - 1]| == 0;
      forall k | 1 <= k < |h|
        ensures SplitAll(HistoryText(h), ';')[k] == MoveToken(h[k])
      {
        assert t[k - 1] == h[k];
      }
    }
  }

  /** A token splits at its colon into the rendered id and the direction name. */
  lemma {:induction false} SplitToken(me: MoveEntry)
    ensures Split(MoveToken(me), ':') == [IntToString(me.blockId), DirName(me.dir)]
  {
    var a := IntToString(me.blockId);
    var b := DirName(me.dir);
    assert MoveToken(me) == a + [':'] + b;
    assert MoveToken(me)[|a|] == ':';
    SplitAllCons(a, b, ':');
    assert SplitAll(b, ':') == [b];
  }

  /** The tokens of a history, one per entry. */
  function Tokens(h: seq<MoveEntry>): (ts: seq<string>)
    ensures |ts| == |h| && forall k | 0 <= k < |h| :: ts[k] == MoveToken(h[k])
  {
    if h == [] then [] else [MoveToken(h[0])] + Tokens(h[1..])
  }

  /** Tokens rendered from a history parse back to it. */
  lemma {:induction false} ParseTokensRendered(h: seq<MoveEntry>)
    ensures ParseTokens(Tokens(h)) == Some(h)
    decreases |h|
  {
    if h != [] {
      var ts := Tokens(h);
      assert ts[1..] == Tokens(h[1..]);
      ParseTokensRendered(h[1..]);
      TokenParses(h[0]);
      ParseTokensCons(ts, h[0], h[1..]);
      assert h == [h[0]] + h[1..];
    }
  }

  /** A first token that reads as `me`, ahead of tokens that read as `rest`, reads as `me` then `rest`. */
  lemma {:induction false} ParseTokensCons(ts: seq<string>, me: MoveEntry, rest: seq<MoveEntry>)
    requires ts != [] && ts[0] != "" && ParseTokens(ts[1..]) == Some(rest)
    requires var part := Split(ts[0], ':');
      |part| == 2 && ParseInt(part[0]) == Some(me.blockId) && DirValueOf(part[1]) == Some(me.dir)
    ensures ParseTokens(ts) == Some([me] + rest)
  {
  }

  /** One rendered token parses back to its entry. */
  lemma {:induction false} TokenParses(me: MoveEntry)
    ensures MoveToken(me) != ""
    ensures var part := Split(MoveToken(me), ':');
      |part| == 2 && ParseInt(part[0]) == Some(me.blockId) && DirValueOf(part[1]) == Some(me.dir)
  {
    SplitToken(me);
    ParseIntRendered(me.blockId);
  }

  lemma {:induction false} HistoryTextHasSeparator(h: seq<MoveEntry>)
    requires h != []
    ensures ';' in HistoryText(h)
  {
    var text := HistoryText(h);
    assert text == MoveToken(h[0]) + ";" + HistoryText(h[1..]);
    assert text[|MoveToken(h[0])|] == ';';
  }

  /** Splitting a non-empty history text at `;` gives exactly the tokens. */
  lemma {:induction false} SplitHistory(h: seq<MoveEntry>)
    requires h != []
    ensures |Split(HistoryText(h), ';')| == |h|
    ensures forall k | 0 <= k < |h| :: Split(HistoryText(h), ';')[k] == MoveToken(h[k])
  {
    HistoryTextHasSeparator(h);
    SplitHistoryText(h);
    assert |MoveToken(h[|h| - 1])| > 0;
    SplitFinalEmpty(HistoryText(h), ';', |h|);
  }

  /** Parsing the rendered history gives the history back. */
  lemma {:induction false} ParseHistoryRendered(h: History)
    ensures ParseHistory(HistoryText(h)) == Some(h)
  {
    if h != [] {
      SplitHistory(h);
      assert Split(HistoryText(h), ';') == Tokens(h);
      ParseTokensRendered(h);
    }
  }

  lemma {:induction false} ParseBooleanRendered(b: bool)
    ensures ParseBoolean(Some(BoolToString(b))) == b
  {
    if b {
      assert ToLower("true") == "true";
    }
  }

  /**
   * Round trip of the serialiser: parsing a rendered body reproduces every
   * field and the history, provided the two free-text fields hold no comma.
   */
  lemma {:induction false} BodyRoundTrip(e: Entry)
    requires ',' !in e.mapMd5 && ',' !in e.mode
    ensures FromBody(e.mapName, ToBody(e)) == Some(e)
  {
    var fs := BodyFields(e);
    BodyFieldsPlain(e);
    SplitLimitJoin(fs, ',');
    ParseIntRendered(e.completedCount);
    ParseLongRendered(e.bestTime);
    ParseIntRendered(e.bestMoves);
    ParseIntRendered(e.movesSoFar);
    ParseLongRendered(e.elapsedSoFar);
    ParseBooleanRendered(e.inGame);
    ParseHistoryRendered(e.history);
  }

  // ---------------------------------------------------------------------------
  // Lines
  // ---------------------------------------------------------------------------

  predicate IsHex(c: char)
  {
    '0' <= c <= '9' || 'a' <= c <= 'f' || 'A' <= c <= 'F'
  }

  predicate IsDigest(s: string)
  {
    |s| == 32 && forall c | c in s :: IsHex(c)
  }

  /** A 128-bit digest in hex, as the MD5 helpers produce it. */
  type Digest = s: string | IsDigest(s) witness "00000000000000000000000000000000"

  /** `"[" + name + "," + md5 + "]{" + body + "}"`. */
  function RenderLine(name: string, md5: string, body: string): (ln: string)
    ensures |ln| == |name| + |md5| + |body| + 5
    ensures ln[0] == '[' && ln[|ln| - 1] == '}'
  {
    "[" + name + "," + md5 + "]{" + body + "}"
  }

  /** The line written for an entry, the digest taken over its body. */
  function EntryLine(e: Entry, md5: string -> Digest): (ln: string)
    ensures NoBlankEnds(ln)
  {
    RenderLine(e.mapName, md5(ToBody(e)), ToBody(e))
  }

  /**
   * The pattern `^\[[^,]+,[0-9A-Fa-f]{32}]\{.+}$` matched against the whole
   * text: `[`, a non-empty comma-free name up to the first comma, 32 hex
   * digits, `]{`, a non-empty run of non-line-terminators, and a final `}`.
   */
  predicate RecordShape(s: string)
  {
    var k := IndexOf(s, ',');
    2 <= k && k + 37 <= |s| && s[0] == '[' && IsDigest(s[k + 1..k + 33]) &&
    s[k + 33] == ']' && s[k + 34] == '{' && s[|s| - 1] == '}' && SingleLine(s[k + 35..|s| - 1])
  }

  /** Every well-formed rendered line has the record shape. */
  lemma {:induction false} RenderedShape(name: string, md5: string, body: string)
    requires name != "" && ',' !in name && IsDigest(md5) && body != "" && SingleLine(body)
    ensures RecordShape(RenderLine(name, md5, body))
  {
    var s := RenderLine(name, md5, body);
    var k := |name| + 1;
    assert s[..k] == "[" + name;
    assert s[k] == ',';
    IndexOfAt(s, ',', k);
    assert s[k + 1..k + 33] == md5;
    assert s[k + 35..|s| - 1] == body;
  }

  /** Conversely, a text of the record shape is a rendered line whose parts meet those conditions. */
  lemma {:induction false} ShapeIsRendered(s: string)
    requires RecordShape(s)
    ensures var k := IndexOf(s, ',');
      var name := s[1..k];
      var md5 := s[k + 1..k + 33];
      var body := s[k + 35..|s| - 1];
      s == RenderLine(name, md5, body) && name != "" && ',' !in name && IsDigest(md5) && body != "" && SingleLine(body)
  {
    var k := IndexOf(s, ',');
    assert s[1..k] == s[..k][1..];
  }

  /** `checkFormat`: at least one line; every line after the header, trimmed, has the record shape. */
  predicate CheckFormat(lines: seq<string>)
  {
    |lines| > 0 && forall i | 1 <= i < |lines| :: RecordShape(Trim(lines[i]))
  }

  /** The header line is never inspected. */
  lemma {:induction false} CheckFormatIgnoresHeader(h1: string, h2: string, rest: seq<string>)
    ensures CheckFormat([h1] + rest) == CheckFormat([h2] + rest)
    ensures !CheckFormat([])
  {
    assert forall i | 1 <= i < |rest| + 1 :: ([h1] + rest)[i] == rest[i - 1] == ([h2] + rest)[i];
  }

  predicate NonNegative(v: Option<int>)
  {
    v.Some? && v.value >= 0
  }

  /**
   * The strict body test: a limit-9 split yields nine fields and fields 1, 2,
   * 3, 6 and 7 parse (as int, long, int, int, long) to non-negative values.
   */
  predicate FieldsOk(body: string)
  {
    var ps := SplitLimit(body, ',', 9);
    |ps| == 9 && NonNegative(ParseInt(ps[1])) && NonNegative(ParseLong(ps[2])) && NonNegative(ParseInt(ps[3])) &&
    NonNegative(ParseInt(ps[6])) && NonNegative(ParseLong(ps[7]))
  }

  /** The strict per-line test: the record shape, then the fields between the first `{` and the last `}`. */
  predicate StrictLineOk(ln: string)
  {
    RecordShape(ln) &&
    match Substring(ln, IndexOf(ln, '{') + 1, LastIndexOf(ln, '}'))
    case Some(body) => FieldsOk(body)
    case None => false
  }

  /** `checkFormatLines`: at least one line; every line after the header passes the strict test once trimmed. */
  predicate CheckFormatLines(lines: seq<string>)
  {
    |lines| > 0 && forall i | 1 <= i < |lines| :: StrictLineOk(Trim(lines[i]))
  }

  /** The strict check accepts only what the lenient one accepts. */
  lemma {:induction false} StrictIsStricter(lines: seq<string>)
    requires CheckFormatLines(lines)
    ensures CheckFormat(lines)
  {
    forall i | 1 <= i < |lines|
      ensures RecordShape(Trim(lines[i]))
    {
      assert StrictLineOk(Trim(lines[i]));
    }
  }

  /** What a line can be written from: names and free text that survive the line layout and re-reading. */
  predicate Storable(e: Entry)
  {
    e.mapName != "" && ',' !in e.mapName && ']' !in e.mapName && '{' !in e.mapName && SingleLine(e.mapName) &&
    ',' !in e.mapMd5 && SingleLine(e.mapMd5) && ',' !in e.mode && SingleLine(e.mode)
  }

  lemma {:induction false} BodySingleLine(e: Entry)
    requires SingleLine(e.mapMd5) && SingleLine(e.mode)
    ensures SingleLine(ToBody(e))
  {
    var fs := BodyFields(e);
    BodyFieldsPlain(e);
    forall c | c in ToBody(e)
      ensures !IsLineTerminator(c)
    {
      JoinChars(fs, ',', c);
    }
  }

  /** An entry's written line passes the lenient check's pattern. */
  lemma {:induction false} EntryLineShape(e: Entry, md5: string -> Digest)
    requires Storable(e)
    ensures RecordShape(Trim(EntryLine(e, md5)))
  {
    BodySingleLine(e);
    RenderedShape(e.mapName, md5(ToBody(e)), ToBody(e));
  }

  /** Where the readers' searches land in a rendered line whose name holds none of `,`, `]` and `{`. */
  lemma {:induction false} RenderedPositions(name: string, md5: Digest, body: string)
    requires ',' !in name && ']' !in name && '{' !in name
    ensures var ln := RenderLine(name, md5, body); var n := |name|;
      IndexOf(ln, '[') == 0 && IndexOf(ln, ']') == n + 34 && IndexOf(ln, '{') == n + 35 &&
      LastIndexOf(ln, '}') == |ln| - 1 && ln[1..n + 34] == name + [','] + md5 && ln[n + 36..|ln| - 1] == body
  {
    var ln := RenderLine(name, md5, body);
    var pre := "[" + name + "," + md5;
    RenderedSearches(name, md5, body, pre);
    assert ln[1..|name| + 34] == name + [','] + md5 by {
      assert ln[..|name| + 34] == pre;
    }
    assert ln[|name| + 36..|ln| - 1] == body;
  }

  lemma {:induction false} RenderedSearches(name: string, md5: Digest, body: string, pre: string)
    requires ']' !in name && '{' !in name && pre == "[" + name + "," + md5
    ensures var ln := RenderLine(name, md5, body);
      IndexOf(ln, '[') == 0 && IndexOf(ln, ']') == |pre| && IndexOf(ln, '{') == |pre| + 1
  {
    var ln := RenderLine(name, md5, body);
    assert !IsHex(']') && !IsHex('{');
    assert ']' !in pre && '{' !in pre + "]";
    assert ln == pre + ("]{" + body + "}");
    IndexOfConcat(pre, "]{" + body + "}", ']');
    assert ln == (pre + "]") + ("{" + body + "}");
    IndexOfConcat(pre + "]", "{" + body + "}", '{');
    IndexOfAt(ln, '[', 0);
  }

  /** The strict body test holds of a rendered body exactly when its five counters are non-negative. */
  lemma {:induction false} BodyFieldsOk(e: Entry)
    requires ',' !in e.mapMd5 && ',' !in e.mode
    ensures FieldsOk(ToBody(e)) <==>
      e.completedCount >= 0 && e.bestTime >= 0 && e.bestMoves >= 0 && e.movesSoFar >= 0 && e.elapsedSoFar >= 0
  {
    BodySplit(e);
    IntFieldOk(e.completedCount);
    LongFieldOk(e.bestTime);
    IntFieldOk(e.bestMoves);
    IntFieldOk(e.movesSoFar);
    LongFieldOk(e.elapsedSoFar);
  }

  /** Splitting a rendered body with limit 9 gives back its nine fields. */
  lemma {:induction false} BodySplit(e: Entry)
    requires ',' !in e.mapMd5 && ',' !in e.mode
    ensures SplitLimit(ToBody(e), ',', 9) == BodyFields(e)
  {
    BodyFieldsPlain(e);
    SplitLimitJoin(BodyFields(e), ',');
  }

  lemma {:induction false} IntFieldOk(n: Int32)
    ensures NonNegative(ParseInt(IntToString(n))) <==> n >= 0
  {
    ParseIntRendered(n);
  }

  lemma {:induction false} LongFieldOk(n: Int64)
    ensures NonNegative(ParseLong(IntToString(n))) <==> n >= 0
  {
    ParseLongRendered(n);
  }

  /** An entry's written line passes the strict check exactly when its five counters are non-negative. */
  lemma {:induction false} EntryLineStrict(e: Entry, md5: string -> Digest)
    requires Storable(e)
    ensures StrictLineOk(Trim(EntryLine(e, md5))) <==>
      e.completedCount >= 0 && e.bestTime >= 0 && e.bestMoves >= 0 && e.movesSoFar >= 0 && e.elapsedSoFar >= 0
  {
    EntryLineShape(e, md5);
    var body := ToBody(e);
    RenderedPositions(e.mapName, md5(body), body);
    BodyFieldsOk(e);
  }

  // ---------------------------------------------------------------------------
  // Reading a line back
  // ---------------------------------------------------------------------------

  /** The three parts a reader cuts out of a line; `md5` is absent when the bracket holds no comma. */
  datatype LineParts = LineParts(name: string, md5: Option<string>, body: string)

  /**
   * The readers' slicing: the text between the first `[` and the first `]`
   * split once at a comma, and the body between the first `{` and the last
   * `}`.  None where a substring call throws.
   */
  function SplitLine(ln: string): (r: Option<LineParts>)
    ensures r.Some? ==> ',' !in r.value.name && ']' !in r.value.name
  {
    var b1 := IndexOf(ln, '[');
    var b2 := IndexOf(ln, ']');
    match (Substring(ln, b1 + 1, b2), Substring(ln, IndexOf(ln, '{') + 1, LastIndexOf(ln, '}')))
    case (Some(head), Some(body)) =>
      var meta := SplitLimit(head, ',', 2);
      assert head == ln[b1 + 1..b2] && ']' !in ln[..b2];
      assert forall c | c in meta[0] :: c in head by {
        if |meta| == 2 {
          assert head == meta[0] + [','] + meta[1];
        }
      }
      Some(LineParts(meta[0], if |meta| == 2 then Some(meta[1]) else None, body))
    case _ => None
  }

  /** A rendered line is cut back into its name, digest and body. */
  lemma {:induction false} SplitRendered(name: string, md5: Digest, body: string)
    requires ',' !in name && ']' !in name && '{' !in name
    ensures SplitLine(RenderLine(name, md5, body)) == Some(LineParts(name, Some(md5), body))
  {
    var ln := RenderLine(name, md5, body);
    var n := |name|;
    RenderedPositions(name, md5, body);
    var head := ln[1..n + 34];
    assert Substring(ln, 1, n + 34) == Some(head);
    assert Substring(ln, n + 36, |ln| - 1) == Some(body);
    SplitLimitCons(name, md5, ',', 2);
    assert SplitLimit(md5, ',', 1) == [md5];
    assert SplitLimit(head, ',', 2) == [name, md5];
  }

  /** A line written for a storable entry reads back as that entry with its digest. */
  lemma {:induction false} EntryLineReadsBack(e: Entry, md5: string -> Digest)
    requires Storable(e)
    ensures SplitLine(EntryLine(e, md5)) == Some(LineParts(e.mapName, Some(md5(ToBody(e))), ToBody(e)))
    ensures FromBody(e.mapName, ToBody(e)) == Some(e)
  {
    SplitRendered(e.mapName, md5(ToBody(e)), ToBody(e));
    BodyRoundTrip(e);
  }
}

=== FILE: save_store.dfy ===
/**
 * The save store of one user: a file whose first line is the most recently
 * saved level (or "null") and whose later lines are one record per level.
 * Reading builds an insertion-ordered map from level name to record;
 * saving reads that map, merges one record and writes every line again;
 * loading checks the file, confirms digest mismatches and a broken history
 * with the player, and replays the kept history on the board.
 *
 * Two save utilities exist side by side and differ in details; `Saver`
 * selects which one a function follows.  File contents are line lists,
 * a missing file is the empty list, the player's answers are inputs and
 * the digest is a function parameter.
 */
module SaveStore {
  import opened Wrappers
  import opened JavaText
  import opened Tiles
  import opened Boards
  import opened SaveRecords

  /** `Lenient` is src/util/Saver.java; `Strict` is util/Saver.java. */
  datatype Saver = Lenient | Strict

  // ---------------------------------------------------------------------------
  // The insertion-ordered map from level name to record
  // ---------------------------------------------------------------------------

  predicate DistinctNames(all: seq<Entry>)
  {
    forall i, j | 0 <= i < j < |all| :: all[i].mapName != all[j].mapName
  }

  function Find(all: seq<Entry>, name: string): (r: Option<nat>)
    ensures r.None? <==> forall i | 0 <= i < |all| :: all[i].mapName != name
    ensures r.Some? ==> r.value < |all| && all[r.value].mapName == name
    ensures r.Some? ==> forall i | 0 <= i < r.value :: all[i].mapName != name
  {
    if all == [] then None
    else if all[0].mapName == name then Some(0)
    else match Find(all[1..], name)
      case None => None
      case Some(k) => Some(k + 1)
  }

  /** `get`: the record stored under `name`, if any. */
  function Lookup(all: seq<Entry>, name: string): (r: Option<Entry>)
    ensures r.Some? ==> r.value.mapName == name && r.value in all
    ensures r.None? <==> forall i | 0 <= i < |all| :: all[i].mapName != name
  {
    match Find(all, name)
    case None => None
    case Some(k) => Some(all[k])
  }

  /**
   * `put`: a name already present keeps its position and gets the new
   * record; a new name is appended.
   */
  function Put(all: seq<Entry>, e: Entry): (r: seq<Entry>)
    ensures DistinctNames(all) ==> DistinctNames(r)
    ensures Lookup(r, e.mapName) == Some(e)
    ensures forall n :: n != e.mapName ==> Lookup(r, n) == Lookup(all, n)
    ensures Find(all, e.mapName).Some? ==> |r| == |all| && forall i | 0 <= i < |all| :: r[i].mapName == all[i].mapName
    ensures Find(all, e.mapName).None? ==> r == all + [e]
  {
    match Find(all, e.mapName)
    case None =>
      assert forall n :: Find(all + [e], n) == if n == e.mapName then Some(|all|) else Find(all, n) by {
        forall n ensures Find(all + [e], n) == if n == e.mapName then Some(|all|) else Find(all, n) {
          FindSnoc(all, e, n);
        }
      }
      all + [e]
    case Some(k) =>
      var r := all[k := e];
      FindAt(r, k, e.mapName);
      assert forall n :: n != e.mapName ==> Find(r, n) == Find(all, n) by {
        forall n | n != e.mapName
          ensures Find(r, n) == Find(all, n)
        {
          FindUnchanged(all, k, e, n);
        }
      }
      r
  }

  /** The first index carrying a name is what `Find` returns. */
  lemma {:induction false} FindAt(all: seq<Entry>, k: nat, name: string)
    requires k < |all| && all[k].mapName == name
    requires forall i | 0 <= i < k :: all[i].mapName != name
    ensures Find(all, name) == Some(k)
  {
  }

  lemma {:induction false} FindSnoc(all: seq<Entry>, e: Entry, n: string)
    requires Find(all, e.mapName).None?
    ensures Find(all + [e], n) == if n == e.mapName then Some(|all|) else Find(all, n)
    decreases |all|
  {
    if all == [] {
      assert [] + [e] == [e];
    } else {
      assert (all + [e])[1..] == all[1..] + [e];
      FindSnoc(all[1..], e, n);
    }
  }

  lemma {:induction false} FindUnchanged(all: seq<Entry>, k: nat, e: Entry, n: string)
    requires k < |all| && all[k].mapName == e.mapName && n != e.mapName
    ensures Find(all[k := e], n) == Find(all, n)
    decreases |all|
  {
    if all != [] && all[0].mapName != n && k > 0 {
      assert all[k := e][1..] == all[1..][k - 1 := e];
      FindUnchanged(all[1..], k - 1, e, n);
    }
  }

  // ---------------------------------------------------------------------------
  // Reading and writing the whole file
  // ---------------------------------------------------------------------------

  /**
   * One record line read back, with the digest part when there is one;
   * None where slicing or `fromBody` throws.
   */
  function ReadRecord(ln: string): (r: Option<(Entry, Option<string>)>)
    ensures r.Some? ==> SplitLine(ln).Some? && r.value.0.mapName == SplitLine(ln).value.name && r.value.1 == SplitLine(ln).value.md5
  {
    match SplitLine(ln)
    case None => None
    case Some(p) =>
      match FromBody(p.name, p.body)
      case None => None
      case Some(e) => Some((e, p.md5))
  }

  /** A written line reads back as its record and digest. */
  lemma {:induction false} ReadRecordWritten(e: Entry, md5: string -> Digest)
    requires Storable(e)
    ensures ReadRecord(EntryLine(e, md5)) == Some((e, Some(md5(ToBody(e)))))
  {
    EntryLineReadsBack(e, md5);
  }

  /** Every line read on its own. */
  function ReadRecords(lines: seq<string>): (rs: seq<Option<(Entry, Option<string>)>>)
    ensures |rs| == |lines| && forall i | 0 <= i < |lines| :: rs[i] == ReadRecord(lines[i])
  {
    seq(|lines|, i requires 0 <= i < |lines| => ReadRecord(lines[i]))
  }

  /**
   * The reading loop over record lines, putting each record into `all`;
   * it stops at the first unreadable line and says whether every line was read.
   */
  function ReadEntries(rs: seq<Option<(Entry, Option<string>)>>, all: seq<Entry>): (r: (seq<Entry>, bool))
    ensures DistinctNames(all) ==> DistinctNames(r.0)
    ensures r.1 <==> forall i | 0 <= i < |rs| :: rs[i].Some?
    decreases |rs|
  {
    if rs == [] then (all, true)
    else match rs[0]
      case None => (all, false)
      case Some((e, _)) => ReadEntries(rs[1..], Put(all, e))
  }

  /**
   * `loadEntries` / `loadAllEntries`: the records of the file.  On an
   * unreadable line the lenient utility keeps what it had read so far and
   * the strict one returns an empty map.
   */
  function LoadEntries(v: Saver, file: seq<string>): (all: seq<Entry>)
    ensures DistinctNames(all)
    ensures v == Strict && |file| > 0 && !ReadEntries(ReadRecords(file[1..]), []).1 ==> all == []
    ensures |file| > 0 && ReadEntries(ReadRecords(file[1..]), []).1 ==> all == ReadEntries(ReadRecords(file[1..]), []).0
  {
    if |file| == 0 then []
    else
      var (all, complete) := ReadEntries(ReadRecords(file[1..]), []);
      if v == Strict && !complete then [] else all
  }

  function EntryLines(all: seq<Entry>, md5: string -> Digest): (lines: seq<string>)
    ensures |lines| == |all| && forall i | 0 <= i < |all| :: lines[i] == EntryLine(all[i], md5)
  {
    if all == [] then [] else [EntryLine(all[0], md5)] + EntryLines(all[1..], md5)
  }

  /** `rewriteEntries` / `rewriteAllEntries`: the header, then one line per record in map order. */
  function RenderFile(header: string, all: seq<Entry>, md5: string -> Digest): (file: seq<string>)
    ensures |file| == |all| + 1 && file[0] == header && file[1..] == EntryLines(all, md5)
  {
    [header] + EntryLines(all, md5)
  }

  predicate AllStorable(all: seq<Entry>)
  {
    forall i | 0 <= i < |all| :: Storable(all[i])
  }

  /** Reading written lines gives back every record, in order, after the ones already read. */
  lemma {:induction false} ReadWritten(all: seq<Entry>, acc: seq<Entry>, md5: string -> Digest)
    requires AllStorable(all) && DistinctNames(acc + all)
    ensures ReadEntries(ReadRecords(EntryLines(all, md5)), acc) == (acc + all, true)
  {
    var rs := ReadRecords(EntryLines(all, md5));
    forall i | 0 <= i < |all| ensures rs[i].Some? && rs[i].value.0 == all[i] {
      ReadRecordWritten(all[i], md5);
    }
    ReadAll(rs, all, acc);
  }

  /** Lines that each read as the next record are read, in order, as all of them. */
  lemma {:induction false} ReadAll(rs: seq<Option<(Entry, Option<string>)>>, all: seq<Entry>, acc: seq<Entry>)
    requires |rs| == |all| && DistinctNames(acc + all)
    requires forall i | 0 <= i < |all| :: rs[i].Some? && rs[i].value.0 == all[i]
    ensures ReadEntries(rs, acc) == (acc + all, true)
    decreases |all|
  {
    if all == [] {
      assert acc + all == acc;
    } else {
      var e := all[0];
      assert ReadEntries(rs, acc) == ReadEntries(rs[1..], Put(acc, e));
      PutFresh(acc, all);
      ReadAll(rs[1..], all[1..], acc + [e]);
    }
  }

  /** A name not yet in the map is appended, and the rest stays distinct after it. */
  lemma {:induction false} PutFresh(acc: seq<Entry>, all: seq<Entry>)
    requires |all| > 0 && DistinctNames(acc + all)
    ensures Put(acc, all[0]) == acc + [all[0]]
    ensures (acc + [all[0]]) + all[1..] == acc + all
    ensures DistinctNames((acc + [all[0]]) + all[1..])
  {
    assert (acc + [all[0]]) + all[1..] == acc + all;
    forall i | 0 <= i < |acc| ensures acc[i].mapName != all[0].mapName {
      assert (acc + all)[i] == acc[i] && (acc + all)[|acc|] == all[0];
    }
  }

  /** A written file reads back as exactly the map it was written from, with either utility. */
  lemma {:induction false} LoadWritten(v: Saver, header: string, all: seq<Entry>, md5: string -> Digest)
    requires AllStorable(all) && DistinctNames(all)
    ensures LoadEntries(v, RenderFile(header, all, md5)) == all
  {
    assert [] + all == all;
    ReadWritten(all, [], md5);
  }

  /** Every line of a written file passes both format checks' patterns; the strict one when no counter is negative. */
  lemma {:induction false} WrittenFileChecks(header: string, all: seq<Entry>, md5: string -> Digest)
    requires AllStorable(all)
    ensures CheckFormat(RenderFile(header, all, md5))
    ensures (forall i | 0 <= i < |all| :: CountersNonNegative(all[i])) ==> CheckFormatLines(RenderFile(header, all, md5))
  {
    var file := RenderFile(header, all, md5);
    forall i | 1 <= i < |file|
      ensures RecordShape(Trim(file[i]))
      ensures CountersNonNegative(all[i - 1]) ==> StrictLineOk(Trim(file[i]))
    {
      assert file[i] == EntryLine(all[i - 1], md5);
      EntryLineShape(all[i - 1], md5);
      EntryLineStrict(all[i - 1], md5);
    }
  }

  predicate CountersNonNegative(e: Entry)
  {
    e.completedCount >= 0 && e.bestTime >= 0 && e.bestMoves >= 0 && e.movesSoFar >= 0 && e.elapsedSoFar >= 0
  }

  // ---------------------------------------------------------------------------
  // Record updates
  // ---------------------------------------------------------------------------

  /**
   * `update`: the new counters, flags, mode, elapsed time and a copy of the
   * history; the move count is the history's length.  Name and level digest stay.
   */
  function Update(e: Entry, c: Int32, t: Int64, m: Int32, inGame: bool, mode: string, history: History, elapsed: Int64): (r: Entry)
    ensures r.mapName == e.mapName && r.mapMd5 == e.mapMd5
    ensures r.completedCount == c && r.bestTime == t && r.bestMoves == m && r.inGame == inGame && r.mode == mode
    ensures r.history == history && r.movesSoFar == |history| && r.elapsedSoFar == elapsed
  {
    e.(completedCount := c, bestTime := t, bestMoves := m, inGame := inGame, mode := mode,
       history := history, movesSoFar := |history|, elapsedSoFar := elapsed)
  }

  /** Updating twice is updating with the second values: no field of the first survives. */
  lemma {:induction false} UpdateOverwrites(e: Entry, c1: Int32, t1: Int64, m1: Int32, g1: bool, mode1: string, h1: History, el1: Int64,
                                            c2: Int32, t2: Int64, m2: Int32, g2: bool, mode2: string, h2: History, el2: Int64)
    ensures Update(Update(e, c1, t1, m1, g1, mode1, h1, el1), c2, t2, m2, g2, mode2, h2, el2) == Update(e, c2, t2, m2, g2, mode2, h2, el2)
  {
  }

  /**
   * `truncateHistory(k)`: the first k moves kept, the move count k and the
   * elapsed time k seconds.
   */
  function Truncate(e: Entry, k: nat): (r: Entry)
    requires k <= |e.history|
    ensures r.history == e.history[..k] && r.movesSoFar == k && r.elapsedSoFar == 1000 * k
    ensures r == e.(history := r.history, movesSoFar := r.movesSoFar, elapsedSoFar := r.elapsedSoFar)
  {
    e.(history := e.history[..k], movesSoFar := k, elapsedSoFar := k * 1000)
  }

  /** Truncating further is truncating once to the shorter length. */
  lemma {:induction false} TruncateTwice(e: Entry, k: nat, j: nat)
    requires j <= k <= |e.history|
    ensures Truncate(Truncate(e, k), j) == Truncate(e, j)
  {
    assert e.history[..k][..j] == e.history[..j];
  }

  // ---------------------------------------------------------------------------
  // Saving
  // ---------------------------------------------------------------------------

  /** The first line: the level name for a manual save, "null" otherwise. */
  function Header(recent: Option<string>): (h: string)
    ensures recent.None? ==> h == "null"
    ensures recent.Some? ==> h == recent.value
  {
    match recent
    case None => "null"
    case Some(n) => n
  }

  /**
   * The record a save writes for the level: the stored one (or a fresh one)
   * with the new values; the strict utility also takes the level's current digest.
   */
  function SavedEntry(v: Saver, all: seq<Entry>, mapName: string, mapMd5: string,
                      c: Int32, t: Int64, m: Int32, inGame: bool, mode: string, history: History, elapsed: Int64): (e: Entry)
    ensures e.mapName == mapName && e.history == history && e.movesSoFar == |history|
    ensures e.completedCount == c && e.bestTime == t && e.bestMoves == m && e.inGame == inGame && e.mode == mode && e.elapsedSoFar == elapsed
    ensures v == Strict || Lookup(all, mapName).None? ==> e.mapMd5 == mapMd5
    ensures v == Lenient && Lookup(all, mapName).Some? ==> e.mapMd5 == Lookup(all, mapName).value.mapMd5
  {
    var stored := Lookup(all, mapName).GetOr(NewEntry(mapName, mapMd5));
    var base := if v == Strict then stored.(mapMd5 := mapMd5) else stored;
    Update(base, c, t, m, inGame, mode, history, elapsed)
  }

  /** `saveInternal`: read the map, merge the level's record, write header and every record. */
  function SaveInternal(v: Saver, file: seq<string>, mapName: string, mapMd5: string,
                        c: Int32, t: Int64, m: Int32, inGame: bool, mode: string, history: History, elapsed: Int64,
                        recent: Option<string>, md5: string -> Digest): (out: seq<string>)
    ensures |out| >= 2 && out[0] == Header(recent)
  {
    var all := LoadEntries(v, file);
    var e := SavedEntry(v, all, mapName, mapMd5, c, t, m, inGame, mode, history, elapsed);
    RenderFile(Header(recent), Put(all, e), md5)
  }

  /** `saveResult`: not in game, header "null". */
  function SaveResult(v: Saver, file: seq<string>, mapName: string, mapMd5: string,
                      c: Int32, t: Int64, m: Int32, mode: string, history: History, elapsed: Int64,
                      md5: string -> Digest): (out: seq<string>)
    ensures |out| >= 2 && out[0] == "null"
  {
    SaveInternal(v, file, mapName, mapMd5, c, t, m, false, mode, history, elapsed, None, md5)
  }

  /** `saveManual`: in game, header the level's name. */
  function SaveManual(v: Saver, file: seq<string>, mapName: string, mapMd5: string,
                      c: Int32, t: Int64, m: Int32, mode: string, history: History, elapsed: Int64,
                      md5: string -> Digest): (out: seq<string>)
    ensures |out| >= 2 && out[0] == mapName
  {
    SaveInternal(v, file, mapName, mapMd5, c, t, m, true, mode, history, elapsed, Some(mapName), md5)
  }

  /**
   * Read-modify-write: reading the saved file gives the old map with the
   * level's record put in (other records unchanged and in their order), as
   * long as every record can be written and read back.
   */
  lemma {:induction false} SaveThenRead(v: Saver, w: Saver, file: seq<string>, mapName: string, mapMd5: string,
                                        c: Int32, t: Int64, m: Int32, inGame: bool, mode: string, history: History, elapsed: Int64,
                                        recent: Option<string>, md5: string -> Digest)
    requires AllStorable(LoadEntries(v, file))
    requires Storable(SavedEntry(v, LoadEntries(v, file), mapName, mapMd5, c, t, m, inGame, mode, history, elapsed))
    ensures var all := LoadEntries(v, file);
      var e := SavedEntry(v, all, mapName, mapMd5, c, t, m, inGame, mode, history, elapsed);
      LoadEntries(w, SaveInternal(v, file, mapName, mapMd5, c, t, m, inGame, mode, history, elapsed, recent, md5)) == Put(all, e)
  {
    var all := LoadEntries(v, file);
    var e := SavedEntry(v, all, mapName, mapMd5, c, t, m, inGame, mode, history, elapsed);
    var merged := Put(all, e);
    PutStorable(all, e);
    LoadWritten(w, Header(recent), merged, md5);
  }

  lemma {:induction false} PutStorable(all: seq<Entry>, e: Entry)
    requires AllStorable(all) && Storable(e)
    ensures AllStorable(Put(all, e))
  {
    var merged := Put(all, e);
    forall i | 0 <= i < |merged| ensures Storable(merged[i]) {
      if Find(all, e.mapName).None? {
        assert merged == all + [e];
      } else if merged[i] != e {
        assert merged[i] == all[i];
      }
    }
  }

  /** A strict save over a file with one unreadable record line drops every other record. */
  lemma {:induction false} StrictSaveDropsOnUnreadable(file: seq<string>, mapName: string, mapMd5: string,
                                                       c: Int32, t: Int64, m: Int32, inGame: bool, mode: string, history: History, elapsed: Int64,
                                                       recent: Option<string>, md5: string -> Digest)
    requires |file| > 0 && !ReadEntries(ReadRecords(file[1..]), []).1
    ensures |SaveInternal(Strict, file, mapName, mapMd5, c, t, m, inGame, mode, history, elapsed, recent, md5)| == 2
  {
  }

  /** The line read as a record for the level `name`. */
  predicate ReadsAs(x: Option<(Entry, Option<string>)>, name: string)
  {
    x.Some? && x.value.0.mapName == name
  }

  /** No line of `rs` reads as a record for `name`. */
  predicate Unread(rs: seq<Option<(Entry, Option<string>)>>, name: string)
  {
    forall i | 0 <= i < |rs| :: !ReadsAs(rs[i], name)
  }

  /** Line `j` reads, and no later line reads as a record for the same level. */
  predicate LastRead(rs: seq<Option<(Entry, Option<string>)>>, j: int)
  {
    0 <= j < |rs| && rs[j].Some? && forall i | j < i < |rs| :: !ReadsAs(rs[i], rs[j].value.0.mapName)
  }

  lemma {:induction false} UnreadTail(rs: seq<Option<(Entry, Option<string>)>>, name: string)
    requires rs != []
    ensures Unread(rs, name) <==> !ReadsAs(rs[0], name) && Unread(rs[1..], name)
  {
    if !ReadsAs(rs[0], name) && Unread(rs[1..], name) {
      forall i | 0 <= i < |rs| ensures !ReadsAs(rs[i], name) {
        if i > 0 {
          assert rs[i] == rs[1..][i - 1];
        }
      }
    }
  }

  lemma {:induction false} LastReadTail(rs: seq<Option<(Entry, Option<string>)>>, j: int)
    requires rs != []
    ensures j == 0 ==> (LastRead(rs, j) <==> rs[0].Some? && Unread(rs[1..], rs[0].value.0.mapName))
    ensures j > 0 ==> (LastRead(rs, j) <==> LastRead(rs[1..], j - 1)) && (j < |rs| ==> rs[1..][j - 1] == rs[j])
  {
    if j == 0 && rs[0].Some? && Unread(rs[1..], rs[0].value.0.mapName) {
      forall i | 0 < i < |rs| ensures !ReadsAs(rs[i], rs[0].value.0.mapName) {
        assert rs[i] == rs[1..][i - 1];
      }
    }
    if j > 0 && LastRead(rs[1..], j - 1) {
      forall i | j < i < |rs| ensures !ReadsAs(rs[i], rs[j].value.0.mapName) {
        assert rs[i] == rs[1..][i - 1];
      }
    }
  }

  /**
   * The evident intent of the reader inside a save: an unreadable line is
   * skipped and every record that reads is kept (the lenient utility stops at
   * it, losing the lines after it; the strict one loses everything).
   */
  function ReadReadable(rs: seq<Option<(Entry, Option<string>)>>, all: seq<Entry>): (r: seq<Entry>)
    ensures DistinctNames(all) ==> DistinctNames(r)
    ensures forall n :: Lookup(all, n).Some? ==> Lookup(r, n).Some?
    ensures forall i | 0 <= i < |rs| && rs[i].Some? :: Lookup(r, rs[i].value.0.mapName).Some?
    ensures forall n :: Lookup(r, n).Some? ==>
      Lookup(all, n).Some? || exists i | 0 <= i < |rs| && rs[i].Some? :: rs[i].value.0.mapName == n
    ensures forall n | Unread(rs, n) :: Lookup(r, n) == Lookup(all, n)
    ensures forall j | LastRead(rs, j) :: Lookup(r, rs[j].value.0.mapName) == Some(rs[j].value.0)
    ensures (forall i | 0 <= i < |rs| :: rs[i].Some?) ==> r == ReadEntries(rs, all).0
    decreases |rs|
  {
    if rs == [] then all
    else
      var next := if rs[0].Some? then Put(all, rs[0].value.0) else all;
      var r := ReadReadable(rs[1..], next);
      ReadableStep(rs, all, r);
      assert (forall i | 0 <= i < |rs| :: rs[i].Some?) ==> r == ReadEntries(rs, all).0 by {
        if forall i | 0 <= i < |rs| :: rs[i].Some? {
          assert forall i | 1 <= i < |rs| :: rs[1..][i - 1] == rs[i];
        }
      }
      r
  }

  /** One line of the corrected reader: what the rest of the lines give determines what the whole gives. */
  lemma {:induction false} ReadableStep(rs: seq<Option<(Entry, Option<string>)>>, all: seq<Entry>, r: seq<Entry>)
    requires rs != []
    requires var next := if rs[0].Some? then Put(all, rs[0].value.0) else all;
      (DistinctNames(next) ==> DistinctNames(r)) &&
      (forall n :: Lookup(next, n).Some? ==> Lookup(r, n).Some?) &&
      (forall i | 0 <= i < |rs[1..]| && rs[1..][i].Some? :: Lookup(r, rs[1..][i].value.0.mapName).Some?) &&
      (forall n :: Lookup(r, n).Some? ==>
        Lookup(next, n).Some? || exists i | 0 <= i < |rs[1..]| && rs[1..][i].Some? :: rs[1..][i].value.0.mapName == n) &&
      (forall n | Unread(rs[1..], n) :: Lookup(r, n) == Lookup(next, n)) &&
      (forall j | LastRead(rs[1..], j) :: Lookup(r, rs[1..][j].value.0.mapName) == Some(rs[1..][j].value.0))
    ensures DistinctNames(all) ==> DistinctNames(r)
    ensures forall n :: Lookup(all, n).Some? ==> Lookup(r, n).Some?
    ensures forall i | 0 <= i < |rs| && rs[i].Some? :: Lookup(r, rs[i].value.0.mapName).Some?
    ensures forall n :: Lookup(r, n).Some? ==>
      Lookup(all, n).Some? || exists i | 0 <= i < |rs| && rs[i].Some? :: rs[i].value.0.mapName == n
    ensures forall n | Unread(rs, n) :: Lookup(r, n) == Lookup(all, n)
    ensures forall j | LastRead(rs, j) :: Lookup(r, rs[j].value.0.mapName) == Some(rs[j].value.0)
  {
    var next := if rs[0].Some? then Put(all, rs[0].value.0) else all;
    forall n | Lookup(all, n).Some? ensures Lookup(r, n).Some? {
      assert Lookup(next, n).Some?;
    }
    forall i | 0 <= i < |rs| && rs[i].Some? ensures Lookup(r, rs[i].value.0.mapName).Some? {
      if i == 0 {
        assert Lookup(next, rs[0].value.0.mapName).Some?;
      } else {
        assert rs[1..][i - 1] == rs[i];
      }
    }
    forall n | Lookup(r, n).Some?
      ensures Lookup(all, n).Some? || exists i | 0 <= i < |rs| && rs[i].Some? :: rs[i].value.0.mapName == n
    {
      if !Lookup(next, n).Some? {
        var i :| 0 <= i < |rs[1..]| && rs[1..][i].Some? && rs[1..][i].value.0.mapName == n;
        assert rs[i + 1] == rs[1..][i];
      } else if !Lookup(all, n).Some? {
        assert rs[0].Some? && rs[0].value.0.mapName == n;
      }
    }
    forall n | Unread(rs, n) ensures Lookup(r, n) == Lookup(all, n) {
      UnreadTail(rs, n);
    }
    forall j | LastRead(rs, j) ensures Lookup(r, rs[j].value.0.mapName) == Some(rs[j].value.0) {
      LastReadTail(rs, j);
    }
  }

  /** Which record the corrected reader keeps for each level, stated over the lines of a save file. */
  lemma {:induction false} ReadableLines(file: seq<string>)
    requires |file| > 0
    ensures var all := ReadReadable(ReadRecords(file[1..]), []);
      (forall n | (forall i | 1 <= i < |file| :: !ReadsAs(ReadRecord(file[i]), n)) :: Lookup(all, n).None?) &&
      forall j | 1 <= j < |file| && ReadRecord(file[j]).Some? &&
                 (forall i | j < i < |file| :: !ReadsAs(ReadRecord(file[i]), ReadRecord(file[j]).value.0.mapName)) ::
        Lookup(all, ReadRecord(file[j]).value.0.mapName) == Some(ReadRecord(file[j]).value.0)
  {
    var rs := ReadRecords(file[1..]);
    assert forall i | 1 <= i < |file| :: rs[i - 1] == ReadRecord(file[i]);
    forall n | (forall i | 1 <= i < |file| :: !ReadsAs(ReadRecord(file[i]), n)) ensures Unread(rs, n) {
      forall i | 0 <= i < |rs| ensures !ReadsAs(rs[i], n) {
        assert rs[i] == ReadRecord(file[i + 1]);
      }
    }
    forall j | 1 <= j < |file| && ReadRecord(file[j]).Some? &&
               (forall i | j < i < |file| :: !ReadsAs(ReadRecord(file[i]), ReadRecord(file[j]).value.0.mapName))
      ensures LastRead(rs, j - 1)
    {
      forall i | j - 1 < i < |rs| ensures !ReadsAs(rs[i], rs[j - 1].value.0.mapName) {
        assert rs[i] == ReadRecord(file[i + 1]);
      }
    }
  }

  /** The records a save starts from when unreadable lines are skipped. */
  function LoadReadable(file: seq<string>): (all: seq<Entry>)
    ensures DistinctNames(all)
    ensures forall i | 1 <= i < |file| && ReadRecord(file[i]).Some? :: Lookup(all, ReadRecord(file[i]).value.0.mapName).Some?
    ensures forall n | (forall i | 1 <= i < |file| :: !ReadsAs(ReadRecord(file[i]), n)) :: Lookup(all, n).None?
    ensures forall j | 1 <= j < |file| && ReadRecord(file[j]).Some? &&
                       (forall i | j < i < |file| :: !ReadsAs(ReadRecord(file[i]), ReadRecord(file[j]).value.0.mapName)) ::
      Lookup(all, ReadRecord(file[j]).value.0.mapName) == Some(ReadRecord(file[j]).value.0)
    ensures |file| > 0 && ReadEntries(ReadRecords(file[1..]), []).1 ==> all == LoadEntries(Lenient, file) == LoadEntries(Strict, file)
  {
    if |file| == 0 then []
    else
      var rs := ReadRecords(file[1..]);
      assert forall i | 1 <= i < |file| :: rs[i - 1] == ReadRecord(file[i]);
      ReadableLines(file);
      ReadReadable(rs, [])
  }

  /** The corrected save: merge the level's record into every record that could be read. */
  function SaveKeepingReadable(v: Saver, file: seq<string>, mapName: string, mapMd5: string,
                               c: Int32, t: Int64, m: Int32, inGame: bool, mode: string, history: History, elapsed: Int64,
                               recent: Option<string>, md5: string -> Digest): (out: seq<string>)
    ensures |out| >= 2 && out[0] == Header(recent)
    ensures |file| > 0 && ReadEntries(ReadRecords(file[1..]), []).1 ==>
      out == SaveInternal(v, file, mapName, mapMd5, c, t, m, inGame, mode, history, elapsed, recent, md5)
  {
    var all := LoadReadable(file);
    var e := SavedEntry(v, all, mapName, mapMd5, c, t, m, inGame, mode, history, elapsed);
    RenderFile(Header(recent), Put(all, e), md5)
  }

  /**
   * Reading back the corrected save finds the level's new record and a record
   * for every other level whose line could be read before, as long as every
   * record can be written and read back.
   */
  lemma {:induction false} SaveKeepsReadable(v: Saver, w: Saver, file: seq<string>, mapName: string, mapMd5: string,
                                             c: Int32, t: Int64, m: Int32, inGame: bool, mode: string, history: History, elapsed: Int64,
                                             recent: Option<string>, md5: string -> Digest)
    requires AllStorable(LoadReadable(file))
    requires Storable(SavedEntry(v, LoadReadable(file), mapName, mapMd5, c, t, m, inGame, mode, history, elapsed))
    ensures var back := LoadEntries(w, SaveKeepingReadable(v, file, mapName, mapMd5, c, t, m, inGame, mode, history, elapsed, recent, md5));
      Lookup(back, mapName) == Some(SavedEntry(v, LoadReadable(file), mapName, mapMd5, c, t, m, inGame, mode, history, elapsed)) &&
      (forall i | 1 <= i < |file| && ReadRecord(file[i]).Some? :: Lookup(back, ReadRecord(file[i]).value.0.mapName).Some?) &&
      forall n | n != mapName :: Lookup(back, n) == Lookup(LoadReadable(file), n)
  {
    var all := LoadReadable(file);
    var e := SavedEntry(v, all, mapName, mapMd5, c, t, m, inGame, mode, history, elapsed);
    PutStorable(all, e);
    LoadWritten(w, Header(recent), Put(all, e), md5);
  }

  // ---------------------------------------------------------------------------
  // History validation and replay
  // ---------------------------------------------------------------------------

  /**
   * `validateHistory` as written: on the board, every entry whose tile is
   * found and whose move is accepted counts; rejected entries are skipped and
   * the count goes on.  An unknown id is skipped by the lenient utility and
   * makes the strict one fail (it moves a null tile).
   */
  function CountAccepted(v: Saver, b: Board, h: seq<MoveEntry>): (r: Option<nat>)
    ensures r.Some? ==> r.value <= |h|
    ensures v == Lenient ==> r.Some?
    decreases |h|
  {
    if h == [] then Some(0)
    else match FirstWithId(b.blocks, h[0].blockId)
      case None => if v == Strict then None else CountAccepted(v, b, h[1..])
      case Some(i) =>
        var mb := MoveBlock(b, i, h[0].dir);
        match CountAccepted(v, mb.1, h[1..])
        case None => None
        case Some(n) => Some(if mb.0 then n + 1 else n)
  }

  /** One history entry applied with checks: None when the tile is unknown or the move is refused. */
  function ApplyEntry(b: Board, me: MoveEntry): (r: Option<Board>)
    ensures r.Some? ==> FirstWithId(b.blocks, me.blockId).Some? && MoveBlock(b, FirstWithId(b.blocks, me.blockId).value, me.dir).0
  {
    match FirstWithId(b.blocks, me.blockId)
    case None => None
    case Some(i) =>
      var mb := MoveBlock(b, i, me.dir);
      if mb.0 then Some(mb.1) else None
  }

  /** Replaying a whole history with every move checked; None at the first unknown tile or refused move. */
  function Replay(b: Board, h: seq<MoveEntry>): (r: Option<Board>)
    decreases |h|
  {
    if h == [] then Some(b)
    else match ApplyEntry(b, h[0])
      case None => None
      case Some(b1) => Replay(b1, h[1..])
  }

  /** The count reaches the history's length exactly when every entry replays. */
  lemma {:induction false} FullCountIsReplay(v: Saver, b: Board, h: seq<MoveEntry>)
    ensures CountAccepted(v, b, h) == Some(|h|) <==> Replay(b, h).Some?
    decreases |h|
  {
    if h != [] {
      match FirstWithId(b.blocks, h[0].blockId)
      case None =>
        assert CountAccepted(v, b, h) != Some(|h|) by {
          if v == Lenient {
            assert CountAccepted(v, b, h) == CountAccepted(v, b, h[1..]);
          }
        }
      case Some(i) =>
        FullCountIsReplay(v, MoveBlock(b, i, h[0].dir).1, h[1..]);
    }
  }

  /**
   * The intended repair: the length of the longest prefix that replays with
   * every move accepted, stopping at the first unknown tile or refused move.
   */
  function ValidPrefix(b: Board, h: seq<MoveEntry>): (k: nat)
    ensures k <= |h|
    decreases |h|
  {
    if h == [] then 0
    else match ApplyEntry(b, h[0])
      case None => 0
      case Some(b1) => 1 + ValidPrefix(b1, h[1..])
  }

  /** The kept prefix replays, and no longer prefix does. */
  lemma {:induction false} ValidPrefixIsLongest(b: Board, h: seq<MoveEntry>)
    ensures Replay(b, h[..ValidPrefix(b, h)]).Some?
    ensures ValidPrefix(b, h) < |h| ==> Replay(b, h[..ValidPrefix(b, h) + 1]).None?
    ensures ValidPrefix(b, h) == |h| <==> Replay(b, h).Some?
    decreases |h|
  {
    if h != [] {
      match ApplyEntry(b, h[0])
      case None =>
        assert h[..1] == [h[0]];
        assert h[..0] == [];
      case Some(b1) =>
        ValidPrefixIsLongest(b1, h[1..]);
        var k := ValidPrefix(b1, h[1..]);
        ReplayPrefixStep(b, b1, h, k + 1);
        ReplayPrefixStep(b, b1, h, |h|);
        if k < |h| - 1 {
          ReplayPrefixStep(b, b1, h, k + 2);
        }
    }
  }

  /** A prefix whose first entry applies replays as the rest of it from the board after that entry. */
  lemma {:induction false} ReplayPrefixStep(b: Board, b1: Board, h: seq<MoveEntry>, n: nat)
    requires 1 <= n <= |h| && ApplyEntry(b, h[0]) == Some(b1)
    ensures Replay(b, h[..n]) == Replay(b1, h[1..][..n - 1])
    ensures n == |h| ==> Replay(b, h[..n]) == Replay(b, h)
  {
    assert h[..n][0] == h[0];
    assert h[..n][1..] == h[1..][..n - 1];
    if n == |h| {
      assert h[..n] == h;
    }
  }

  /** The corrected repair of a record: truncation to the longest replaying prefix. */
  function RepairHistory(b: Board, e: Entry): (r: Entry)
    ensures Replay(b, r.history).Some?
    ensures r.movesSoFar == |r.history| && r.elapsedSoFar == 1000 * |r.history|
    ensures |r.history| <= |e.history| && r.history == e.history[..|r.history|]
  {
    ValidPrefixIsLongest(b, e.history);
    Truncate(e, ValidPrefix(b, e.history))
  }

  /** A one-cell-wide strip with a single small tile in the left cell. */
  function StripBoard(): Board
  {
    NewBoard(1, 2, [Block(1, Small, Cell(0, 0))], [Cell(0, 1)])
  }

  /** A refused move up followed by an accepted move right. */
  const StripHistory: History := [MoveEntry(1, Up), MoveEntry(1, Right)]

  /**
   * Counting skipped entries and then keeping that many from the front can
   * keep a refused move and drop the accepted one: on the strip, the count
   * is 1, the kept prefix is the refused move, and the longest replaying prefix is empty.
   */
  lemma {:induction false} CountKeepsRefusedMove()
    ensures CountAccepted(Lenient, StripBoard(), StripHistory) == Some(1)
    ensures Replay(StripBoard(), StripHistory[..1]).None?
    ensures ValidPrefix(StripBoard(), StripHistory) == 0
  {
    var b := StripBoard();
    assert FirstWithId(b.blocks, 1) == Some(0);
    assert !MoveBlock(b, 0, Up).0;
    var b1 := MoveBlock(b, 0, Right).1;
    assert MoveBlock(b, 0, Right).0 by {
      assert Shift(1, 2, b.blocks, 0, Right).Some?;
    }
    assert StripHistory[1..] == [MoveEntry(1, Right)];
    assert FirstWithId(b1.blocks, 1) == Some(0);
    assert CountAccepted(Lenient, b1, []) == Some(0);
    assert CountAccepted(Lenient, b, StripHistory[1..]) == Some(1);
    assert StripHistory[..1] == [MoveEntry(1, Up)];
  }

  /**
   * The replay at the end of loading: each entry's tile is looked up (the
   * lenient utility through the id map, the strict one by the first tile with
   * the id) and moved, ignoring whether the move is accepted.  An unknown id
   * stops the replay with failure (a null tile in Java), the moves before it applied.
   */
  function ReplayLoose(v: Saver, b: Board, h: seq<MoveEntry>): (r: (Board, bool))
    ensures r.0.rows == b.rows && r.0.cols == b.cols && r.0.goals == b.goals && r.0.initial == b.initial
    ensures |r.0.blocks| == |b.blocks|
    decreases |h|
  {
    if h == [] then (b, true)
    else
      var found := if v == Lenient then FindBlockById(b.blocks, h[0].blockId) else FirstWithId(b.blocks, h[0].blockId);
      match found
      case None => (b, false)
      case Some(i) =>
        var mb := MoveBlock(b, i, h[0].dir);
        assert |mb.1.blocks| == |b.blocks|;
        ReplayLoose(v, mb.1, h[1..])
  }

  /** When every move replays with checks, the loose replay reaches the same board (ids being distinct). */
  lemma {:induction false} LooseReplayAgrees(v: Saver, b: Board, h: seq<MoveEntry>)
    requires UniqueIds(b.blocks) && Replay(b, h).Some?
    ensures ReplayLoose(v, b, h) == (Replay(b, h).value, true)
    decreases |h|
  {
    if h != [] {
      LookupsAgree(b.blocks, h[0].blockId);
      var i := FirstWithId(b.blocks, h[0].blockId).value;
      var b1 := MoveBlock(b, i, h[0].dir).1;
      assert UniqueIds(b1.blocks) by {
        assert forall j | 0 <= j < |b.blocks| :: b1.blocks[j].id == b.blocks[j].id;
      }
      LooseReplayAgrees(v, b1, h[1..]);
    }
  }

  // ---------------------------------------------------------------------------
  // Loading
  // ---------------------------------------------------------------------------

  /** The player's answers to the three confirmations, in the order they are asked. */
  datatype Answers = Answers(lineDigest: bool, mapDigest: bool, truncate: bool)

  datatype LoadError = BadFormat | Unreadable | NoEntry | LineDigestRefused | MapDigestRefused | UnknownTile | HistoryRefused

  datatype Outcome = Loaded(elapsed: Int64) | Failed(error: LoadError)

  /**
   * What a load leaves behind: its outcome, the live board, and the map last
   * written back to the file under the same header (None: the file is untouched).
   */
  datatype LoadResult = LoadResult(outcome: Outcome, board: Board, written: Option<seq<Entry>>)

  /** The save file after a load that started from `lines`. */
  function FileAfter(lines: seq<string>, r: LoadResult, md5: string -> Digest): (file: seq<string>)
    requires |lines| > 0
    ensures |file| > 0 && file[0] == lines[0]
    ensures r.written.None? ==> file == lines
    ensures r.written.Some? ==> file[1..] == EntryLines(r.written.value, md5)
  {
    match r.written
    case None => lines
    case Some(all) => RenderFile(lines[0], all, md5)
  }

  predicate FormatOk(v: Saver, lines: seq<string>)
  {
    if v == Lenient then CheckFormat(lines) else CheckFormatLines(lines)
  }

  /**
   * The reading loop of `load`: every line must read; the digest is taken
   * from the last line naming the level.  A line without a digest part fails
   * when it names the level (lenient) or always (strict).
   */
  function ReadForLoad(v: Saver, rs: seq<Option<(Entry, Option<string>)>>, name: string, all: seq<Entry>, stored: Option<string>): (r: Option<(seq<Entry>, Option<string>)>)
    requires stored.Some? <==> Lookup(all, name).Some?
    ensures r.Some? ==> (r.value.1.Some? <==> Lookup(r.value.0, name).Some?)
    decreases |rs|
  {
    if rs == [] then Some((all, stored))
    else match rs[0]
      case None => None
      case Some((e, digest)) =>
        if (v == Strict || e.mapName == name) && digest.None? then None
        else
          var all' := Put(all, e);
          var stored' := if e.mapName == name then digest else stored;
          assert stored'.Some? <==> Lookup(all', name).Some?;
          ReadForLoad(v, rs[1..], name, all', stored')
  }

  /**
   * The history stage of `load` for the level's record `target` in map `all`:
   * count on a copy of the reset board; a short count asks to truncate and,
   * if accepted, writes the truncated record back; then the kept history is
   * replayed on the reset board.
   */
  function LoadHistory(v: Saver, board: Board, all: seq<Entry>, target: Entry, written: Option<seq<Entry>>, ans: Answers): (r: LoadResult)
    requires Wf(board)
    ensures r.outcome.Failed? ==> r.outcome.error == UnknownTile || r.outcome.error == HistoryRefused
    ensures r.outcome == Failed(HistoryRefused) <==>
      CountAccepted(v, Boards.Copy(Reset(board)), target.history).Some? &&
      CountAccepted(v, Boards.Copy(Reset(board)), target.history).value < |target.history| && !ans.truncate
    ensures r.outcome == Failed(HistoryRefused) ==> r.board == Reset(board) && r.written == written
    ensures CountAccepted(v, Boards.Copy(Reset(board)), target.history) == Some(|target.history|) ==>
      r.written == written && r.board == ReplayLoose(v, Reset(board), target.history).0 &&
      (r.outcome.Loaded? <==> ReplayLoose(v, Reset(board), target.history).1) &&
      (r.outcome.Loaded? ==> r.outcome.elapsed == target.elapsedSoFar)
    ensures var count := CountAccepted(v, Boards.Copy(Reset(board)), target.history);
      count.Some? && count.value < |target.history| && ans.truncate ==>
        r.written == Some(Put(all, Truncate(target, count.value))) &&
        (r.outcome.Loaded? ==> r.outcome.elapsed == 1000 * count.value)
  {
    var live := Reset(board);
    ResetIdempotent(board);
    match CountAccepted(v, Boards.Copy(live), target.history)
    case None => LoadResult(Failed(UnknownTile), live, written)
    case Some(valid) =>
      if valid < |target.history| && !ans.truncate then LoadResult(Failed(HistoryRefused), live, written)
      else
        var kept := if valid < |target.history| then Truncate(target, valid) else target;
        var written' := if valid < |target.history| then Some(Put(all, kept)) else written;
        var (b, ok) := ReplayLoose(v, Reset(live), kept.history);
        if ok then LoadResult(Loaded(kept.elapsedSoFar), b, written') else LoadResult(Failed(UnknownTile), b, written')
  }

  /**
   * The two digest confirmations of `load` for the level's record `target`
   * in map `all`, `lineOk` telling whether the stored record digest matches:
   * an accepted record-digest mismatch writes the map back as read; an
   * accepted level-digest mismatch stores the level's current digest in the
   * record and writes the map back.
   */
  function CheckDigests(v: Saver, board: Board, all: seq<Entry>, lineOk: bool, target: Entry,
                        mapMd5: string, ans: Answers): (r: LoadResult)
    requires Wf(board)
    ensures r.outcome.Failed? ==> r.outcome.error != BadFormat && r.outcome.error != Unreadable && r.outcome.error != NoEntry
    ensures r.outcome.Failed? && r.outcome.error != UnknownTile && r.outcome.error != HistoryRefused ==> r.board == board
    ensures r.outcome == Failed(HistoryRefused) ==> r.board == Reset(board) && !ans.truncate
    ensures r.outcome == Failed(LineDigestRefused) <==> !lineOk && !ans.lineDigest
    ensures r.outcome == Failed(LineDigestRefused) ==> r.written.None?
    ensures r.outcome == Failed(MapDigestRefused) <==> (lineOk || ans.lineDigest) && target.mapMd5 != mapMd5 && !ans.mapDigest
    ensures lineOk && target.mapMd5 == mapMd5 ==> r == LoadHistory(v, board, all, target, None, ans)
  {
    if !lineOk && !ans.lineDigest then LoadResult(Failed(LineDigestRefused), board, None)
    else
      var written := if lineOk then None else Some(all);
      var mapOk := target.mapMd5 == mapMd5;
      if !mapOk && !ans.mapDigest then LoadResult(Failed(MapDigestRefused), board, written)
      else
        var target' := target.(mapMd5 := mapMd5);
        var all' := if mapOk then all else Put(all, target');
        var written' := if mapOk then written else Some(all');
        LoadHistory(v, board, all', target', written', ans)
  }

  /**
   * `load`: the format check, the reading loop, the level's record, the
   * digest confirmations, history validation with an optional truncation,
   * and the replay on the reset board.  The live board is reset once the
   * history stage is reached, whatever follows.
   */
  function Load(v: Saver, lines: seq<string>, board: Board, name: string, mapMd5: string,
                ans: Answers, md5: string -> Digest): (r: LoadResult)
    requires Wf(board)
    ensures r.outcome == Failed(BadFormat) <==> !FormatOk(v, lines) || |lines| < 2
    ensures r.outcome.Failed? && r.outcome.error != UnknownTile && r.outcome.error != HistoryRefused ==> r.board == board
    ensures r.outcome == Failed(HistoryRefused) ==> r.board == Reset(board) && !ans.truncate
    ensures r.outcome == Failed(LineDigestRefused) ==> !ans.lineDigest && r.written.None?
    ensures r.outcome == Failed(MapDigestRefused) ==> !ans.mapDigest
  {
    if !FormatOk(v, lines) || |lines| < 2 then LoadResult(Failed(BadFormat), board, None)
    else match ReadForLoad(v, ReadRecords(lines[1..]), name, [], None)
      case None => LoadResult(Failed(Unreadable), board, None)
      case Some((all, stored)) =>
        match Lookup(all, name)
        case None => LoadResult(Failed(NoEntry), board, None)
        case Some(target) => CheckDigests(v, board, all, stored.value == md5(ToBody(target)), target, mapMd5, ans)
  }

  /** The digest the reading loop should hold for `name` once `all` is read: that of its record. */
  function DigestOf(all: seq<Entry>, name: string, dig: Entry -> string): (d: Option<string>)
    ensures d.Some? <==> Lookup(all, name).Some?
  {
    match Lookup(all, name)
    case None => None
    case Some(e) => Some(dig(e))
  }

  /**
   * Reading records that each carry their own digest ends with the whole map
   * and the digest of the level's record.
   */
  lemma {:induction false} ReadForLoadAll(v: Saver, rs: seq<Option<(Entry, Option<string>)>>, all: seq<Entry>, acc: seq<Entry>,
                                          name: string, dig: Entry -> string)
    requires |rs| == |all| && DistinctNames(acc + all)
    requires forall i | 0 <= i < |all| :: rs[i] == Some((all[i], Some(dig(all[i]))))
    ensures ReadForLoad(v, rs, name, acc, DigestOf(acc, name, dig)) == Some((acc + all, DigestOf(acc + all, name, dig)))
    decreases |all|
  {
    if all == [] {
      assert acc + all == acc;
    } else {
      var e := all[0];
      PutFresh(acc, all);
      assert DigestOf(Put(acc, e), name, dig) == (if e.mapName == name then Some(dig(e)) else DigestOf(acc, name, dig));
      assert forall i | 0 <= i < |all[1..]| :: rs[1..][i] == Some((all[1..][i], Some(dig(all[1..][i]))));
      ReadForLoadAll(v, rs[1..], all[1..], acc + [e], name, dig);
    }
  }

  /** Copying a reset board gives the reset board itself. */
  lemma {:induction false} CopyOfReset(b: Board)
    requires Wf(b)
    ensures Boards.Copy(Reset(b)) == Reset(b)
  {
    var r := Reset(b);
    var c := Boards.Copy(r);
    assert c.blocks == r.blocks;
    assert c.initial == r.initial;
  }

  /** A written file passes the format check of either utility (the strict one needing counters that are not negative). */
  lemma {:induction false} WrittenFileFormat(v: Saver, header: string, all: seq<Entry>, md5: string -> Digest)
    requires AllStorable(all) && |all| > 0
    requires v == Strict ==> forall i | 0 <= i < |all| :: CountersNonNegative(all[i])
    ensures FormatOk(v, RenderFile(header, all, md5)) && |RenderFile(header, all, md5)| >= 2
  {
    WrittenFileChecks(header, all, md5);
  }

  /** The reading loop of `load` over a written file finds every record and the level's digest. */
  lemma {:induction false} WrittenFileReads(v: Saver, header: string, all: seq<Entry>, md5: string -> Digest, name: string)
    requires AllStorable(all) && DistinctNames(all)
    ensures ReadForLoad(v, ReadRecords(RenderFile(header, all, md5)[1..]), name, [], None) ==
      Some((all, DigestOf(all, name, e => md5(ToBody(e)))))
  {
    var dig := (e: Entry) => md5(ToBody(e));
    var rs := ReadRecords(EntryLines(all, md5));
    forall i | 0 <= i < |all| ensures rs[i] == Some((all[i], Some(dig(all[i])))) {
      ReadRecordWritten(all[i], md5);
    }
    ReadForLoadAll(v, rs, all, [], name, dig);
    assert [] + all == all;
  }

  /** A history that replays in full is accepted, kept and replayed as it is. */
  lemma {:induction false} FullHistoryLoads(v: Saver, board: Board, all: seq<Entry>, target: Entry, ans: Answers)
    requires Wf(board) && UniqueIds(board.blocks)
    requires Replay(Reset(board), target.history).Some?
    ensures LoadHistory(v, board, all, target, None, ans) ==
      LoadResult(Loaded(target.elapsedSoFar), Replay(Reset(board), target.history).value, None)
  {
    CopyOfReset(board);
    FullCountIsReplay(v, Reset(board), target.history);
    assert UniqueIds(Reset(board).blocks);
    LooseReplayAgrees(v, Reset(board), target.history);
  }

  /**
   * A file these utilities wrote loads back without a single confirmation:
   * the level's record is found, both digests match, the whole history is
   * accepted, nothing is written back, and the board is the reset board with
   * the history replayed.
   */
  lemma {:induction false} LoadWrittenFile(v: Saver, header: string, all: seq<Entry>, md5: string -> Digest,
                                           board: Board, name: string, ans: Answers)
    requires Wf(board) && UniqueIds(board.blocks)
    requires AllStorable(all) && DistinctNames(all)
    requires v == Strict ==> forall i | 0 <= i < |all| :: CountersNonNegative(all[i])
    requires Lookup(all, name).Some?
    requires Replay(Reset(board), Lookup(all, name).value.history).Some?
    ensures var target := Lookup(all, name).value;
      Load(v, RenderFile(header, all, md5), board, name, target.mapMd5, ans, md5) ==
        LoadResult(Loaded(target.elapsedSoFar), Replay(Reset(board), target.history).value, None)
  {
    var target := Lookup(all, name).value;
    WrittenFileFormat(v, header, all, md5);
    WrittenFileReads(v, header, all, md5, name);
    FullHistoryLoads(v, board, all, target, ans);
  }
}

=== FILE: solver.dfy ===
/**
 * The hint solver: a breadth-first search over board states that returns a
 * shortest list of moves leading to victory, or None when no sequence of
 * moves wins.
 *
 * A state is identified by its key, the multiset of (kind, anchor) pairs of
 * its tiles: two boards whose tiles differ only in ids or in list order
 * have the same key and the search visits only one of them. With exactly
 * one Large tile, boards with equal keys win alike and allow the same moves
 * up to key, which is why the search is still exact.
 */
module Solver {
  import opened Wrappers
  import opened Tiles
  import opened Boards

  /** A hint step: move the tile that covers `from` one cell towards `dir`. */
  datatype Move = Move(from: Cell, dir: Direction)

  /** The puzzle a search runs on: the grid, the goal cells and the starting tiles. */
  datatype Puzzle = Puzzle(rows: int, cols: int, goals: seq<Cell>, start: seq<Block>)

  // ---------------------------------------------------------------------------
  // Paths
  // ---------------------------------------------------------------------------

  /** The direction that undoes a step. */
  function Reverse(d: Direction): (r: Direction)
    ensures r != d && forall p :: Step(Step(p, d), r) == p
  {
    Opposite(d)
  }

  lemma {:induction false} ReverseInvolution(d: Direction)
    ensures Reverse(Reverse(d)) == d
  {
    OppositeInvolution(d);
  }

  /** The backward path `p2`, read from its far end with every direction reversed. */
  function Backwards(p2: seq<Move>): (r: seq<Move>)
    ensures |r| == |p2|
    ensures forall k | 0 <= k < |p2| :: r[k] == Move(p2[|p2| - 1 - k].from, Reverse(p2[|p2| - 1 - k].dir))
  {
    if p2 == [] then [] else
      var last := p2[|p2| - 1];
      [Move(last.from, Reverse(last.dir))] + Backwards(p2[..|p2| - 1])
  }

  /** Joins a forward path with a backward path from the goal side. */
  function MergePaths(p1: seq<Move>, p2: seq<Move>): (r: seq<Move>)
    ensures |r| == |p1| + |p2| && r[..|p1|] == p1
    ensures r[|p1|..] == Backwards(p2)
  {
    p1 + Backwards(p2)
  }

  /** Merging with the empty backward path (the goal itself) leaves the forward path. */
  lemma {:induction false} MergeWithGoal(p: seq<Move>)
    ensures MergePaths(p, []) == p
  {
    assert MergePaths(p, [])[..|p|] == p;
  }

  // ---------------------------------------------------------------------------
  // State keys
  // ---------------------------------------------------------------------------

  /** What the state key records of one tile: its shape (hence its size) and its anchor. */
  datatype Placement = Placement(kind: Kind, pos: Cell)

  function PlacementOf(t: Block): Placement
  {
    Placement(t.kind, t.pos)
  }

  /** The placements of a tile list, in list order. */
  function Places(ts: seq<Block>): seq<Placement>
    decreases |ts|
  {
    if ts == [] then [] else Places(ts[..|ts| - 1]) + [PlacementOf(ts[|ts| - 1])]
  }

  lemma {:induction false} PlacesAt(ts: seq<Block>)
    ensures |Places(ts)| == |ts| && forall k | 0 <= k < |ts| :: Places(ts)[k] == PlacementOf(ts[k])
    decreases |ts|
  {
    if ts != [] {
      PlacesAt(ts[..|ts| - 1]);
    }
  }

  /** The state key: the sorted list of tile descriptions is the multiset of placements. */
  function Key(ts: seq<Block>): multiset<Placement>
  {
    multiset(Places(ts))
  }

  lemma {:induction false} KeyUpdate(ts: seq<Block>, i: nat, t: Block)
    requires i < |ts|
    ensures Key(ts[i := t]) == Key(ts) - multiset{PlacementOf(ts[i])} + multiset{PlacementOf(t)}
  {
    PlacesAt(ts);
    PlacesAt(ts[i := t]);
    assert Places(ts[i := t]) == Places(ts)[i := PlacementOf(t)];
  }

  /** The key ignores tile ids. */
  lemma {:induction false} KeyIgnoresId(ts: seq<Block>, i: nat, id: JavaText.Int32)
    requires i < |ts|
    ensures Key(ts[i := ts[i].(id := id)]) == Key(ts)
  {
    KeyUpdate(ts, i, ts[i].(id := id));
    InKey(ts, i);
  }

  /** The key ignores the order of the tile list: swapping two tiles keeps it. */
  lemma {:induction false} KeyIgnoresOrder(ts: seq<Block>, i: nat, j: nat)
    requires i < |ts| && j < |ts|
    ensures Key(ts[i := ts[j]][j := ts[i]]) == Key(ts)
  {
    PlacesAt(ts);
    PlacesAt(ts[i := ts[j]][j := ts[i]]);
    assert Places(ts[i := ts[j]][j := ts[i]]) == Places(ts)[i := PlacementOf(ts[j])][j := PlacementOf(ts[i])];
  }

  lemma {:induction false} InKey(ts: seq<Block>, i: nat)
    requires i < |ts|
    ensures PlacementOf(ts[i]) in Key(ts)
  {
    PlacesAt(ts);
    assert Places(ts)[i] == PlacementOf(ts[i]);
  }

  lemma {:induction false} FromKey(ts: seq<Block>, q: Placement) returns (i: nat)
    requires q in Key(ts)
    ensures i < |ts| && PlacementOf(ts[i]) == q
  {
    var ps := Places(ts);
    PlacesAt(ts);
    assert q in ps;
    i :| 0 <= i < |ps| && ps[i] == q;
  }

  // ---------------------------------------------------------------------------
  // Equal keys, equal futures
  // ---------------------------------------------------------------------------

  /** Shift's success depends only on the placement moved and the multiset of the others. */
  lemma {:induction false} ShiftAgrees(rows: int, cols: int, a: seq<Block>, j: nat, b: seq<Block>, i: nat, d: Direction)
    requires j < |a| && i < |b| && PlacementOf(a[j]) == PlacementOf(b[i])
    requires Key(a) == Key(b)
    requires Shift(rows, cols, a, j, d).Some?
    ensures Shift(rows, cols, b, i, d).Some?
    ensures Key(Shift(rows, cols, b, i, d).value) == Key(Shift(rows, cols, a, j, d).value)
  {
    var k := a[j].kind;
    var next := Step(a[j].pos, d);
    var far := Block(0, Small, Cell(next.row + 5, next.col));
    var fa := a[j := far];
    var fb := b[i := far];
    KeyUpdate(a, j, far);
    KeyUpdate(b, i, far);
    assert Key(fa) == Key(fb);
    forall i', c | 0 <= i' < |b| && i' != i
      ensures !(InRect(k, next, c) && Covers(b[i'], c))
    {
      assert fb[i'] == b[i'];
      if InRect(k, next, c) {
        OtherClear(rows, cols, a, j, d, far, fb, i', c);
      }
    }
    var ra := Shift(rows, cols, a, j, d).value;
    var rb := Shift(rows, cols, b, i, d).value;
    assert ra == a[j := MoveTo(a[j], next)];
    assert rb == b[i := MoveTo(b[i], next)];
    KeyUpdate(a, j, MoveTo(a[j], next));
    KeyUpdate(b, i, MoveTo(b[i], next));
  }

  /** A tile whose placement is among the others' (or the parked stand-in's) misses the moved tile's target. */
  lemma {:induction false} OtherClear(rows: int, cols: int, a: seq<Block>, j: nat, d: Direction, far: Block, fb: seq<Block>, i': nat, c: Cell)
    requires j < |a| && i' < |fb| && Shift(rows, cols, a, j, d).Some?
    requires far.kind == Small && far.pos == Cell(Step(a[j].pos, d).row + 5, Step(a[j].pos, d).col)
    requires Key(a[j := far]) == Key(fb)
    requires InRect(a[j].kind, Step(a[j].pos, d), c)
    ensures !Covers(fb[i'], c)
  {
    var fa := a[j := far];
    InKey(fb, i');
    var j' := FromKey(fa, PlacementOf(fb[i']));
    if j' != j {
      assert fa[j'] == a[j'];
    }
  }

  /** Exactly one tile is Large. */
  predicate OneLarge(ts: seq<Block>)
  {
    exists k | 0 <= k < |ts| :: ts[k].kind == Large && forall k' | 0 <= k' < |ts| && ts[k'].kind == Large :: k' == k
  }

  ghost predicate LargeOnGoals(q: Placement, goals: seq<Cell>)
  {
    q.kind == Large && forall c | InRect(q.kind, q.pos, c) :: c in goals
  }

  /** With one Large tile, victory is a property of the key. */
  lemma {:induction false} VictoryByKey(ts: seq<Block>, goals: seq<Cell>)
    requires OneLarge(ts)
    ensures Victorious(ts, goals) <==> exists q | q in Key(ts) :: LargeOnGoals(q, goals)
  {
    var k :| 0 <= k < |ts| && ts[k].kind == Large && forall k' | 0 <= k' < |ts| && ts[k'].kind == Large :: k' == k;
    assert FirstLarge(ts) == Some(k);
    InKey(ts, k);
    forall q | q in Key(ts) && LargeOnGoals(q, goals)
      ensures Victorious(ts, goals)
    {
      var i := FromKey(ts, q);
      assert i == k;
    }
  }

  lemma {:induction false} VictorySameKey(a: seq<Block>, b: seq<Block>, goals: seq<Cell>)
    requires OneLarge(a) && OneLarge(b) && Key(a) == Key(b)
    ensures Victorious(a, goals) == Victorious(b, goals)
  {
    VictoryByKey(a, goals);
    VictoryByKey(b, goals);
  }

  // ---------------------------------------------------------------------------
  // Replaying hints
  // ---------------------------------------------------------------------------

  /** One hint step on a tile list: the tile at `m.from` moves, or the step is impossible. */
  function ApplyMove(pz: Puzzle, ts: seq<Block>, m: Move): (r: Option<seq<Block>>)
  {
    match GetBlockAt(ts, m.from)
    case None => None
    case Some(j) => Shift(pz.rows, pz.cols, ts, j, m.dir)
  }

  /** The tiles after playing the hint steps `q` in order, or None when a step is impossible. */
  function Replay(pz: Puzzle, ts: seq<Block>, q: seq<Move>): Option<seq<Block>>
    decreases |q|
  {
    if q == [] then Some(ts)
    else match ApplyMove(pz, ts, q[0])
      case None => None
      case Some(t) => Replay(pz, t, q[1..])
  }

  /** A path ending in `m` is played as its prefix followed by `m`. */
  lemma {:induction false} ReplaySnoc(pz: Puzzle, ts: seq<Block>, q: seq<Move>, m: Move)
    ensures Replay(pz, ts, q + [m]) ==
      (match Replay(pz, ts, q) case None => None case Some(t) => ApplyMove(pz, t, m))
    decreases |q|
  {
    if q == [] {
      assert [m][1..] == [];
    } else {
      assert (q + [m])[0] == q[0];
      assert (q + [m])[1..] == q[1..] + [m];
      match ApplyMove(pz, ts, q[0])
      case None =>
      case Some(t) => ReplaySnoc(pz, t, q[1..], m);
    }
  }

  /** The hint path wins the puzzle. */
  predicate Solves(pz: Puzzle, q: seq<Move>)
  {
    match Replay(pz, pz.start, q)
    case None => false
    case Some(t) => Victorious(t, pz.goals)
  }

  /** Same ids and kinds, tile by tile: only positions differ. */
  predicate SameShape(a: seq<Block>, b: seq<Block>)
  {
    |a| == |b| && forall k | 0 <= k < |a| :: a[k].id == b[k].id && a[k].kind == b[k].kind
  }

  /** The puzzles the search is exact on: a legal start with exactly one Large tile. */
  ghost predicate Good(pz: Puzzle)
  {
    Legal(pz.rows, pz.cols, pz.start) && OneLarge(pz.start)
  }

  /** The cells a tile can stand on: the grid, plus the starting anchors of tiles that never move. */
  ghost function Spots(pz: Puzzle): set<Cell>
  {
    (set r, c | 0 <= r < pz.rows && 0 <= c < pz.cols :: Cell(r, c)) +
    (set k | 0 <= k < |pz.start| :: pz.start[k].pos)
  }

  ghost predicate Fits(pz: Puzzle, t: seq<Block>)
  {
    SameShape(pz.start, t) && forall k | 0 <= k < |t| :: t[k].pos in Spots(pz)
  }

  lemma {:induction false} ShiftFacts(pz: Puzzle, ts: seq<Block>, j: nat, d: Direction)
    requires j < |ts| && Shift(pz.rows, pz.cols, ts, j, d).Some?
    ensures SameShape(ts, Shift(pz.rows, pz.cols, ts, j, d).value)
    ensures Fits(pz, ts) ==> Fits(pz, Shift(pz.rows, pz.cols, ts, j, d).value)
    ensures Legal(pz.rows, pz.cols, ts) ==> Legal(pz.rows, pz.cols, Shift(pz.rows, pz.cols, ts, j, d).value)
  {
    var t := Shift(pz.rows, pz.cols, ts, j, d).value;
    var p := t[j].pos;
    assert p in (set r, c | 0 <= r < pz.rows && 0 <= c < pz.cols :: Cell(r, c)) by {
      assert p == Cell(p.row, p.col);
    }
    if Legal(pz.rows, pz.cols, ts) {
      ShiftPreservesLegal(pz.rows, pz.cols, ts, j, d);
    }
  }

  /** Replaying from a fitting tile list keeps the shapes, the spots and legality. */
  lemma {:induction false} ReplayKeeps(pz: Puzzle, ts: seq<Block>, q: seq<Move>)
    requires Fits(pz, ts) && Replay(pz, ts, q).Some?
    ensures Fits(pz, Replay(pz, ts, q).value)
    ensures Legal(pz.rows, pz.cols, ts) ==> Legal(pz.rows, pz.cols, Replay(pz, ts, q).value)
    decreases |q|
  {
    if q != [] {
      var m := q[0];
      var j := GetBlockAt(ts, m.from).value;
      ShiftFacts(pz, ts, j, m.dir);
      ReplayKeeps(pz, Shift(pz.rows, pz.cols, ts, j, m.dir).value, q[1..]);
    }
  }

  lemma {:induction false} StartFits(pz: Puzzle)
    ensures Fits(pz, pz.start)
  {
    forall k | 0 <= k < |pz.start| ensures pz.start[k].pos in Spots(pz) {
      assert pz.start[k].pos in (set k | 0 <= k < |pz.start| :: pz.start[k].pos);
    }
  }

  lemma {:induction false} OneLargeShape(a: seq<Block>, b: seq<Block>)
    requires SameShape(a, b) && OneLarge(a)
    ensures OneLarge(b)
  {
    var k :| 0 <= k < |a| && a[k].kind == Large && forall k' | 0 <= k' < |a| && a[k'].kind == Large :: k' == k;
    forall k' | 0 <= k' < |b| && b[k'].kind == Large
      ensures k' == k
    {
      assert a[k'].kind == b[k'].kind;
    }
    assert b[k].kind == Large;
  }

  /** Every state a path reaches from a good puzzle is legal, has one Large tile and fits. */
  lemma {:induction false} Reached(pz: Puzzle, q: seq<Move>)
    requires Good(pz) && Replay(pz, pz.start, q).Some?
    ensures Fits(pz, Replay(pz, pz.start, q).value)
    ensures Legal(pz.rows, pz.cols, Replay(pz, pz.start, q).value)
    ensures OneLarge(Replay(pz, pz.start, q).value)
  {
    StartFits(pz);
    ReplayKeeps(pz, pz.start, q);
    OneLargeShape(pz.start, Replay(pz, pz.start, q).value);
  }

  /** On a legal board the tile found at an anchor is the tile anchored there. */
  lemma {:induction false} AnchorLookup(rows: int, cols: int, ts: seq<Block>, i: nat)
    requires Legal(rows, cols, ts) && i < |ts|
    ensures GetBlockAt(ts, ts[i].pos) == Some(i)
  {
    forall j | 0 <= j < |ts| && j != i
      ensures !Covers(ts[j], ts[i].pos)
    {
      assert !RectsMeet(ts[j].kind, ts[j].pos, ts[i].kind, ts[i].pos);
    }
    assert Covers(ts[i], ts[i].pos);
  }

  // ---------------------------------------------------------------------------
  // The finite state space
  // ---------------------------------------------------------------------------

  /** Every tile list that keeps the shapes of `ts` and puts each tile on a spot of `spots`. */
  ghost function Configs(ts: seq<Block>, spots: set<Cell>): set<seq<Block>>
    decreases |ts|
  {
    if ts == [] then {[]}
    else set p, rest | p in spots && rest in Configs(ts[1..], spots) :: [ts[0].(pos := p)] + rest
  }

  lemma {:induction false} InConfigs(ts: seq<Block>, spots: set<Cell>, t: seq<Block>)
    requires SameShape(ts, t) && forall k | 0 <= k < |t| :: t[k].pos in spots
    ensures t in Configs(ts, spots)
    decreases |ts|
  {
    if ts != [] {
      InConfigs(ts[1..], spots, t[1..]);
      assert t == [ts[0].(pos := t[0].pos)] + t[1..];
    }
  }

  /** All keys the search can meet. */
  ghost function AllKeys(pz: Puzzle): set<multiset<Placement>>
  {
    set t | t in Configs(pz.start, Spots(pz)) :: Key(t)
  }

  // ---------------------------------------------------------------------------
  // Search invariants
  // ---------------------------------------------------------------------------

  /** The visited map of the search: a key and the path that first reached it. */
  type Visited = map<multiset<Placement>, seq<Move>>

  /** `visited[key]` replays to a state with that key, and that state does not win. */
  ghost predicate EntryOk(pz: Puzzle, visited: Visited, key: multiset<Placement>)
  {
    key in visited && Replay(pz, pz.start, visited[key]).Some? &&
    Key(Replay(pz, pz.start, visited[key]).value) == key &&
    !Victorious(Replay(pz, pz.start, visited[key]).value, pz.goals)
  }

  /** The start has the empty path and every entry is sound. */
  ghost predicate Anchored(pz: Puzzle, visited: Visited)
  {
    Key(pz.start) in visited && visited[Key(pz.start)] == [] &&
    forall key {:trigger EntryOk(pz, visited, key)} | key in visited :: EntryOk(pz, visited, key)
  }

  ghost predicate Bounded(visited: Visited, depth: nat)
  {
    forall key | key in visited :: |visited[key]| <= depth
  }

  /** Anchored, and no recorded path is longer than `depth`. */
  ghost predicate VisitedOk(pz: Puzzle, visited: Visited, depth: nat)
  {
    Anchored(pz, visited) && Bounded(visited, depth)
  }

  /** A queued state is the state its recorded path reaches, at distance `depth`. */
  ghost predicate InLayer(pz: Puzzle, visited: Visited, t: seq<Block>, depth: nat)
  {
    Key(t) in visited && |visited[Key(t)]| == depth && Replay(pz, pz.start, visited[Key(t)]) == Some(t)
  }

  ghost predicate LayerOk(pz: Puzzle, layer: seq<seq<Block>>, visited: Visited, depth: nat)
  {
    forall t {:trigger InLayer(pz, visited, t, depth)} | t in layer :: InLayer(pz, visited, t, depth)
  }

  ghost predicate Queued(layer: seq<seq<Block>>, key: multiset<Placement>)
  {
    exists t | t in layer :: Key(t) == key
  }

  /** Every key recorded at distance `depth` is queued. */
  ghost predicate Frontier(layer: seq<seq<Block>>, visited: Visited, depth: nat)
  {
    forall key {:trigger Queued(layer, key)} | key in visited && |visited[key]| == depth :: Queued(layer, key)
  }

  /** The successor the search generates from tile `i`'s anchor towards `d`. */
  function Gen(pz: Puzzle, t: seq<Block>, i: nat, d: Direction): Option<seq<Block>>
    requires i < |t|
  {
    ApplyMove(pz, t, Move(t[i].pos, d))
  }

  /** The successor generated from tile `i` towards `d`, if any, is recorded at most one step beyond `depth`. */
  ghost predicate Recorded(pz: Puzzle, visited: Visited, t: seq<Block>, i: nat, d: Direction, depth: nat)
    requires i < |t|
  {
    Gen(pz, t, i, d).Some? ==>
      Key(Gen(pz, t, i, d).value) in visited && |visited[Key(Gen(pz, t, i, d).value)]| <= depth + 1
  }

  /** Every generated successor of `t` is recorded. */
  ghost predicate ClosedAt(pz: Puzzle, visited: Visited, t: seq<Block>, depth: nat)
  {
    forall i, d {:trigger Recorded(pz, visited, t, i, d, depth)} | 0 <= i < |t| :: Recorded(pz, visited, t, i, d, depth)
  }

  /** The state recorded under `key` has been expanded. */
  ghost predicate Expanded(pz: Puzzle, visited: Visited, key: multiset<Placement>)
  {
    key in visited && Replay(pz, pz.start, visited[key]).Some? &&
    ClosedAt(pz, visited, Replay(pz, pz.start, visited[key]).value, |visited[key]|)
  }

  /** Every entry nearer than `n` has been expanded. */
  ghost predicate ClosedBelow(pz: Puzzle, visited: Visited, n: nat)
  {
    forall key {:trigger Expanded(pz, visited, key)} | key in visited && |visited[key]| < n :: Expanded(pz, visited, key)
  }

  /** `v1` keeps every entry of `v0` unchanged. */
  ghost predicate Extends(v0: Visited, v1: Visited)
  {
    forall key | key in v0 :: key in v1 && v1[key] == v0[key]
  }

  /** Entries new since `v0` are at distance `depth`. */
  ghost predicate Fresh(v0: Visited, v1: Visited, depth: nat)
  {
    forall key | key in v1 && key !in v0 :: |v1[key]| == depth
  }

  /** The search part-way through the layer at distance `k`, which started from `vL`. */
  ghost predicate Midway(pz: Puzzle, vL: Visited, visited: Visited, next: seq<seq<Block>>, k: nat)
  {
    VisitedOk(pz, visited, k + 1) && Extends(vL, visited) && Fresh(vL, visited, k + 1) &&
    LayerOk(pz, next, visited, k + 1) && Frontier(next, visited, k + 1)
  }

  /** No path of at most `n` steps wins. */
  ghost predicate NoShort(pz: Puzzle, n: nat)
  {
    forall q: seq<Move> | |q| <= n :: !Solves(pz, q)
  }

  // ---------------------------------------------------------------------------
  // Breadth-first completeness
  // ---------------------------------------------------------------------------

  lemma {:induction false} SplitLast(q: seq<Move>)
    requires q != []
    ensures q == q[..|q| - 1] + [q[|q| - 1]]
  {
  }

  /**
   * When every entry nearer than `n` is expanded, every state a path of at
   * most `n` steps reaches has its key recorded, no further away than the
   * path is long.
   */
  lemma {:induction false} Reach(pz: Puzzle, visited: Visited, n: nat, q: seq<Move>)
    requires Good(pz) && Anchored(pz, visited) && ClosedBelow(pz, visited, n)
    requires |q| <= n && Replay(pz, pz.start, q).Some?
    ensures Key(Replay(pz, pz.start, q).value) in visited
    ensures |visited[Key(Replay(pz, pz.start, q).value)]| <= |q|
    decreases |q|
  {
    if q != [] {
      var q', m := q[..|q| - 1], q[|q| - 1];
      SplitLast(q);
      ReplaySnoc(pz, pz.start, q', m);
      Reach(pz, visited, n, q');
      ReachStep(pz, visited, n, q', m);
    }
  }

  /** One more step from a recorded, expanded state lands on a recorded key. */
  lemma {:induction false} ReachStep(pz: Puzzle, visited: Visited, n: nat, q': seq<Move>, m: Move)
    requires Good(pz) && Anchored(pz, visited) && ClosedBelow(pz, visited, n)
    requires |q'| < n && Replay(pz, pz.start, q').Some?
    requires Key(Replay(pz, pz.start, q').value) in visited
    requires |visited[Key(Replay(pz, pz.start, q').value)]| <= |q'|
    requires ApplyMove(pz, Replay(pz, pz.start, q').value, m).Some?
    ensures Key(ApplyMove(pz, Replay(pz, pz.start, q').value, m).value) in visited
    ensures |visited[Key(ApplyMove(pz, Replay(pz, pz.start, q').value, m).value)]| <= |q'| + 1
  {
    var t' := Replay(pz, pz.start, q').value;
    var key := Key(t');
    assert EntryOk(pz, visited, key);
    assert Expanded(pz, visited, key);
    var r := Replay(pz, pz.start, visited[key]).value;
    Reached(pz, q');
    Reached(pz, visited[key]);
    var j := GetBlockAt(t', m.from).value;
    InKey(t', j);
    var i := FromKey(r, PlacementOf(t'[j]));
    ShiftAgrees(pz.rows, pz.cols, t', j, r, i, m.dir);
    AnchorLookup(pz.rows, pz.cols, r, i);
    assert Gen(pz, r, i, m.dir) == Shift(pz.rows, pz.cols, r, i, m.dir);
    assert Recorded(pz, visited, r, i, m.dir, |visited[key]|);
  }

  /** With every entry nearer than `n` expanded, no path of at most `n` steps wins. */
  lemma {:induction false} NoWinWithin(pz: Puzzle, visited: Visited, n: nat)
    requires Good(pz) && Anchored(pz, visited) && ClosedBelow(pz, visited, n)
    ensures NoShort(pz, n)
  {
    forall q: seq<Move> | |q| <= n
      ensures !Solves(pz, q)
    {
      if Replay(pz, pz.start, q).Some? {
        var t := Replay(pz, pz.start, q).value;
        Reach(pz, visited, n, q);
        var key := Key(t);
        assert EntryOk(pz, visited, key);
        Reached(pz, q);
        Reached(pz, visited[key]);
        VictorySameKey(t, Replay(pz, pz.start, visited[key]).value, pz.goals);
      }
    }
  }

  // ---------------------------------------------------------------------------
  // Bookkeeping lemmas of the search
  // ---------------------------------------------------------------------------

  lemma {:induction false} RecordedMono(pz: Puzzle, v0: Visited, v1: Visited, t: seq<Block>, i: nat, d: Direction, depth: nat)
    requires i < |t| && Extends(v0, v1) && Recorded(pz, v0, t, i, d, depth)
    ensures Recorded(pz, v1, t, i, d, depth)
  {
  }

  /** Recording more entries never un-records a successor. */
  lemma {:induction false} ClosedAtMono(pz: Puzzle, v0: Visited, v1: Visited, t: seq<Block>, depth: nat)
    requires Extends(v0, v1) && ClosedAt(pz, v0, t, depth)
    ensures ClosedAt(pz, v1, t, depth)
  {
    forall i, d | 0 <= i < |t|
      ensures Recorded(pz, v1, t, i, d, depth)
    {
      assert Recorded(pz, v0, t, i, d, depth);
      RecordedMono(pz, v0, v1, t, i, d, depth);
    }
  }

  lemma {:induction false} ExtendsTrans(v0: Visited, v1: Visited, v2: Visited)
    requires Extends(v0, v1) && Extends(v1, v2)
    ensures Extends(v0, v2)
  {
  }

  /** The search before its first layer. */
  lemma {:induction false} Initial(pz: Puzzle)
    requires !Victorious(pz.start, pz.goals)
    ensures VisitedOk(pz, map[Key(pz.start) := []], 0)
    ensures LayerOk(pz, [pz.start], map[Key(pz.start) := []], 0)
    ensures Frontier([pz.start], map[Key(pz.start) := []], 0)
    ensures ClosedBelow(pz, map[Key(pz.start) := []], 0)
    ensures NoShort(pz, 0)
  {
    var v := map[Key(pz.start) := []];
    assert Replay(pz, pz.start, []) == Some(pz.start);
    forall key | key in v
      ensures EntryOk(pz, v, key)
    {
    }
    assert InLayer(pz, v, pz.start, 0);
    forall key | key in v && |v[key]| == 0
      ensures Queued([pz.start], key)
    {
      assert pz.start in [pz.start];
    }
    forall q: seq<Move> | |q| <= 0
      ensures !Solves(pz, q)
    {
      assert q == [];
    }
  }

  /** Recording a new, non-winning state at distance `k + 1` keeps the layer invariant. */
  lemma {:induction false} Insert(pz: Puzzle, vL: Visited, visited: Visited, next: seq<seq<Block>>, k: nat, p1: seq<Move>, nt: seq<Block>)
    requires Midway(pz, vL, visited, next, k)
    requires Key(nt) !in visited && |p1| == k + 1
    requires Replay(pz, pz.start, p1) == Some(nt) && !Victorious(nt, pz.goals)
    ensures Midway(pz, vL, visited[Key(nt) := p1], next + [nt], k)
    ensures Extends(visited, visited[Key(nt) := p1])
  {
    InsertAnchored(pz, visited, p1, nt);
    InsertLayer(pz, visited, next, k, p1, nt);
    InsertFrontier(visited, next, k, p1, nt);
  }

  lemma {:induction false} InsertAnchored(pz: Puzzle, visited: Visited, p1: seq<Move>, nt: seq<Block>)
    requires Anchored(pz, visited) && Key(nt) !in visited
    requires Replay(pz, pz.start, p1) == Some(nt) && !Victorious(nt, pz.goals)
    ensures Anchored(pz, visited[Key(nt) := p1])
  {
    var v1 := visited[Key(nt) := p1];
    forall key | key in v1
      ensures EntryOk(pz, v1, key)
    {
      if key != Key(nt) {
        assert EntryOk(pz, visited, key);
      }
    }
  }

  lemma {:induction false} InsertLayer(pz: Puzzle, visited: Visited, next: seq<seq<Block>>, k: nat, p1: seq<Move>, nt: seq<Block>)
    requires LayerOk(pz, next, visited, k + 1) && Key(nt) !in visited
    requires Replay(pz, pz.start, p1) == Some(nt) && |p1| == k + 1
    ensures LayerOk(pz, next + [nt], visited[Key(nt) := p1], k + 1)
  {
    var v1 := visited[Key(nt) := p1];
    forall t | t in next + [nt]
      ensures InLayer(pz, v1, t, k + 1)
    {
      if t != nt {
        assert t in next;
        assert InLayer(pz, visited, t, k + 1);
      }
    }
  }

  lemma {:induction false} InsertFrontier(visited: Visited, next: seq<seq<Block>>, k: nat, p1: seq<Move>, nt: seq<Block>)
    requires Frontier(next, visited, k + 1)
    ensures Frontier(next + [nt], visited[Key(nt) := p1], k + 1)
  {
    var v1 := visited[Key(nt) := p1];
    var n1 := next + [nt];
    forall key | key in v1 && |v1[key]| == k + 1
      ensures Queued(n1, key)
    {
      if key == Key(nt) {
        assert nt in n1;
      } else {
        assert Queued(next, key);
        var t :| t in next && Key(t) == key;
        assert t in n1;
      }
    }
  }

  /** After the whole layer at distance `k` is expanded, every entry nearer than `k + 1` is expanded. */
  lemma {:induction false} LayerDone(pz: Puzzle, vL: Visited, visited: Visited, layer: seq<seq<Block>>, k: nat)
    requires Bounded(vL, k) && ClosedBelow(pz, vL, k)
    requires LayerOk(pz, layer, vL, k) && Frontier(layer, vL, k)
    requires Extends(vL, visited) && Fresh(vL, visited, k + 1)
    requires forall j | 0 <= j < |layer| :: ClosedAt(pz, visited, layer[j], k)
    ensures ClosedBelow(pz, visited, k + 1)
  {
    forall key | key in visited && |visited[key]| < k + 1
      ensures Expanded(pz, visited, key)
    {
      assert key in vL && visited[key] == vL[key];
      if |vL[key]| < k {
        assert Expanded(pz, vL, key);
        ClosedAtMono(pz, vL, visited, Replay(pz, pz.start, vL[key]).value, |vL[key]|);
      } else {
        assert Queued(layer, key);
        var t :| t in layer && Key(t) == key;
        assert InLayer(pz, vL, t, k);
        var j :| 0 <= j < |layer| && layer[j] == t;
        assert ClosedAt(pz, visited, layer[j], k);
      }
    }
  }

  /** When the last layer is empty, every entry is expanded, whatever the bound. */
  lemma {:induction false} Exhausted(pz: Puzzle, visited: Visited, k: nat, n: nat)
    requires Bounded(visited, k) && ClosedBelow(pz, visited, k) && Frontier([], visited, k)
    ensures ClosedBelow(pz, visited, n)
  {
    forall key | key in visited && |visited[key]| < n
      ensures Expanded(pz, visited, key)
    {
      assert !Queued([], key);
      assert |visited[key]| < k;
      assert Expanded(pz, visited, key);
    }
  }

  /** Every recorded key is one of the finitely many keys of the state space. */
  lemma {:induction false} VisitedInAllKeys(pz: Puzzle, visited: Visited)
    requires Anchored(pz, visited)
    ensures visited.Keys <= AllKeys(pz)
  {
    forall key | key in visited
      ensures key in AllKeys(pz)
    {
      assert EntryOk(pz, visited, key);
      var t := Replay(pz, pz.start, visited[key]).value;
      StartFits(pz);
      ReplayKeeps(pz, pz.start, visited[key]);
      InConfigs(pz.start, Spots(pz), t);
    }
  }

  lemma {:induction false} SubsetCard<T>(a: set<T>, b: set<T>)
    requires a <= b
    ensures |a| <= |b|
  {
    assert b == a + (b - a);
  }

  lemma {:induction false} ProperSubsetCard<T>(a: set<T>, b: set<T>)
    requires a <= b && a != b
    ensures |a| < |b|
  {
    var x :| x in b && x !in a;
    assert |b - (b - {x})| == 1;
    SubsetCard(a, b - {x});
  }

  /** A finished layer either records a new key or leaves an empty queue behind. */
  lemma {:induction false} LayerShrinks(pz: Puzzle, vL: Visited, visited: Visited, next: seq<seq<Block>>, k: nat)
    requires Bounded(vL, k) && Midway(pz, vL, visited, next, k)
    ensures next != [] ==> |AllKeys(pz) - visited.Keys| < |AllKeys(pz) - vL.Keys|
    ensures next == [] ==> visited.Keys == vL.Keys
  {
    VisitedInAllKeys(pz, visited);
    if next != [] {
      assert InLayer(pz, visited, next[0], k + 1);
      assert Key(next[0]) in visited.Keys - vL.Keys;
      ProperSubsetCard(AllKeys(pz) - visited.Keys, AllKeys(pz) - vL.Keys);
    } else {
      forall key | key in visited
        ensures key in vL
      {
        assert !Queued([], key);
      }
    }
  }

  // ---------------------------------------------------------------------------
  // The search
  // ---------------------------------------------------------------------------

  /** The puzzle a board poses. */
  function PuzzleOf(b: Board): (pz: Puzzle)
    ensures pz.start == b.blocks && pz.goals == b.goals && pz.rows == b.rows && pz.cols == b.cols
  {
    Puzzle(b.rows, b.cols, b.goals, b.blocks)
  }

  /**
   * One move of the expansion: copy `cur`, take the tile at the anchor of
   * tile `i`, move it towards `d`; a new key is recorded with its path and
   * queued, and a new winning key ends the search with that path.
   */
  method TryMove(pz: Puzzle, cur: seq<Block>, path: seq<Move>, i: nat, d: Direction,
                 visited: Visited, next: seq<seq<Block>>, ghost vL: Visited, ghost k: nat)
    returns (visited': Visited, next': seq<seq<Block>>, found: Option<seq<Move>>)
    requires i < |cur| && Replay(pz, pz.start, path) == Some(cur) && |path| == k
    requires Midway(pz, vL, visited, next, k)
    ensures found.Some? ==> Solves(pz, found.value) && |found.value| == k + 1
    ensures found.None? ==> Midway(pz, vL, visited', next', k) && Extends(visited, visited')
    ensures found.None? ==> Recorded(pz, visited', cur, i, d, k)
  {
    visited', next', found := visited, next, None;
    var pos := cur[i].pos;
    var onNext := GetBlockAt(cur, pos);
    if onNext.None? {
      return;
    }
    var moved := Shift(pz.rows, pz.cols, cur, onNext.value, d);
    if moved.None? {
      return;
    }
    var nt := moved.value;
    var nk := Key(nt);
    if nk in visited {
      return;
    }
    var p1 := path + [Move(pos, d)];
    ReplaySnoc(pz, pz.start, path, Move(pos, d));
    if Victorious(nt, pz.goals) {
      MergeWithGoal(p1);
      found := Some(MergePaths(p1, []));
      return;
    }
    Insert(pz, vL, visited, next, k, p1, nt);
    visited' := visited[nk := p1];
    next' := next + [nt];
  }

  /** The four moves of one tile, in the order of the direction enumeration. */
  method ExpandTile(pz: Puzzle, cur: seq<Block>, path: seq<Move>, i: nat,
                    visited: Visited, next: seq<seq<Block>>, ghost vL: Visited, ghost k: nat)
    returns (visited': Visited, next': seq<seq<Block>>, found: Option<seq<Move>>)
    requires i < |cur| && Replay(pz, pz.start, path) == Some(cur) && |path| == k
    requires Midway(pz, vL, visited, next, k)
    ensures found.Some? ==> Solves(pz, found.value) && |found.value| == k + 1
    ensures found.None? ==> Midway(pz, vL, visited', next', k) && Extends(visited, visited')
    ensures found.None? ==> forall d :: Recorded(pz, visited', cur, i, d, k)
  {
    visited', next', found := TryMove(pz, cur, path, i, Up, visited, next, vL, k);
    if found.Some? {
      return;
    }
    ghost var v1 := visited';
    visited', next', found := TryMove(pz, cur, path, i, Down, visited', next', vL, k);
    if found.Some? {
      return;
    }
    ghost var v2 := visited';
    visited', next', found := TryMove(pz, cur, path, i, Left, visited', next', vL, k);
    if found.Some? {
      return;
    }
    ghost var v3 := visited';
    visited', next', found := TryMove(pz, cur, path, i, Right, visited', next', vL, k);
    if found.Some? {
      return;
    }
    ExtendsTrans(v2, v3, visited');
    ExtendsTrans(v1, v2, visited');
    ExtendsTrans(visited, v1, visited');
    RecordedMono(pz, v1, visited', cur, i, Up, k);
    RecordedMono(pz, v2, visited', cur, i, Down, k);
    RecordedMono(pz, v3, visited', cur, i, Left, k);
    forall d
      ensures Recorded(pz, visited', cur, i, d, k)
    {
      match d
      case Up =>
      case Down =>
      case Left =>
      case Right =>
    }
  }

  /** Expands one queued state: every tile, in list order, in each of the four directions. */
  method ExpandBoard(pz: Puzzle, cur: seq<Block>, path: seq<Move>,
                     visited: Visited, next: seq<seq<Block>>, ghost vL: Visited, ghost k: nat)
    returns (visited': Visited, next': seq<seq<Block>>, found: Option<seq<Move>>)
    requires Replay(pz, pz.start, path) == Some(cur) && |path| == k
    requires Midway(pz, vL, visited, next, k)
    ensures found.Some? ==> Solves(pz, found.value) && |found.value| == k + 1
    ensures found.None? ==> Midway(pz, vL, visited', next', k) && Extends(visited, visited')
    ensures found.None? ==> ClosedAt(pz, visited', cur, k)
  {
    visited', next', found := visited, next, None;
    var i := 0;
    while i < |cur|
      invariant 0 <= i <= |cur| && found.None?
      invariant Midway(pz, vL, visited', next', k) && Extends(visited, visited')
      invariant forall i', d | 0 <= i' < i :: Recorded(pz, visited', cur, i', d, k)
    {
      ghost var before := visited';
      visited', next', found := ExpandTile(pz, cur, path, i, visited', next', vL, k);
      if found.Some? {
        return;
      }
      ExtendsTrans(visited, before, visited');
      RecordedUpTo(pz, before, visited', cur, i, k);
      i := i + 1;
    }
  }

  /** The tiles expanded so far stay recorded once one more tile's moves are. */
  lemma {:induction false} RecordedUpTo(pz: Puzzle, v0: Visited, v1: Visited, cur: seq<Block>, i: nat, k: nat)
    requires i < |cur| && Extends(v0, v1)
    requires forall i', d | 0 <= i' < i :: Recorded(pz, v0, cur, i', d, k)
    requires forall d :: Recorded(pz, v1, cur, i, d, k)
    ensures forall i', d | 0 <= i' < i + 1 :: Recorded(pz, v1, cur, i', d, k)
  {
    forall i', d | 0 <= i' < i + 1
      ensures Recorded(pz, v1, cur, i', d, k)
    {
      if i' < i {
        RecordedMono(pz, v0, v1, cur, i', d, k);
      }
    }
  }

  /** A state of the layer being expanded is still recorded under its path of length `k`. */
  lemma {:induction false} LayerEntry(pz: Puzzle, vL: Visited, visited: Visited, next: seq<seq<Block>>, k: nat, cur: seq<Block>)
    requires Midway(pz, vL, visited, next, k) && InLayer(pz, vL, cur, k)
    ensures Key(cur) in visited && visited[Key(cur)] == vL[Key(cur)]
    ensures Replay(pz, pz.start, visited[Key(cur)]) == Some(cur) && |visited[Key(cur)]| == k
  {
  }

  /** Closing `layer[idx]` extends the closed prefix of the layer by one. */
  lemma {:induction false} ClosedPrefix(pz: Puzzle, v0: Visited, v1: Visited, layer: seq<seq<Block>>, idx: nat, k: nat)
    requires idx < |layer| && Extends(v0, v1) && ClosedAt(pz, v1, layer[idx], k)
    requires forall j | 0 <= j < idx :: ClosedAt(pz, v0, layer[j], k)
    ensures forall j | 0 <= j < idx + 1 :: ClosedAt(pz, v1, layer[j], k)
  {
    forall j | 0 <= j < idx + 1
      ensures ClosedAt(pz, v1, layer[j], k)
    {
      if j < idx {
        ClosedAtMono(pz, v0, v1, layer[j], k);
      }
    }
  }

  /** Expands the whole layer at distance `k`, in queue order, collecting the next layer. */
  method ExpandLayer(pz: Puzzle, layer: seq<seq<Block>>, vL: Visited, ghost k: nat)
    returns (visited: Visited, next: seq<seq<Block>>, found: Option<seq<Move>>)
    requires VisitedOk(pz, vL, k) && LayerOk(pz, layer, vL, k)
    ensures found.Some? ==> Solves(pz, found.value) && |found.value| == k + 1
    ensures found.None? ==> Midway(pz, vL, visited, next, k)
    ensures found.None? ==> forall j | 0 <= j < |layer| :: ClosedAt(pz, visited, layer[j], k)
  {
    visited, next, found := vL, [], None;
    var idx := 0;
    while idx < |layer|
      invariant 0 <= idx <= |layer| && found.None?
      invariant Midway(pz, vL, visited, next, k)
      invariant forall j | 0 <= j < idx :: ClosedAt(pz, visited, layer[j], k)
    {
      var cur := layer[idx];
      assert InLayer(pz, vL, cur, k);
      LayerEntry(pz, vL, visited, next, k, cur);
      var path := visited[Key(cur)];
      ghost var before := visited;
      visited, next, found := ExpandBoard(pz, cur, path, visited, next, vL, k);
      if found.Some? {
        return;
      }
      ClosedPrefix(pz, before, visited, layer, idx, k);
      idx := idx + 1;
    }
  }

  /**
   * `solve`: breadth-first search from the board, layer by layer, recording
   * for every key the path that first reached it. The first winning state
   * discovered ends the search with its path; an exhausted queue means no
   * sequence of moves wins.
   */
  method Solve(b: Board) returns (r: Option<seq<Move>>)
    ensures Victorious(b.blocks, b.goals) ==> r == Some([])
    ensures r.Some? ==> Solves(PuzzleOf(b), r.value)
    ensures Good(PuzzleOf(b)) && r.Some? ==> forall q | Solves(PuzzleOf(b), q) :: |r.value| <= |q|
    ensures Good(PuzzleOf(b)) && r.None? ==> forall q :: !Solves(PuzzleOf(b), q)
  {
    var pz := PuzzleOf(b);
    if Victorious(b.blocks, b.goals) {
      return Some([]);
    }
    var visited := map[Key(pz.start) := []];
    var layer := [pz.start];
    ghost var k: nat := 0;
    Initial(pz);
    while layer != []
      invariant VisitedOk(pz, visited, k) && LayerOk(pz, layer, visited, k) && Frontier(layer, visited, k)
      invariant ClosedBelow(pz, visited, k)
      invariant Good(pz) ==> NoShort(pz, k)
      decreases |AllKeys(pz) - visited.Keys|, |layer|
    {
      ghost var vL := visited;
      var next, found;
      visited, next, found := ExpandLayer(pz, layer, visited, k);
      if found.Some? {
        return found;
      }
      LayerDone(pz, vL, visited, layer, k);
      if Good(pz) {
        NoWinWithin(pz, visited, k + 1);
      }
      LayerShrinks(pz, vL, visited, next, k);
      layer := next;
      k := k + 1;
    }
    forall q: seq<Move>
      ensures Good(pz) ==> !Solves(pz, q)
    {
      if Good(pz) {
        Exhausted(pz, visited, k, |q|);
        NoWinWithin(pz, visited, |q|);
      }
    }
    return None;
  }
}

=== FILE: tiles.dfy ===
/**
 * Tiles of the sliding-block puzzle: the four shapes, their fixed footprints,
 * the cells a tile occupies and the one-cell shift in each direction.
 * A tile is a value; moving it produces a new tile.
 */
module Tiles {
  import opened JavaText

  datatype Kind = Small | Horizontal | Vertical | Large

  datatype Direction = Up | Down | Left | Right

  /** A grid cell; `row` is the point's x coordinate and `col` its y coordinate. */
  datatype Cell = Cell(row: int, col: int)

  /** A footprint: `height` rows by `width` columns. */
  datatype Size = Size(height: nat, width: nat)

  datatype Block = Block(id: Int32, kind: Kind, pos: Cell)

  const AllDirs: seq<Direction> := [Up, Down, Left, Right]

  /** The footprint table of the constructor; Horizontal spans two columns, Vertical two rows. */
  function SizeOf(k: Kind): (sz: Size)
    ensures 1 <= sz.height <= 2 && 1 <= sz.width <= 2
    ensures k == Small <==> sz == Size(1, 1)
    ensures k == Horizontal <==> sz == Size(1, 2)
    ensures k == Vertical <==> sz == Size(2, 1)
    ensures k == Large <==> sz == Size(2, 2)
  {
    match k
    case Small => Size(1, 1)
    case Horizontal => Size(1, 2)
    case Vertical => Size(2, 1)
    case Large => Size(2, 2)
  }

  /** Whether a tile of kind `k` anchored at `p` covers cell `c`. */
  predicate InRect(k: Kind, p: Cell, c: Cell)
  {
    p.row <= c.row < p.row + SizeOf(k).height && p.col <= c.col < p.col + SizeOf(k).width
  }

  predicate Covers(b: Block, c: Cell)
  {
    InRect(b.kind, b.pos, c)
  }

  /**
   * The occupied cells of a tile of kind `k` at `p`, row by row and left to
   * right within a row, as the nested loop over height then width lists them.
   */
  function Footprint(k: Kind, p: Cell): (cells: seq<Cell>)
    ensures |cells| == SizeOf(k).height * SizeOf(k).width
    ensures forall c :: c in cells <==> InRect(k, p, c)
    ensures forall i, j | 0 <= i < j < |cells| :: cells[i] != cells[j]
    ensures cells[0] == p
  {
    var r := p.row;
    var c := p.col;
    match k
    case Small => [p]
    case Horizontal => [p, Cell(r, c + 1)]
    case Vertical => [p, Cell(r + 1, c)]
    case Large => [p, Cell(r, c + 1), Cell(r + 1, c), Cell(r + 1, c + 1)]
  }

  function OccupiedCells(b: Block): (cells: seq<Cell>)
    ensures forall c :: c in cells <==> Covers(b, c)
  {
    Footprint(b.kind, b.pos)
  }

  /** The cell one step away from `p` in direction `d`. */
  function Step(p: Cell, d: Direction): (q: Cell)
    ensures (d == Up || d == Down) ==> q.col == p.col && q.row == p.row + (if d == Down then 1 else -1)
    ensures (d == Left || d == Right) ==> q.row == p.row && q.col == p.col + (if d == Right then 1 else -1)
  {
    match d
    case Up => Cell(p.row - 1, p.col)
    case Down => Cell(p.row + 1, p.col)
    case Left => Cell(p.row, p.col - 1)
    case Right => Cell(p.row, p.col + 1)
  }

  /** The anchor a tile would have after one step in direction `d`. */
  function NextPosition(b: Block, d: Direction): Cell
  {
    Step(b.pos, d)
  }

  function MoveTo(b: Block, p: Cell): (r: Block)
    ensures r.id == b.id && r.kind == b.kind && r.pos == p
  {
    b.(pos := p)
  }

  /** A copy has the same id, kind and position. */
  function Copy(b: Block): (r: Block)
    ensures r.id == b.id && r.kind == b.kind && r.pos == b.pos
  {
    Block(b.id, b.kind, b.pos)
  }

  function Opposite(d: Direction): (o: Direction)
    ensures o != d
    ensures (d == Up || d == Down) <==> (o == Up || o == Down)
  {
    match d
    case Up => Down
    case Down => Up
    case Left => Right
    case Right => Left
  }

  lemma {:induction false} OppositeInvolution(d: Direction)
    ensures Opposite(Opposite(d)) == d
  {
  }

  /** A step followed by the opposite step returns to the start. */
  lemma {:induction false} StepOpposite(p: Cell, d: Direction)
    ensures Step(Step(p, d), Opposite(d)) == p
  {
  }

  /** Shifting a tile moves every covered cell by the same step. */
  lemma {:induction false} StepCovers(b: Block, d: Direction, c: Cell)
    ensures Covers(MoveTo(b, Step(b.pos, d)), Step(c, d)) <==> Covers(b, c)
  {
  }
}

=== FILE: users.dfy ===
/**
 * The user controller: the user table read from and written to the users
 * file, registration, login, logout, switching user, and (in the later
 * controller) changing the password or the name of the logged-in user.
 * The password hash is a parameter; the file's lines are passed in and out.
 */
module Users {
  import opened Wrappers
  import opened JavaText

  /** A user: the name it is stored under, the password hash, and the logged-in flag. */
  datatype User = User(name: string, hash: string, loggedIn: bool)

  /** The table from names to users and the name of the current user, if any. */
  datatype Controller = Controller(users: map<string, User>, current: Option<string>)

  /**
   * The controller's invariant: every user is stored under its own name, the
   * current user is in the table, and a user's flag is set exactly when it
   * is the current user.
   */
  predicate Valid(c: Controller)
  {
    (c.current.Some? ==> c.current.value in c.users) &&
    forall k | k in c.users :: c.users[k].name == k && (c.users[k].loggedIn <==> c.current == Some(k))
  }

  // ---------------------------------------------------------------------------
  // The users file
  // ---------------------------------------------------------------------------

  /** `loadUsers`' test of one line: it holds a user only when it splits on ':' into exactly two fields. */
  function UserOfLine(line: string): (r: Option<(string, string)>)
    ensures r.Some? <==> |Split(line, ':')| == 2
    ensures r.Some? ==> ':' !in r.value.0 && ':' !in r.value.1
  {
    var parts := Split(line, ':');
    if |parts| == 2 then Some((parts[0], parts[1])) else None
  }

  /** Every line read on its own. */
  function UserLines(lines: seq<string>, read: string -> Option<(string, string)>): (r: seq<Option<(string, string)>>)
    ensures |r| == |lines| && forall i | 0 <= i < |lines| :: r[i] == read(lines[i])
  {
    seq(|lines|, i requires 0 <= i < |lines| => read(lines[i]))
  }

  /** The loading loop: each user put under its name, logged out; a later line with the same name wins. */
  function Collect(pairs: seq<Option<(string, string)>>): (r: map<string, User>)
    ensures forall k | k in r :: r[k].name == k && !r[k].loggedIn
    ensures forall k | k in r :: Some((k, r[k].hash)) in pairs
    decreases |pairs|
  {
    if pairs == [] then map[]
    else
      var init := pairs[..|pairs| - 1];
      var m := Collect(init);
      assert forall p | p in init :: p in pairs;
      match pairs[|pairs| - 1]
      case None => m
      case Some((name, hash)) => m[name := User(name, hash, false)]
  }

  /** The table `loadUsers` builds from the file's lines. */
  function LoadUsers(lines: seq<string>): (r: map<string, User>)
    ensures forall k | k in r :: r[k].name == k && !r[k].loggedIn && ':' !in k
  {
    var pairs := UserLines(lines, UserOfLine);
    var r := Collect(pairs);
    assert forall k | k in r :: ':' !in k by {
      forall k | k in r
        ensures ':' !in k
      {
        var i :| 0 <= i < |pairs| && pairs[i] == Some((k, r[k].hash));
        assert UserOfLine(lines[i]) == Some((k, r[k].hash));
      }
    }
    r
  }

  /** The controller right after construction: the loaded table and nobody logged in. */
  function Initial(lines: seq<string>): (c: Controller)
    ensures Valid(c) && c.current.None?
  {
    Controller(LoadUsers(lines), None)
  }

  /** The line `saveUsers` writes for one user. */
  function UserLine(u: User): string
  {
    u.name + ":" + u.hash
  }

  /** `saveUsers`: one line per user, in the table's iteration order `order`. */
  function SavedLines(users: map<string, User>, order: seq<string>): (lines: seq<string>)
    requires forall i | 0 <= i < |order| :: order[i] in users
    ensures |lines| == |order| && forall i | 0 <= i < |order| :: lines[i] == UserLine(users[order[i]])
  {
    seq(|order|, i requires 0 <= i < |order| => UserLine(users[order[i]]))
  }

  /** The table as it reads back: the same users, all logged out. */
  function LoggedOut(users: map<string, User>): (r: map<string, User>)
    ensures r.Keys == users.Keys
  {
    map k | k in users :: users[k].(loggedIn := false)
  }

  /** The order lists every key of the table once. */
  predicate Enumerates(users: map<string, User>, order: seq<string>)
  {
    (forall i | 0 <= i < |order| :: order[i] in users) &&
    (forall k | k in users :: k in order) &&
    (forall i, j | 0 <= i < j < |order| :: order[i] != order[j])
  }

  /** Collecting the name/hash pairs of the first n users of an enumeration gives exactly those users, logged out. */
  lemma {:induction false} CollectPrefix(users: map<string, User>, order: seq<string>, n: nat)
    requires Enumerates(users, order) && n <= |order|
    requires forall k | k in users :: users[k].name == k
    ensures var pairs := seq(n, i requires 0 <= i < n => Some((users[order[i]].name, users[order[i]].hash)));
      Collect(pairs) == map k | k in order[..n] :: users[k].(loggedIn := false)
    decreases n
  {
    var pairs := seq(n, i requires 0 <= i < n => Some((users[order[i]].name, users[order[i]].hash)));
    if n > 0 {
      var init := seq(n - 1, i requires 0 <= i < n - 1 => Some((users[order[i]].name, users[order[i]].hash)));
      assert pairs[..n - 1] == init;
      CollectPrefix(users, order, n - 1);
      var k := order[n - 1];
      assert order[..n] == order[..n - 1] + [k];
      assert pairs[n - 1] == Some((k, users[k].hash));
    }
  }

  /** Any line reader that gives back each saved user's name and hash reloads the table, everyone logged out. */
  lemma {:induction false} SavedUsersCollect(users: map<string, User>, order: seq<string>, read: string -> Option<(string, string)>)
    requires Enumerates(users, order)
    requires forall k | k in users :: users[k].name == k
    requires forall k | k in users :: read(UserLine(users[k])) == Some((k, users[k].hash))
    ensures Collect(UserLines(SavedLines(users, order), read)) == LoggedOut(users)
  {
    var n := |order|;
    var pairs := UserLines(SavedLines(users, order), read);
    var direct := seq(n, i requires 0 <= i < n => Some((users[order[i]].name, users[order[i]].hash)));
    assert pairs == direct;
    CollectPrefix(users, order, n);
    assert order[..n] == order;
  }

  /** A name and a non-empty hash, neither holding ':', split back out of their line. */
  lemma {:induction false} UserLineSplits(name: string, hash: string)
    requires ':' !in name && ':' !in hash && hash != []
    ensures UserOfLine(name + ":" + hash) == Some((name, hash))
  {
    var s := name + [':'] + hash;
    assert name + ":" + hash == s;
    SplitAllCons(name, hash, ':');
    SplitAllSingle(hash);
    assert s[|name|] == ':';
    assert SplitAll(s, ':') == [name, hash];
  }

  /**
   * `saveUsers` then `loadUsers` gives back every user, logged out, when no
   * name or hash holds ':' and no hash is empty (an MD5 hex digest never is).
   */
  lemma {:induction false} SavedUsersReload(c: Controller, order: seq<string>)
    requires Valid(c) && Enumerates(c.users, order)
    requires forall k | k in c.users :: ':' !in k && ':' !in c.users[k].hash && c.users[k].hash != []
    ensures LoadUsers(SavedLines(c.users, order)) == LoggedOut(c.users)
  {
    forall k | k in c.users
      ensures UserOfLine(UserLine(c.users[k])) == Some((k, c.users[k].hash))
    {
      UserLineSplits(k, c.users[k].hash);
    }
    SavedUsersCollect(c.users, order, UserOfLine);
  }

  /** A registered name holding ':' is written as three fields and is not read back. */
  lemma {:induction false} ColonNameLost(a: string, b: string, hash: string)
    requires ':' !in a && ':' !in b && ':' !in hash && hash != []
    ensures UserOfLine(UserLine(User(a + ":" + b, hash, false))) == None
  {
    var s := ThreeFields(a, b, hash);
    assert UserLine(User(a + ":" + b, hash, false)) == s;
    ThreeFieldsRejected(s, [a, b, hash]);
  }

  /** The line of a name `a:b` and its hash splits into three fields. */
  lemma {:induction false} ThreeFields(a: string, b: string, hash: string) returns (s: string)
    requires ':' !in a && ':' !in b && ':' !in hash
    ensures s == a + ":" + b + ":" + hash
    ensures SplitAll(s, ':') == [a, b, hash]
  {
    var tail := b + [':'] + hash;
    s := a + [':'] + tail;
    assert s == a + ":" + b + ":" + hash by {
      assert a + ":" + b + ":" + hash == a + ([':'] + (b + ([':'] + hash)));
      assert s == a + ([':'] + (b + ([':'] + hash)));
    }
    SplitAllCons(b, hash, ':');
    SplitAllCons(a, tail, ':');
    SplitAllSingle(hash);
  }

  /** Three fields, the last one non-empty, are not a user. */
  lemma {:induction false} ThreeFieldsRejected(s: string, all: seq<string>)
    requires SplitAll(s, ':') == all && |all| == 3 && all[2] != []
    ensures UserOfLine(s) == None
  {
    assert ':' in s;
    assert DropTrailingEmpty(all) == all;
  }

  /** A field without ':' splits into itself. */
  lemma {:induction false} SplitAllSingle(f: string)
    requires ':' !in f
    ensures SplitAll(f, ':') == [f]
  {
    assert Join(SplitAll(f, ':'), ':') == SplitAll(f, ':')[0];
  }

  /**
   * The evident intent: split at the last ':', since a hash never holds one,
   * so that every name the registration accepts reads back.
   */
  function UserOfLineLastColon(line: string): (r: Option<(string, string)>)
    ensures r.Some? ==> line == r.value.0 + ":" + r.value.1 && ':' !in r.value.1 && r.value.1 != []
    ensures r.None? <==> ':' !in line || line[|line| - 1] == ':'
  {
    var k := LastIndexOf(line, ':');
    if k < 0 || k == |line| - 1 then None
    else
      assert line == line[..k] + ":" + line[k + 1..];
      Some((line[..k], line[k + 1..]))
  }

  /** With the last-colon reader any name reads back, ':' included. */
  lemma {:induction false} AnyNameReadsBack(name: string, hash: string)
    requires ':' !in hash && hash != []
    ensures UserOfLineLastColon(name + ":" + hash) == Some((name, hash))
  {
    var a := name + ":";
    assert name + ":" + hash == a + hash;
    LastIndexOfSuffix(a, hash, ':');
    assert (a + hash)[..|name|] == name;
    assert (a + hash)[|name| + 1..] == hash;
  }

  /** On every line saved for a name without ':' the two readers read the same user. */
  lemma {:induction false} LastColonAgrees(name: string, hash: string)
    requires ':' !in name && ':' !in hash && hash != []
    ensures UserOfLineLastColon(name + ":" + hash) == UserOfLine(name + ":" + hash) == Some((name, hash))
  {
    UserLineSplits(name, hash);
    AnyNameReadsBack(name, hash);
  }

  /** With the last-colon reader every saved table reloads, whatever its names hold. */
  lemma {:induction false} AnySavedUsersReload(c: Controller, order: seq<string>)
    requires Valid(c) && Enumerates(c.users, order)
    requires forall k | k in c.users :: ':' !in c.users[k].hash && c.users[k].hash != []
    ensures Collect(UserLines(SavedLines(c.users, order), UserOfLineLastColon)) == LoggedOut(c.users)
  {
    forall k | k in c.users
      ensures UserOfLineLastColon(UserLine(c.users[k])) == Some((k, c.users[k].hash))
    {
      AnyNameReadsBack(k, c.users[k].hash);
    }
    SavedUsersCollect(c.users, order, UserOfLineLastColon);
  }

  // ---------------------------------------------------------------------------
  // The controller's operations
  // ---------------------------------------------------------------------------

  /** Only the flags of the table may differ: the same names with the same hashes. */
  predicate SameAccounts(a: map<string, User>, b: map<string, User>)
  {
    a.Keys == b.Keys && forall k | k in a :: a[k].name == b[k].name && a[k].hash == b[k].hash
  }

  /** `register`: a taken name fails and changes nothing; otherwise a logged-out user with the password's hash is added. */
  function Register(c: Controller, hash: string -> string, name: string, password: string): (r: (Controller, bool))
    ensures r.1 <==> name !in c.users
    ensures !r.1 ==> r.0 == c
    ensures r.1 ==> r.0.users.Keys == c.users.Keys + {name} && r.0.current == c.current
    ensures r.1 ==> r.0.users[name].hash == hash(password) && !r.0.users[name].loggedIn
    ensures forall k | k in c.users :: k in r.0.users && r.0.users[k] == c.users[k]
    ensures Valid(c) ==> Valid(r.0)
  {
    if name in c.users then (c, false)
    else (c.(users := c.users[name := User(name, hash(password), false)]), true)
  }

  /** `logout`: the current user's flag is cleared and nobody is current; with nobody logged in nothing changes. */
  function Logout(c: Controller): (r: Controller)
    ensures r.current.None?
    ensures c.current.None? ==> r == c
    ensures SameAccounts(c.users, r.users)
    ensures Valid(c) ==> Valid(r) && forall k | k in r.users :: !r.users[k].loggedIn
  {
    match c.current
    case None => c
    case Some(k) =>
      var users := if k in c.users then c.users[k := c.users[k].(loggedIn := false)] else c.users;
      Controller(users, None)
  }

  /** The password matches the stored hash of a registered name. */
  predicate Credentials(c: Controller, hash: string -> string, name: string, password: string)
  {
    name in c.users && c.users[name].hash == hash(password)
  }

  /**
   * `login`: on matching credentials any current user is logged out, then the
   * named user is flagged and becomes current; otherwise nothing changes.
   */
  function Login(c: Controller, hash: string -> string, name: string, password: string): (r: (Controller, bool))
    ensures r.1 <==> Credentials(c, hash, name, password)
    ensures !r.1 ==> r.0 == c
    ensures r.1 ==> r.0.current == Some(name) && SameAccounts(c.users, r.0.users)
    ensures Valid(c) ==> Valid(r.0)
  {
    if Credentials(c, hash, name, password) then
      var out := if c.current.Some? then Logout(c) else c;
      (Controller(out.users[name := out.users[name].(loggedIn := true)], Some(name)), true)
    else (c, false)
  }

  /** `switchUser`: logout, then login; a failed switch leaves nobody logged in. */
  function SwitchUser(c: Controller, hash: string -> string, name: string, password: string): (r: (Controller, bool))
    ensures r.1 <==> Credentials(c, hash, name, password)
    ensures r.1 ==> r.0.current == Some(name)
    ensures !r.1 ==> r.0.current.None?
    ensures SameAccounts(c.users, r.0.users)
    ensures Valid(c) ==> Valid(r.0)
  {
    Login(Logout(c), hash, name, password)
  }

  /**
   * `changePassword`: fails with nobody logged in or a wrong old password;
   * otherwise the current user's hash becomes that of the new password.
   */
  function ChangePassword(c: Controller, hash: string -> string, oldPassword: string, newPassword: string): (r: (Controller, bool))
    requires Valid(c)
    ensures r.1 <==> c.current.Some? && Credentials(c, hash, c.current.value, oldPassword)
    ensures !r.1 ==> r.0 == c
    ensures r.1 ==> r.0.current == c.current && r.0.users.Keys == c.users.Keys
    ensures r.1 ==> r.0.users[c.current.value].hash == hash(newPassword)
    ensures forall k | k in c.users && Some(k) != c.current :: k in r.0.users && r.0.users[k] == c.users[k]
    ensures Valid(r.0)
  {
    match c.current
    case None => (c, false)
    case Some(k) =>
      if c.users[k].hash != hash(oldPassword) then (c, false)
      else (c.(users := c.users[k := c.users[k].(hash := hash(newPassword))]), true)
  }

  /**
   * `changeUsername`: fails with nobody logged in or when the new name is
   * taken, the user's own name included; otherwise the current user moves
   * from its old name to the new one and stays logged in.
   */
  function ChangeUsername(c: Controller, newName: string): (r: (Controller, bool))
    requires Valid(c)
    ensures r.1 <==> c.current.Some? && newName !in c.users
    ensures !r.1 ==> r.0 == c
    ensures r.1 ==> r.0.users.Keys == c.users.Keys - {c.current.value} + {newName}
    ensures r.1 ==> |r.0.users| == |c.users| && r.0.current == Some(newName)
    ensures r.1 ==> r.0.users[newName].hash == c.users[c.current.value].hash
    ensures forall k | k in c.users && Some(k) != c.current :: k in r.0.users && r.0.users[k] == c.users[k]
    ensures Valid(r.0)
  {
    match c.current
    case None => (c, false)
    case Some(was) =>
      if newName in c.users then (c, false)
      else
        var u := c.users[was];
        var users := (c.users - {was})[newName := u.(name := newName)];
        assert |c.users - {was}| == |c.users| - 1;
        (Controller(users, Some(newName)), true)
  }

  // ---------------------------------------------------------------------------
  // Properties across operations
  // ---------------------------------------------------------------------------

  /** A freshly registered user can log in with the password it registered. */
  lemma {:induction false} RegisterThenLogin(c: Controller, hash: string -> string, name: string, password: string)
    requires name !in c.users
    ensures Login(Register(c, hash, name, password).0, hash, name, password).1
  {
  }

  /** After a password change the new password logs in and an old one with a different hash does not. */
  lemma {:induction false} NewPasswordLogsIn(c: Controller, hash: string -> string, oldPassword: string, newPassword: string, other: string)
    requires Valid(c) && ChangePassword(c, hash, oldPassword, newPassword).1
    requires hash(other) != hash(newPassword)
    ensures var d := ChangePassword(c, hash, oldPassword, newPassword).0;
      SwitchUser(d, hash, c.current.value, newPassword).1 && !SwitchUser(d, hash, c.current.value, other).1
  {
  }

  /** After a rename the user logs in under the new name with the same password, and the old name is free to register. */
  lemma {:induction false} RenamedUserLogsIn(c: Controller, hash: string -> string, newName: string, password: string)
    requires Valid(c) && ChangeUsername(c, newName).1
    ensures var d := ChangeUsername(c, newName).0;
      (SwitchUser(d, hash, newName, password).1 <==> Credentials(c, hash, c.current.value, password)) &&
      Register(d, hash, c.current.value, password).1
  {
  }

  /** Logging out twice is logging out once. */
  lemma {:induction false} LogoutIdempotent(c: Controller)
    ensures Logout(Logout(c)) == Logout(c)
  {
  }

  /** The operations a session can perform on the controller. */
  datatype Op =
    | DoRegister(name: string, password: string)
    | DoLogin(name: string, password: string)
    | DoLogout
    | DoSwitch(name: string, password: string)
    | DoChangePassword(oldPassword: string, newPassword: string)
    | DoChangeUsername(newName: string)

  function Step(c: Controller, hash: string -> string, op: Op): (r: Controller)
    requires Valid(c)
    ensures Valid(r)
  {
    match op
    case DoRegister(n, p) => Register(c, hash, n, p).0
    case DoLogin(n, p) => Login(c, hash, n, p).0
    case DoLogout => Logout(c)
    case DoSwitch(n, p) => SwitchUser(c, hash, n, p).0
    case DoChangePassword(o, p) => ChangePassword(c, hash, o, p).0
    case DoChangeUsername(n) => ChangeUsername(c, n).0
  }

  /** The controller after a session of operations, starting from a loaded file. */
  function Run(lines: seq<string>, hash: string -> string, ops: seq<Op>): (c: Controller)
    decreases |ops|
  {
    if ops == [] then Initial(lines) else Step(Run(lines, hash, ops[..|ops| - 1]), hash, ops[|ops| - 1])
  }

  /**
   * Whatever a session does, at most one user is flagged, and that user is
   * exactly the current one.
   */
  lemma {:induction false} FlagIsCurrent(lines: seq<string>, hash: string -> string, ops: seq<Op>)
    ensures Valid(Run(lines, hash, ops))
    ensures var c := Run(lines, hash, ops);
      forall a, b | a in c.users && b in c.users && c.users[a].loggedIn && c.users[b].loggedIn :: a == b
    decreases |ops|
  {
    if ops != [] {
      FlagIsCurrent(lines, hash, ops[..|ops| - 1]);
    }
  }
}

=== FILE: wrappers.dfy ===
/** Option, the value-level stand-in for a Java reference that may be null. */
module Wrappers {

  datatype Option<+T> = None | Some(value: T) {

    /** The wrapped value, or `default` when there is none. */
    function GetOr(default: T): T
    {
      match this
      case Some(v) => v
      case None => default
    }
  }
}
